=== FILE: README.md ===
# A verified model of the agent service's job pipeline and record stores

This Dafny project models the core of an agent service and its WhatsApp gateway.

**The job pipeline.** A request handler enqueues a job id on a Redis queue. A worker claims the id and moves a per-job state hash through `pending → processing → done/error`. Meanwhile it appends text chunks to a per-job list. Server-sent-event (SSE) readers replay that list from a cursor and tail it until the job reaches a terminal status.

**Around the pipeline.** The project also models:

- the sales-order (SO) batch validation, with its cache and database read-back;
- the byte-level framing of the vLLM event stream;
- tool-call accumulation and message conversion for the LLM;
- Groq tool-name sanitising;
- the agent invocation (history selection, agent choice, output filter);
- the schema text rendered by `get_schema`;
- the CRUD services for messages, conversations and WhatsApp messages, with their dynamic `UPDATE` builders;
- the gateway's Postgres repository, its signed webhook delivery with retries, and the `onMessage` routing decisions.

**How it is modelled.**

- The store is an immutable record. A job's effects are the sequence of writes it makes, and `Store.Run` applies them.
- A reader is a function over the sequence of store snapshots it polls. Each snapshot's list extends the previous one.
- Database tables are sequences of rows in storage order. SQL statements are functions over those sequences.
- These are parameters (oracles):
  - the LLM and the agent runtime;
  - JSON encoding and decoding;
  - HMAC-SHA256;
  - HTTP `POST` outcomes;
  - clocks and generated ids;
  - the remote admin and agent services.

**The modules.** One module per component:

- Helpers: `Wrappers`, `Text`, `Sorting`, `Rows`, `SqlUpdate`, `ChatTables`.
- Store, readers and workers: `Store`, `SseRouter`, `PerformanceApi`, `PerformanceReport`, `LlmWorker`, `SoValidation`, `SoPipeline`.
- LLM side: `SseFraming`, `ChatStream`, `MessageFormat`, `ToolNames`, `InvokeAgent`, `SchemaText`.
- Services and gateway: `MessageService`, `ConversationService`, `WhatsAppService`, `WaRepository`, `WebhookService`, `WhatsAppApp`.

## Model

| member | source | states |
|---|---|---|
| Store.EnqueueJob | src/utils/redis.py:53-69 | the state hash gets status "pending" and `created_at` before the id is pushed on the queue |
| Store.EnqueueEffect | src/utils/redis.py:53-69 | after enqueueing, the job reads as pending with its `created_at`, its id is the last queue entry and no stream changes |
| Store.ClaimJob | src/utils/redis.py:72-81 | an empty queue gives None and leaves the store as it is; otherwise the head of the queue is returned and removed, and nothing else changes |
| Store.FifoClaimOrder | src/utils/redis.py:53-81 | ids enqueued in some order are claimed in that order, after the ids already waiting |
| Store.QueueAfterEnqueues | src/utils/redis.py:69 | a run of enqueues appends the ids to the right of the queue in order |
| Store.DrainIsQueue | src/utils/redis.py:72-81 | claiming until None returns the queue's ids from the left |
| Store.UpdateState | src/utils/redis.py:84-94 | one hash merge whose fields are the extra fields plus `status` |
| Store.UpdateStateEffect | src/utils/redis.py:84-94 | `status` and the extra fields are set, every other field is kept, no transition is checked, other jobs are untouched, and only the state key's expiry is re-armed |
| Store.AppendChunkEffect | src/utils/redis.py:97-104 | the chunk lands at index old-length, earlier chunks, other lists and all state are unchanged, and only the list key's expiry is re-armed |
| Store.HistoryAfterAppends | src/utils/redis.py:97-114 | after appending chunks, `get_stream_history` returns the old history followed by the chunks in append order, and the state is unchanged |
| Store.WaitForStreamItem | src/utils/redis.py:123-154 | a snapshot longer than the cursor yields exactly the chunks from the cursor on; otherwise nothing; never a chunk below the cursor |
| Store.TerminalHasWriter | src/utils/redis.py:84-94 | a terminal status read after some writes was set by one of those writes |
| Store.StreamUntouched | src/utils/redis.py:97-104 | writes that append nothing to a job leave its list unchanged |
| Store.TerminalSeesWholeStream | src/utils/redis.py:141-150 | if a writer sets its terminal status after its last chunk, any intermediate store whose status reads terminal already holds the whole list |
| Store.Lifecycle | src/workers/llm_worker.py:16-34 | a worker's write pattern is "processing", then each chunk in order, then the final status with its extra fields |
| Store.LifecycleEffect | src/workers/llm_worker.py:16-34 | after a lifecycle the job reads with its final status and extra fields, and its list is the old one followed by the chunks |
| Store.LifecycleOrdered | src/workers/llm_worker.py:29-34 | no chunk is appended after the terminal status is written |
| SseRouter.DataEvents | src/sse/router.py:20-22 | one data event per chunk, carrying that chunk, in order |
| SseRouter.Closing | src/sse/router.py:42-49 | the event closing the loop is never a data event |
| SseRouter.Tail | src/sse/router.py:25-53 | in the polling loop, a non-data event can only come last |
| SseRouter.StreamMessageReply | src/sse/router.py:15-36 | the history is replayed first, one data event per chunk in order |
| SseRouter.CatchesUp | src/sse/router.py:31-36 | one poll brings the emitted data exactly up to the polled snapshot |
| SseRouter.TailMatchesStream | src/sse/router.py:25-49 | every data event of the loop carries the stream's chunk at its own index, counted from the cursor |
| SseRouter.EmitsPrefixOfStream | src/sse/router.py:15-49 | the data events are a prefix of the job's stream, with no index twice, skipped or reordered, and at most one terminal event closes them |
| SseRouter.ClosingHasCause | src/sse/router.py:38-49 | "done" is sent only after a state read showing "done"; "error" only after one showing "error", carrying that read's error or "Unknown error" |
| SseRouter.NothingReadAfterHalt | src/sse/router.py:26-49 | after a disconnect or a terminal status, later snapshots cannot change what is emitted |
| SseRouter.MayMissChunksBeforeDone | src/sse/router.py:31-44 | there is no final drain: a chunk appended between the poll and the "done" read is never delivered |
| PerformanceApi.Messages | src/api/performance.py:47-52 | one message event per chunk, in order |
| PerformanceApi.PerfTail | src/api/performance.py:37-73 | an `end` event can only come last |
| PerformanceApi.PerfTailMatches | src/api/performance.py:45-64 | every message event carries the chunk at its own index, counted from the cursor |
| PerformanceApi.ReportStreamIsPrefix | src/api/performance.py:37-71 | the cursor advances by exactly the chunks emitted, so the message events are a prefix of the report's list, closed by at most one `end` |
| PerformanceApi.PerfTailComplete | src/api/performance.py:56-71 | with the final drain, if the list is whole whenever a terminal status is readable, a stream ending in `end` delivered every chunk beyond the cursor |
| PerformanceApi.ReportStreamComplete | src/api/performance.py:37-71 | under that hypothesis a stream ending in `end` is every chunk in order, then `end` |
| PerformanceApi.DisconnectStopsReading | src/api/performance.py:41-42 | a disconnect seen at the top of the loop ends the stream before any read |
| PerformanceApi.GetReportResult | src/api/performance.py:77-96 | 404 "Report not found" iff the state hash is empty; otherwise the status and error from the state, and as the report the job's chunks joined in list order |
| PerformanceApi.ResultIsStreamedText | src/api/performance.py:87-96 | the result's report text is the concatenation of the chunks a complete stream delivered |
| PerformanceApi.ExpiredReportNotFound | src/api/performance.py:83-85 | once the state key has expired the result is 404, even if the list remains |
| PerformanceReport.Qty | src/services/performance_service.py:87-89 | a NULL quantity counts as 0 |
| PerformanceReport.Timeline | src/services/performance_service.py:60-68 | "On-time delivery" iff the receipt is not after the expected date; otherwise "Delayed by N days" with N the difference |
| PerformanceReport.Fulfillment | src/services/performance_service.py:95 | received over PO times 100 when PO is positive, else 0 |
| PerformanceReport.Quality | src/services/performance_service.py:96 | "OK" iff nothing was damaged |
| PerformanceReport.QuantityOf | src/services/performance_service.py:115-122 | shortage iff received < PO, excess iff received > PO, all received iff equal |
| PerformanceReport.Assess | src/services/performance_service.py:131-136 | EXCELLENT iff on time, undamaged and received = PO; GOOD iff on time, undamaged, received > 0 and not EXCELLENT; NEEDS REVIEW otherwise |
| PerformanceReport.ItemRows | src/services/performance_service.py:86-98 | one table row per item, numbered from 1 in item order |
| PerformanceReport.OneQuantityPoint | src/services/performance_service.py:108-127 | exactly one of the summary points is about quantities |
| PerformanceReport.GenerateReport | src/services/performance_service.py:32-144 | for every lookup outcome, NULL dates included, the first write is "processing" and every write is to this report's keys |
| PerformanceReport.OutcomeWrites | src/services/performance_service.py:35-144 | a run's writes: "processing" first, one append per chunk, the terminal status, then any trailing chunk, all to this report's keys |
| PerformanceReport.OutcomeEffect | src/services/performance_service.py:35-144 | after a run the status is "done", or "error" carrying the message, and the stream gained the chunks and then the trailer |
| PerformanceReport.FailedOutcomeNeverDone | src/services/performance_service.py:45-50 | a run that ends in an error writes "done" nowhere |
| PerformanceReport.ProcessingBeforeChunks | src/services/performance_service.py:35-41 | "processing" is written before any chunk |
| PerformanceReport.UnknownGrnOutcome | src/services/performance_service.py:45-50 | an unknown GRN gives the header chunks, then the not-found chunk, then status "error" with "GRN not found"; "done" is never written |
| PerformanceReport.FoundGrnOutcome | src/services/performance_service.py:35-138 | a found GRN gives the whole report in order, with "done" as the last write after the last chunk |
| PerformanceReport.FailedLookupOutcome | src/services/performance_service.py:141-144 | a failing lookup writes status "error" with its text after the header and appends the error chunk after that status |
| PerformanceReport.RaisedOutcome | src/services/performance_service.py:141-144 | a run that raises after some chunks ends with status "error" carrying the text, then the error chunk after it; "done" is never written |
| PerformanceReport.NullDateOutcome | src/services/performance_service.py:56-62 | a NULL date streams the header and the timeline title, then the comparison raises: status "error" with its text, then the error chunk, and nothing more of the body |
| PerformanceReport.TaskWritesUnderReturnedId | src/api/performance.py:20-26 | every write of the scheduled task goes to the report id handed to the client |
| LlmWorker.ProcessJob | src/workers/llm_worker.py:12-55 | the first write is "processing" and every write is to this job |
| LlmWorker.PersistReply | src/workers/llm_worker.py:41-42 | the persisted reply has metadata `{"processed": true}`, and its content is the concatenated chunks with exactly the leading and trailing Python whitespace removed |
| LlmWorker.StreamChunks | src/workers/llm_worker.py:28-31 | the loop appends every chunk in yield order, and the response text is their concatenation |
| LlmWorker.MissingMessageStaysProcessing | src/workers/llm_worker.py:20-23 | a missing assistant message leaves status "processing", an unchanged list and no database write |
| LlmWorker.SuccessfulJob | src/workers/llm_worker.py:16-42 | chunks are appended in yield order before "done", "done" is the last write, and the stripped concatenation is persisted |
| LlmWorker.AgentFailure | src/workers/llm_worker.py:29-53 | an agent exception keeps the chunks already appended, appends no error chunk, sets "error" with the exception text and persists "Error: …" |
| LlmWorker.PersistFailureOverwritesDone | src/workers/llm_worker.py:34-48 | a failure of the database update after "done" moves the status on to "error" |
| LlmWorker.LookupFailure | src/workers/llm_worker.py:16-48 | a failing lookup sets "error" right after "processing" and streams nothing |
| SoValidation.Trunc | src/services/so_validation.py:77 | `int()` of a float truncates toward zero |
| SoValidation.FloatOrNone | src/services/so_validation.py:75-76 | None iff the column is NULL or zero; otherwise the value |
| SoValidation.IntOrNone | src/services/so_validation.py:77 | None iff the column is NULL or zero; otherwise the truncated value |
| SoValidation.Candidate | src/services/so_validation.py:61-65 | a candidate exists iff the reply holds both braces, and it is the text from the first `{` to the last `}` inclusive |
| SoValidation.CandidateIsOutermostBraces | src/services/so_validation.py:62-65 | the candidate starts with the first `{`, ends with the last `}`, and nothing before it is a `{` |
| SoValidation.ReadReply | src/services/so_validation.py:57-70 | no candidate or a failed parse gives ("invalid", raw reply); a parsed object gives its status and message, defaulting to "invalid" and the raw reply |
| SoValidation.UnparsedReplyIsInvalid | src/services/so_validation.py:57-70 | a reply whose candidate does not decode reads as "invalid" with the raw reply |
| SoValidation.DecodedReplyFields | src/services/so_validation.py:67-68 | an empty object falls back to both defaults; an object with both fields supplies both |
| SoValidation.ValidateItem | src/services/so_validation.py:14-84 | a missing product gives "Product ID p not found." and no LLM call; a lookup exception gives that item's error; for a found product the prompt is built from its row, the quantity and the weight, an LLM exception gives that item's error, and a reply gives the status and message read from it with the row's weight, gsm and sheets |
| SoValidation.ValidateSo | src/services/so_validation.py:9-86 | one result per position of the zip (the minimum of the three lengths), result i for product i, and the prompts sent in order |
| SoValidation.PromptsForFoundProducts | src/services/so_validation.py:28-55 | the number of LLM calls equals the number of products found |
| SoValidation.ItemsAreIndependent | src/services/so_validation.py:13-84 | an item's result depends only on that item's lookup and reply, so one item's error does not affect the others |
| SoValidation.MissingProductNoCall | src/services/so_validation.py:28-34 | a product missing from the item master yields the not-found error and no prompt |
| SoPipeline.SubmitEffect | src/api/so_validator.py:28-32 | after submission the input is stored under the id with its expiry, and the id is last in the queue |
| SoPipeline.PendingAfterSubmit | src/api/so_validator.py:58-63 | right after submission, with nothing else stored for the id, the read-back is 202 in progress |
| SoPipeline.Rows | src/workers/so_worker.py:47-59 | row i pairs result i with quantity i, and there are as many rows as the shorter list |
| SoPipeline.ProcessSoJob | src/workers/so_worker.py:15-73 | missing input writes nothing; an early exception caches the error list and keeps the input; success caches the results before inserting rows and deleting the input |
| SoPipeline.SuccessEffect | src/workers/so_worker.py:37-65 | a success caches the results for an hour, adds one row per zipped pair unless the insert fails, and deletes the input either way |
| SoPipeline.FailureKeepsInput | src/workers/so_worker.py:69-73 | the error result replaces any cached one and the input stays |
| SoPipeline.GetSoResults | src/api/so_validator.py:41-69 | database rows first; then the cache; then 202 if the input is still there; then 404; any exception is a failure |
| SoPipeline.DatabaseFirst | src/api/so_validator.py:46-51 | non-empty analysis rows win over the cache |
| SoPipeline.CachedResultsServed | src/api/so_validator.py:53-67 | when the insert raised but the later read works, the read-back after the run returns the cached results |
| SoPipeline.ResultsNeverServedAsWritten | src/api/so_validator.py:46 | as written, a completed run has its results cached, yet the read-back answers with the `TypeError` text |
| SoPipeline.StoredResultsServed | src/workers/so_worker.py:44-59 | with the intended database calls, a run for a new request id stores one row per zipped pair and the read-back returns exactly those rows, or the cached results when there are none |
| SoPipeline.ExpiredInputNotFound | src/api/so_validator.py:58-65 | with no result and the input expired, the answer is 404 "Results not found or expired." |
| SseFraming.ContentItems | src/agentic/llms/vllm.py:117-123 | a frame yields its delta content only when that is non-empty |
| SseFraming.LastFrame | src/agentic/llms/vllm.py:127-136 | the frame left at end of input yields its content items unless its text is empty or `[DONE]`; a UTF-8 decode failure yields no item and the error `Stream error: ` plus the decoder's message |
| SseFraming.SplitAll | src/agentic/llms/vllm.py:104-125 | the input cut at every `data: ` marker; no piece contains the marker |
| SseFraming.SplitJoin | src/agentic/llms/vllm.py:104-125 | cutting at the marker is the inverse of joining marker-free pieces |
| SseFraming.DrainAppend | src/agentic/llms/vllm.py:100-125 | running the buffer loop on more bytes continues where it stopped |
| SseFraming.FeedIsDrain | src/agentic/llms/vllm.py:100-125 | feeding chunks one at a time is the loop run over their concatenation |
| SseFraming.StreamMatchesReference | src/agentic/llms/vllm.py:96-136 | with an intact transport, the generator's output is the reference reading of all the bytes received |
| SseFraming.ChunkingIrrelevant | src/agentic/llms/vllm.py:100-125 | how the bytes are cut into network chunks never changes the output |
| SseFraming.PreambleDiscarded | src/agentic/llms/vllm.py:107-113 | bytes before the first marker are discarded |
| SseFraming.FramesStopAtDone | src/agentic/llms/vllm.py:113-115 | no frame after a `[DONE]` frame is read |
| SseFraming.DoneFrameEndsStream | src/agentic/llms/vllm.py:113-115 | a complete `[DONE]` frame ends the stream whatever bytes follow |
| SseFraming.BrokenTransport | src/agentic/llms/vllm.py:138-139 | a transport exception ends the stream with "Stream error: …", keeping the items already yielded |
| ChatStream.Extend | src/agentic/llms/vllm.py:260-267 | a fragment appends its id, name and arguments to the partial call |
| ChatStream.AddFragment | src/agentic/llms/vllm.py:255-267 | a new index gets an empty entry first; the index defaults to 0 |
| ChatStream.ReadLine | src/agentic/llms/vllm.py:232-267 | a line without the prefix is skipped and `[DONE]` stops; any other `data: ` line is an event exactly when its payload decodes to a well-formed delta, and raises exactly when it decodes to a value of the wrong shape |
| ChatStream.ApplyDelta | src/agentic/llms/vllm.py:246-267 | a non-empty content is yielded at once, and the tool-call fragments are accumulated |
| ChatStream.FragmentsConcatenated | src/agentic/llms/vllm.py:253-267 | the dict has an entry for exactly the indices mentioned, each the per-field concatenation of that index's fragments in arrival order |
| ChatStream.LinesAreDeltas | src/agentic/llms/vllm.py:231-267 | the line loop applies exactly the events before the first `[DONE]` line, or up to the applied part of the first malformed event, whose exception it passes on |
| ChatStream.ChunksAreDeltas | src/agentic/llms/vllm.py:230-267 | the chunk loop applies every chunk's events in turn, up to the first undecodable chunk or malformed event |
| ChatStream.DoneEndsOnlyItsChunk | src/agentic/llms/vllm.py:238-239 | `[DONE]` drops the rest of its own chunk, and later chunks are still read unless an earlier line of the chunk raised |
| ChatStream.FinalCallsOrdered | src/agentic/llms/vllm.py:269-277 | the final calls follow the dict's keys, each once, in strictly ascending order |
| ChatStream.ToolCallsFromFragments | src/agentic/llms/vllm.py:253-279 | one call per mentioned index, ascending, built from that index's concatenated fragments; undecodable arguments become `{}` |
| ChatStream.StreamChatResult | src/agentic/llms/vllm.py:224-283 | the content messages come in event order; a clean end adds one tool-call message when the dict is non-empty; an exception (an undecodable chunk, a malformed event or the transport) ends with "Streaming error: …" and no tool-call message |
| ChatStream.MalformedEventEndsStream | src/agentic/llms/vllm.py:246-283 | a payload that decodes to the wrong shape keeps the content yielded before it, its own included, then ends with "Streaming error: " and its exception, whatever follows |
| MessageFormat.CallId | src/agentic/llms/vllm.py:164 | an absent or empty id becomes `call_i`; a given id is kept; never empty |
| MessageFormat.ConvertCall | src/agentic/llms/vllm.py:163-169 | a call's name is sanitised to `[A-Za-z0-9_-]` and its arguments are sent as text |
| MessageFormat.ImageUrls | src/agentic/llms/vllm.py:148 | each image becomes a base64 JPEG data URL, in order |
| MessageFormat.Convert | src/agentic/llms/vllm.py:141-172 | content is a parts list iff there are images and non-empty text; `tool_call_id` iff the role is "tool"; tool calls iff the message is from the assistant and has some |
| MessageFormat.ConvertAll | src/agentic/llms/vllm.py:181 | every message is converted, in order |
| MessageFormat.GeneratedIdsDistinct | src/agentic/llms/vllm.py:164 | generated call ids are pairwise distinct |
| MessageFormat.SentNamesAreSafe | src/agentic/llms/vllm.py:167 | a name sent uses allowed characters only, keeps its length, keeps an allowed name unchanged and passes the Groq check unchanged |
| MessageFormat.PlainMessage | src/agentic/llms/vllm.py:142-157 | a user or system message without images is sent as role and content alone |
| ToolNames.Sanitize | src/agentic/llms/groq_fixed.py:14 | the same length, only allowed characters, and allowed characters kept in place |
| ToolNames.SanitizeIdempotent | src/agentic/llms/groq_fixed.py:14 | sanitising twice is sanitising once |
| ToolNames.SanitizeKeepsAllowed | src/agentic/llms/groq_fixed.py:13-14 | a name already in the class is unchanged |
| ToolNames.GroqNameAsWritten | src/agentic/llms/groq_fixed.py:12-14 | the code's name keeps the length and is the input whenever the anchored pattern matches |
| ToolNames.FinalNewlinePassesCheck | src/agentic/llms/groq_fixed.py:13 | an allowed name followed by a newline passes the check and is sent with the newline |
| ToolNames.GroqName | src/agentic/llms/groq_fixed.py:12-14 | the intended name has allowed characters only and keeps an allowed name unchanged |
| ToolNames.GroqNameIsSanitize | src/agentic/llms/groq_fixed.py:12-14 | the intended name is always the sanitised one |
| ToolNames.GroqNameAgreesExceptFinalNewline | src/agentic/llms/groq_fixed.py:13-14 | the code and the intended name agree on every other name |
| ToolNames.RequiredNames | src/agentic/llms/groq_fixed.py:27-29 | the names of the required parameters, in declaration order |
| ToolNames.RequiredNamesAppend | src/agentic/llms/groq_fixed.py:27-29 | the required list of a concatenation is those of each part in turn |
| ToolNames.Properties | src/agentic/llms/groq_fixed.py:23-26 | one property per parameter name |
| ToolNames.LastParamWins | src/agentic/llms/groq_fixed.py:23-26 | for a repeated name, the property is that of the last parameter with it |
| ToolNames.ConvertTool | src/agentic/llms/groq_fixed.py:10-33 | the declared name is safe, a missing description is "", `required` is the required names, and `additionalProperties` is false |
| InvokeAgent.Without | src/utils/invoke_agent.py:33 | exactly the messages other than the placeholder, in order |
| InvokeAgent.CandidatesOrdered | src/utils/invoke_agent.py:29-33 | candidates are in timestamp order, never the placeholder, and are all the fetched messages except it |
| InvokeAgent.AgentName | src/utils/invoke_agent.py:26 | the stored agent, or "Agent" when it is empty |
| InvokeAgent.SelectAgent | src/utils/invoke_agent.py:64-72 | the "DatabaseAgent" prefix selects the database agent, with the second `:` field as module; anything else selects the test agent |
| InvokeAgent.DatabaseAgentModule | src/utils/invoke_agent.py:67-68 | "DatabaseAgent…:m" selects module m, whatever follows the next colon |
| InvokeAgent.OtherNamesUseTestAgent | src/utils/invoke_agent.py:70-72 | any other name, "inquiry" included, selects the test agent |
| InvokeAgent.History | src/utils/invoke_agent.py:54-55 | one history message per stored message, with its role and content, in order |
| InvokeAgent.Prepare | src/utils/invoke_agent.py:21-55 | an unknown conversation stops; a refusal carries the no-history text when there are no candidates and the no-user-input text otherwise; a started plan carries the conversation's agent and user |
| InvokeAgent.StartsOnUserTurn | src/utils/invoke_agent.py:38-51 | for a known conversation the agent starts exactly when the last candidate is a user message, and is refused otherwise |
| InvokeAgent.StartUsesCandidates | src/utils/invoke_agent.py:38-55 | when the agent runs, its input is the last candidate's content and its history all earlier candidates in order |
| InvokeAgent.Forwarded | src/utils/invoke_agent.py:79-89 | a chunk contributes exactly when it is a dict whose content is a dict with a non-empty inner content, and it contributes that inner text |
| InvokeAgent.Forward | src/utils/invoke_agent.py:79-89 | the forwarded texts are in yield order and no more than the chunks |
| InvokeAgent.ForwardAppend | src/utils/invoke_agent.py:79-89 | forwarding commutes with concatenating the agent's output |
| InvokeAgent.OnlyInnerTextForwarded | src/utils/invoke_agent.py:80-89 | a non-empty inner text passes; string contents, other contents, missing contents, empty inner texts and non-dict chunks are dropped |
| InvokeAgent.Invoke | src/utils/invoke_agent.py:16-89 | an error plan yields its single message; a runnable plan yields the forwarded texts |
| InvokeAgent.UnknownConversationYieldsNothing | src/utils/invoke_agent.py:21-24 | an unknown conversation yields nothing |
| InvokeAgent.NoUserInputOneError | src/utils/invoke_agent.py:38-51 | no candidates, or a last candidate that is not a user message, yields exactly one error chunk and runs no agent |
| InvokeAgent.InitFailureOneError | src/utils/invoke_agent.py:73-76 | a failure to build the agent yields exactly one error chunk |
| SchemaText.ChooseQuery | src/agentic/tools/database/get_schema.py:16-32 | a missing or empty name list gives the unfiltered query |
| SchemaText.AddRow | src/agentic/tools/database/get_schema.py:40-41 | a row's column is appended to its table's group, or starts a new group at the end |
| SchemaText.GroupRows | src/agentic/tools/database/get_schema.py:39-41 | the groups have distinct tables |
| SchemaText.TablesInOrder | src/agentic/tools/database/get_schema.py:39-44 | tables appear in order of first occurrence among the rows, each once |
| SchemaText.GroupColumns | src/agentic/tools/database/get_schema.py:40-41 | each table's group lists its rows' columns as `col (dtype)`, in row order |
| SchemaText.RenderLines | src/agentic/tools/database/get_schema.py:43-48 | no tables give no lines; one table gives a `Table: t` header, one `  - ` line per column in order, then an empty line |
| SchemaText.RenderLinesAppend | src/agentic/tools/database/get_schema.py:43-48 | the lines of several tables are each table's lines in turn |
| SchemaText.GetSchema | src/agentic/tools/database/get_schema.py:7-55 | no rows gives the "No schema found" text; a failing query gives "Error fetching schema: …"; otherwise the lines joined by newlines |
| SchemaText.SchemaTextSplitsIntoBlocks | src/agentic/tools/database/get_schema.py:43-50 | the text splits back at newlines into exactly the rendered lines |
| SqlUpdate.Supplied | src/services/message_service.py:70-77 | a field is in the result exactly when it is in the input with a value; a single field is kept iff it has a value |
| SqlUpdate.SuppliedAppend | src/services/message_service.py:70-77 | selection distributes over concatenation, so the given fields keep their input order |
| SqlUpdate.BuildUpdate | src/services/message_service.py:68-88 | no query iff no field is given; otherwise a column and a value per given field in order, with the id last |
| SqlUpdate.PlaceholdersMatchParams | src/services/message_service.py:82-87 | the query text has exactly as many `%s` placeholders as values, and the last value is the id |
| SqlUpdate.Execute | src/services/message_service.py:83-95 | only the row with the target id is assigned; every other row stays as it was |
| Rows.FindById | src/services/message_service.py:26-38 | a row is found iff one has the key, and it is a row of the table with that key |
| Rows.FindUnique | src/services/message_service.py:26-38 | with unique keys the lookup finds the one row holding the key |
| Rows.DeleteById | src/services/message_service.py:97-102 | true iff a row had the key; afterwards none has it, and every other row is kept |
| Rows.Select | src/services/message_service.py:40-52 | the window of `limit` rows at `offset` of some ordering by the key of exactly the rows matching the filter; so at most `limit` rows, all matching and ordered |
| Sorting.SortByStable | src/utils/invoke_agent.py:30 | sorting keeps elements with equal keys in their input order, as Python's `sorted` does |
| Text.StripIsStripped | src/workers/llm_worker.py:41 | `strip()` removes exactly the leading and trailing characters that Python's `str.isspace` accepts, and keeps the slice between them |
| Text.StrippedUnique | src/workers/llm_worker.py:41 | there is one string that is a slice with only whitespace around it and no whitespace at either end |
| Text.TrimIsStripped | whatsapp-service/app.js:48 | `trim()` removes exactly the leading and trailing JavaScript whitespace and line terminators |
| MessageService.CreatedMetadata | src/services/message_service.py:14 | NULL iff the metadata is absent or empty; otherwise its JSON text |
| MessageService.CreateMessage | src/services/message_service.py:7-24 | an unknown conversation is a foreign-key error; otherwise the row is appended with the data's fields, and that conversation's `last_message_at` is set |
| MessageService.Touch | src/services/message_service.py:20-22 | only the target conversation's `last_message_at` changes |
| MessageService.CreateThenGet | src/services/message_service.py:7-38 | a created message is found under its id with the fields given |
| MessageService.CreatePreservesWf | src/services/message_service.py:7-24 | creating keeps keys unique, below the sequence and foreign keys valid |
| MessageService.GetMessagesByConversation | src/services/message_service.py:40-52 | the window at `offset` of at most `limit` messages of an ascending-timestamp ordering of exactly that conversation's messages |
| MessageService.GetMessagesByConversationDesc | src/services/message_service.py:54-66 | the first `limit` messages of a newest-first ordering of exactly that conversation's messages |
| MessageService.AssignIsPatch | src/services/message_service.py:70-88 | the generated `UPDATE` sets content and metadata exactly as the patch does |
| MessageService.UpdateMessage | src/services/message_service.py:68-95 | the row with the id is patched, others and the conversations unchanged, and the result is the row read back |
| MessageService.UpdateWritesMetadata | src/services/message_service.py:69-95 | updating an existing message with metadata returns it carrying the dumped metadata, even when that metadata is empty |
| MessageService.EmptyMetadataStoredDifferently | src/services/message_service.py:14-76 | create stores `{}` as NULL, but update stores it as the JSON text of `{}` |
| MessageService.DeleteMessage | src/services/message_service.py:97-102 | true iff the message existed; afterwards it is gone and the others remain |
| MessageService.DeletedConversationHasNoMessages | src/services/conversation_service.py:76-81 | after a conversation is deleted, its messages are gone |
| ConversationService.CreateConversation | src/services/conversation_service.py:6-16 | a row with the next id, the data, the current time and no last message is appended |
| ConversationService.CreateThenGet | src/services/conversation_service.py:6-30 | the new conversation is found under its id, and every other lookup is unchanged |
| ConversationService.GetConversations | src/services/conversation_service.py:32-44 | the window at `offset` of at most `limit` conversations of a newest-first ordering of exactly that user's conversations |
| ConversationService.Patched | src/services/conversation_service.py:46-56 | title and agent take the new value when given and keep the old one otherwise; id, user, creation and last-message times are kept |
| ConversationService.AssignIsPatch | src/services/conversation_service.py:49-67 | the generated `UPDATE` sets title then agent exactly as the patch does |
| ConversationService.UpdateConversation | src/services/conversation_service.py:46-74 | no fields means no write and a plain lookup; otherwise the row with the id is patched, the others and the messages unchanged, and the result is the row read back |
| ConversationService.UpdateThenGet | src/services/conversation_service.py:46-74 | the update returns a row iff the conversation exists, and that row is the old one patched |
| ConversationService.UpdatePreservesWf | src/services/conversation_service.py:46-74 | updating keeps the table's invariants |
| ConversationService.DeleteConversation | src/services/conversation_service.py:76-81 | true iff the conversation existed; its messages go with it (`ON DELETE CASCADE`) |
| ConversationService.DeletePreservesWf | src/services/conversation_service.py:76-81 | deleting keeps keys unique and leaves no message pointing at a missing conversation |
| ConversationService.DeleteTwice | src/services/conversation_service.py:76-81 | a second delete of the same id finds nothing |
| ConversationService.CreatePreservesWf | src/services/conversation_service.py:6-16 | creating keeps the table's invariants |
| WhatsAppService.Role | src/services/whatsapp_service.py:14 | "assistant" iff the message was sent by the account itself, else "user" |
| WhatsAppService.AsChatMessage | src/services/whatsapp_service.py:10-21 | a row reads with its body as content, the role from `is_from_me`, NULL metadata and its number |
| WhatsAppService.GetMessage | src/services/whatsapp_service.py:7-27 | a message is found iff a row has the id, and it is that row read as a chat message |
| WhatsAppService.GetMessagesByConversationDesc | src/services/whatsapp_service.py:29-47 | the first `limit` rows of a newest-first ordering of exactly that conversation's rows, each read as a chat message without the number |
| WhatsAppService.UpdateMessage | src/services/whatsapp_service.py:49-90 | only the body of the row with the id changes, and only when content is given; the result is the row read back |
| WhatsAppService.UpdateThenGet | src/services/whatsapp_service.py:49-90 | the update returns a message iff the row exists, and it is the old one with the new content |
| WhatsAppService.MetadataIgnored | src/services/whatsapp_service.py:54-63 | metadata in an update changes nothing |
| WhatsAppService.DeleteMessage | src/services/whatsapp_service.py:93-97 | true iff the row existed; afterwards it is gone and the others remain |
| WhatsAppService.StoredInboundReadsAsUser | src/services/whatsapp_service.py:7-27 | a new inbound message saved by the gateway reads back under its id as the user's, with its body as content |
| WaRepository.FindByWhatsappId | whatsapp-service/repositories/PostgresRepository.js:12-31 | None iff no row has the WhatsApp id; otherwise such a row |
| WaRepository.SaveMessage | whatsapp-service/repositories/PostgresRepository.js:12-32 | a known WhatsApp id returns the existing id and changes nothing; otherwise the six fields are appended under the next id |
| WaRepository.SaveTwice | whatsapp-service/repositories/PostgresRepository.js:12-32 | saving the same WhatsApp id again returns the same id and leaves the table as it is |
| WaRepository.UserIdIgnored | whatsapp-service/repositories/PostgresRepository.js:12-27 | the caller's `user_id` is not stored |
| WaRepository.SavePreservesWf | whatsapp-service/repositories/PostgresRepository.js:12-32 | saving keeps ids and WhatsApp ids unique |
| WaRepository.GetChatHistory | whatsapp-service/repositories/PostgresRepository.js:34-53 | only that number's messages, in ascending timestamp order, and all of them |
| WaRepository.GetActiveWebhook | whatsapp-service/repositories/PostgresRepository.js:55-64 | none iff no webhook is active; otherwise an active one |
| WaRepository.StoredRetries | whatsapp-service/repositories/PostgresRepository.js:74 | a falsy retry count, 0 included, is stored as 3 |
| WaRepository.InsertWebhook | whatsapp-service/repositories/PostgresRepository.js:68-76 | the row is appended under the next id with the defaulted retries |
| WaRepository.InsertedWebhookIsActive | whatsapp-service/repositories/PostgresRepository.js:55-76 | with active-by-default, a webhook inserted into a table with none active is what `getActiveWebhook` returns |
| WaRepository.DeleteWebhook | whatsapp-service/repositories/PostgresRepository.js:77-85 | the removed row, or nothing when absent; afterwards no row has the id |
| WaRepository.DeletingTheOnlyActive | whatsapp-service/repositories/PostgresRepository.js:55-85 | deleting the only active webhook leaves none active |
| WaRepository.GetAllWebhooks | whatsapp-service/repositories/PostgresRepository.js:89-97 | every webhook, newest first |
| WebhookService.Payload | whatsapp-service/services/WebhookService.js:14-16 | the JSON of `{id}`, or `{}` when the id is undefined |
| WebhookService.RequestFor | whatsapp-service/services/WebhookService.js:19-32 | the URL is the agent host and the configured path; the header is "sha256=" and the HMAC of the JSON body |
| WebhookService.TriggerLlmService | whatsapp-service/services/WebhookService.js:7-42 | no active config means no POST; otherwise the same signed request, at most `retries` times, stopping at the first success; every failure before it is swallowed |
| WebhookService.DeliveryMatchesReference | whatsapp-service/services/WebhookService.js:24-41 | the number of POSTs is up to and including the first success, capped at `retries` |
| WhatsAppApp.MobileNumber | whatsapp-service/app.js:43-44 | the last 10 characters when longer, else the number unchanged |
| WhatsAppApp.AllowedGroups | whatsapp-service/app.js:47-49 | empty when unset; otherwise the comma-split, trimmed list |
| WhatsAppApp.ListedGroupsAdmitted | whatsapp-service/app.js:47-55 | every listed group, after trimming, is admitted |
| WhatsAppApp.FindUser | whatsapp-service/app.js:59-88 | an admin-service error or no POC stops; otherwise the first POC's id |
| WhatsAppApp.ChooseConversation | whatsapp-service/app.js:96-139 | the latest conversation is reused when its agent is "inquiry" and switched to it otherwise; with none, one is created with agent "inquiry" and title "WhatsApp Inquiry" |
| WhatsAppApp.ExistingInquiryReused | whatsapp-service/app.js:104-112 | an existing inquiry conversation is used as is |
| WhatsAppApp.Decide | whatsapp-service/app.js:37-154 | a message is stored exactly when it passes the group gate, a POC is found and a conversation comes back, and each other outcome names its stop; a stored record has `is_from_me` false, the group id only for groups, and the chosen conversation |
| WhatsAppApp.DirectChatsPassTheGate | whatsapp-service/app.js:46-55 | a direct chat is never dropped by the group gate |
| WhatsAppApp.NoAllowListDropsGroups | whatsapp-service/app.js:47-55 | with no allow-list every group message is dropped |
| WhatsAppApp.OnMessage | whatsapp-service/app.js:37-171 | a dropped message saves nothing and triggers nothing; otherwise it is saved and the webhook is triggered with the returned id |
| WhatsAppApp.RedeliveryStoresOnce | whatsapp-service/app.js:146-166 | a redelivered message is stored once and triggers under the same id |
| WhatsAppApp.HostedUpdate | whatsapp-service/app.js:113-122 | switching a stored conversation's agent returns it with the new agent |
| WhatsAppApp.HostedConversationIsInquiry | whatsapp-service/app.js:96-139 | against the conversation service the chosen conversation always has agent "inquiry" and is the user's own or a new one |

## Left out

- Concurrency: worker main loops, `asyncio` task fan-out and sleeps are not modelled. Interleavings appear only as the snapshots a reader sees.
- Timeouts and expiry: wall-clock timeouts and TTL expiry are not modelled. `wait_for_stream_item` is one read against one snapshot; expiry is an explicit event (`Store.ExpireKey`, `SoPipeline.ExpireSo`).
- Redis and database connections, cursors, logging, `print` and `console` output, and the Redis singleton are not modelled.
- External services are oracles or parameters: the LLM, the agent runtime, HTTP clients, HMAC-SHA256, JSON encoding and decoding, UUIDs and request ids, and clocks.
- `VLLM.generate`, `_get_direct_chat_response` and `embed` are not modelled. They are single request and response calls with no logic beyond field access.
- PerformanceReport.GenerateReport: a Redis write that raises part-way through a report is not modelled; the exception raised inside the body that is modelled is the NULL-date comparison.
- Number and date formatting in the performance report (`:,.2f`, `strftime`) is a parameter. The quantities are reals rather than IEEE floats.
- The delay in days between two dates is their difference as integer day numbers.
- `get_db_cursor` accepts only `commit`, but the SO code calls it with `db_config`, which raises `TypeError` (see Findings). The model treats that database access as an oracle that may fail; no failure is the intended call. `get_next_request_id` is not part of this model, so the request id is a parameter.
- `enqueue_job` is called with a dict by the message and WhatsApp endpoints. The store models the callee as written, with an id.
- MessageService.GetMessage: line 4 of src/services/message_service.py imports `WhatsappMessage`, which src/models/messages.py does not define, so the module fails when it is loaded, and so does src/workers/llm_worker.py, which imports `MessageService` at its line 4. The query also selects a `from_number` column the `messages` table does not have. The model is the evidently intended lookup by id, and the other `MessageService` and `LlmWorker` members model the evidently intended code.
- WhatsAppService.GetMessage: line 4 of src/services/whatsapp_service.py imports `WhatsappMessage`, which src/models/messages.py does not define, so the module fails when it is loaded; line 26 would also build one. The model reads the row as the evidently intended chat message, with the number.
- WhatsAppService.StoredInboundReadsAsUser: holds of the evidently intended `get_message`; as written the service module cannot be loaded (see the line above).
- Rows with equal sort keys: the body of `Rows.Select` returns them in storage order; its contract, like the database, allows any order among them.
- Limits and offsets are natural numbers. The database's error on a negative `LIMIT` is not modelled.
- WaRepository.GetActiveWebhook: `LIMIT 1` has no `ORDER BY`, so the contract says only "an active row". The model picks the first in storage order.
- WaRepository.InsertWebhook: the default of `is_active` comes from a table definition that is not part of this model. It is the parameter `activeByDefault`.
- WebhookService.Payload: Postgres returns `BIGINT` ids as strings. The model always renders a number.
- WebhookService.TriggerLlmService: the log line that compares with `config.retries` has no effect and is not modelled.
- Database exceptions other than the missing-conversation foreign-key violation in `create_message` are not modelled for the CRUD services.
- WhatsAppApp.Decide: a conversation reply without `data` makes `conversation.id` throw. The model maps that to `WorkflowError`, which the outer catch reaches as well.
- ToolNames.Properties: `param.to_property()` belongs to the agent runtime and is a field of the parameter.
- ToolNames.ConvertTool uses the intended name check; the as-written check is `ToolNames.GroqNameAsWritten` (see Findings).
- Prompt text, migrations, configuration, routes, controllers, middleware and the WhatsApp providers are not modelled.

## Findings

| source | as written | input that shows it | evidently intended | confidence | as-written member | corrected member |
|---|---|---|---|---|---|---|
| src/agentic/llms/groq_fixed.py:13 | `re.match(r'^[a-zA-Z0-9_-]+$', name)` accepts a name followed by one final newline, because Python's `$` also matches before a trailing `\n`; the name is then sent unsanitised | the tool name `"lookup\n"` | only names made entirely of `[a-zA-Z0-9_-]` are sent unchanged (`re.fullmatch` or `\Z`), so `"lookup\n"` becomes `"lookup_"` | not executed | ToolNames.FinalNewlinePassesCheck | ToolNames.GroqNameIsSanitize |
| src/api/so_validator.py:46 | `get_db_cursor(commit=False, db_config=get_db_config())`, and the same call with `commit=True` at src/workers/so_worker.py:44, pass a keyword that `get_db_cursor(commit=True)` (src/utils/database.py:97) does not accept, so both raise `TypeError`: the worker never inserts and the read-back always answers 500 | any request id, even one whose validation finished | `get_db_cursor(commit=...)` without `db_config`: rows are inserted, and the read-back returns them | not executed | SoPipeline.ResultsNeverServedAsWritten | SoPipeline.StoredResultsServed |

=== FILE: chat_stream.dfy ===
/** `VLLM._stream_chat_response` (src/agentic/llms/vllm.py): the chat
    stream reader. Each network chunk is decoded, stripped and split into
    lines; every `data: ` line carries one JSON event whose delta may hold
    text (yielded at once) and tool-call fragments (accumulated per index
    and emitted, sorted by index, as one final message).

    UTF-8 decoding, `json.loads` of an event and of the accumulated
    arguments are oracles. The event oracle reads a payload in one of
    three ways: ignored (it does not decode, or has no or an empty
    `choices` list; the code skips it), a well-formed delta, or a decoded
    value of the wrong shape (`null`, a `null` delta, a `null` fragment
    field, ...) on which the code raises part-way through; that answer
    carries the part of the delta applied before the exception and the
    exception's text. */
module ChatStream {
  import opened Wrappers
  import opened Text
  import opened Sorting
  import SseFraming

  const DATA_PREFIX: string := "data: "
  const DONE_LINE: string := "data: [DONE]"
  const STREAMING_ERROR: string := "Streaming error: "

  /** One element of `delta["tool_calls"]`; an absent key is `None`. */
  datatype Fragment = Fragment(index: Option<int>, id: Option<string>, name: Option<string>, arguments: Option<string>)

  /** The part of `choices[0]["delta"]` the reader uses. `content` is
      `None` when absent; `toolCalls` is `None` when the key is absent. */
  datatype Delta = Delta(content: Option<string>, toolCalls: Option<seq<Fragment>>)

  /** A tool call under construction: `{"id": .., "name": .., "arguments": ..}`. */
  datatype Partial = Partial(id: string, name: string, arguments: string)

  /** `tool_call_chunks`: a dict from index to partial call. Python dicts
      keep insertion order, carried here as `order`. */
  datatype Acc = Acc(order: seq<int>, calls: map<int, Partial>)

  /** A finished tool call; undecodable arguments are the empty object. */
  datatype ToolCall = ToolCall(id: string, name: string, arguments: map<string, string>)

  /** The messages the generator yields. */
  datatype ChatEvent = ContentMessage(content: string) | ToolCallMessage(calls: seq<ToolCall>)

  /** How the code reads one event payload: skipped, applied as a whole,
      or raising after applying `applied` (its content, then its fragments
      up to the field that raised, in the code's order). */
  datatype Payload = Ignored | Decoded(delta: Delta) | Raises(applied: Delta, message: string)

  /** The oracles of one stream. */
  datatype ChatCodec = ChatCodec(utf8: SseFraming.Bytes -> Result<string>,
                                 event: string -> Payload,
                                 args: string -> Option<map<string, string>>)

  /** What the reader holds between lines: messages yielded so far and the
      tool-call dict. */
  datatype ChatState = ChatState(out: seq<ChatEvent>, acc: Acc)

  /** The generator's whole behaviour: messages yielded, then either a
      normal end or the `RuntimeError` text. */
  datatype ChatOutcome = ChatOutcome(messages: seq<ChatEvent>, error: Option<string>)

  /** What one line does. */
  datatype LineStep = Skip | Stop | Event(delta: Delta) | Fail(applied: Delta, message: string)

  const EMPTY_PARTIAL := Partial("", "", "")
  const EMPTY_ACC := Acc([], map[])
  const INITIAL := ChatState([], EMPTY_ACC)

  // ---------------------------------------------------------------------
  // The tool-call dict
  // ---------------------------------------------------------------------

  /** The dict's own invariant: each key once in the order, and the order
      lists exactly the keys. */
  ghost predicate Wf(acc: Acc) {
    && (forall i, j :: 0 <= i < j < |acc.order| ==> acc.order[i] != acc.order[j])
    && (forall k :: k in acc.calls <==> k in acc.order)
  }

  /** `tc_chunk.get("index", 0)`. */
  function Key(f: Fragment): int {
    f.index.GetOr(0)
  }

  /** The three `+=` of one fragment; an absent field appends nothing. */
  function Extend(p: Partial, f: Fragment): (r: Partial)
    ensures r.id == p.id + f.id.GetOr("")
    ensures r.name == p.name + f.name.GetOr("")
    ensures r.arguments == p.arguments + f.arguments.GetOr("")
  {
    Partial(p.id + f.id.GetOr(""), p.name + f.name.GetOr(""), p.arguments + f.arguments.GetOr(""))
  }

  /** One fragment: a new index gets an empty entry first (at the end of
      the dict's order), then the fragment's fields are appended. No other
      entry changes. */
  function AddFragment(acc: Acc, f: Fragment): (r: Acc)
    ensures Key(f) in r.calls
    ensures r.calls[Key(f)] == Extend(if Key(f) in acc.calls then acc.calls[Key(f)] else EMPTY_PARTIAL, f)
    ensures forall k :: k != Key(f) ==> Get(r.calls, k) == Get(acc.calls, k)
    ensures Key(f) in acc.calls ==> r.order == acc.order
    ensures Key(f) !in acc.calls ==> r.order == acc.order + [Key(f)]
    ensures Wf(acc) ==> Wf(r)
  {
    var k := Key(f);
    if k in acc.calls then Acc(acc.order, acc.calls[k := Extend(acc.calls[k], f)])
    else Acc(acc.order + [k], acc.calls[k := Extend(EMPTY_PARTIAL, f)])
  }

  /** `for tc_chunk in delta["tool_calls"]`. */
  function AddFragments(acc: Acc, frags: seq<Fragment>): (r: Acc)
    ensures Wf(acc) ==> Wf(r)
    decreases |frags|
  {
    if |frags| == 0 then acc
    else AddFragment(AddFragments(acc, frags[..|frags| - 1]), frags[|frags| - 1])
  }

  // ---------------------------------------------------------------------
  // Lines, chunks and the generator
  // ---------------------------------------------------------------------

  /** The stop line is the data prefix followed by `[DONE]`. */
  lemma DoneLineSplit(line: string)
    ensures line == DONE_LINE <==> StartsWith(line, DATA_PREFIX) && line[6..] == "[DONE]"
  {
    if StartsWith(line, DATA_PREFIX) {
      assert line == DATA_PREFIX + line[6..];
    }
  }

  /** One line of a chunk: stripped; a line without the prefix is skipped,
      `[DONE]` stops, an ignored payload is skipped, a malformed one
      raises. */
  function ReadLine(raw: string, event: string -> Payload): (r: LineStep)
    ensures r.Stop? <==> Strip(raw) == DONE_LINE
    ensures !StartsWith(Strip(raw), DATA_PREFIX) ==> r.Skip?
    ensures r.Event? ==> StartsWith(Strip(raw), DATA_PREFIX) && event(Strip(raw)[6..]) == Decoded(r.delta)
    ensures r.Fail? ==> StartsWith(Strip(raw), DATA_PREFIX) && event(Strip(raw)[6..]) == Raises(r.applied, r.message)
    ensures StartsWith(Strip(raw), DATA_PREFIX) && Strip(raw) != DONE_LINE ==>
      && (r.Event? <==> event(Strip(raw)[6..]).Decoded?)
      && (r.Fail? <==> event(Strip(raw)[6..]).Raises?)
  {
    var line := Strip(raw);
    DoneLineSplit(line);
    if !StartsWith(line, DATA_PREFIX) then Skip
    else
      var data := line[6..];
      if data == "[DONE]" then Stop
      else
        match event(data)
        case Ignored => Skip
        case Decoded(d) => Event(d)
        case Raises(d, e) => Fail(d, e)
  }

  /** One decoded event: a non-empty content is yielded at once; the tool
      call fragments go into the dict. */
  function ApplyDelta(st: ChatState, d: Delta): (r: ChatState)
    ensures d.content.Some? && d.content.value != "" ==> r.out == st.out + [ContentMessage(d.content.value)]
    ensures !(d.content.Some? && d.content.value != "") ==> r.out == st.out
    ensures r.acc == AddFragments(st.acc, d.toolCalls.GetOr([]))
  {
    var out := if d.content.Some? && d.content.value != "" then st.out + [ContentMessage(d.content.value)] else st.out;
    ChatState(out, AddFragments(st.acc, d.toolCalls.GetOr([])))
  }

  /** `for line in lines`, with `break` on `[DONE]`: the rest of this
      chunk's lines are not read. A malformed event raises after its
      applied part, and the exception is returned with the state. */
  function Lines(st: ChatState, lines: seq<string>, event: string -> Payload): (r: (ChatState, Option<string>))
    ensures Wf(st.acc) ==> Wf(r.0.acc)
    decreases |lines|
  {
    if |lines| == 0 then (st, None)
    else
      match ReadLine(lines[0], event)
      case Stop => (st, None)
      case Skip => Lines(st, lines[1..], event)
      case Event(d) => Lines(ApplyDelta(st, d), lines[1..], event)
      case Fail(d, e) => (ApplyDelta(st, d), Some(e))
  }

  /** `chunk.decode("utf-8").strip().split('\n')`. */
  function LinesOf(text: string): (r: seq<string>)
    ensures |r| >= 1
  {
    Split(Strip(text), '\n')
  }

  /** `async for chunk in stream_gen`: a chunk that does not decode, or a
      malformed event, raises, and the state reached so far is kept with
      the error. */
  function Chunks(st: ChatState, chunks: seq<SseFraming.Bytes>, codec: ChatCodec): (r: (ChatState, Option<string>))
    ensures Wf(st.acc) ==> Wf(r.0.acc)
    decreases |chunks|
  {
    if |chunks| == 0 then (st, None)
    else
      match codec.utf8(chunks[0])
      case Err(e) => (st, Some(e))
      case Ok(text) =>
        var (next, raised) := Lines(st, LinesOf(text), codec.event);
        if raised.Some? then (next, raised) else Chunks(next, chunks[1..], codec)
  }

  function Ident(k: int): int { k }

  /** `sorted(tool_call_chunks.keys())`. */
  function SortedKeys(acc: Acc): (r: seq<int>)
    ensures multiset(r) == multiset(acc.order)
    ensures SortedBy(r, Ident)
  {
    SortBy(acc.order, Ident)
  }

  /** One finished call: `json.loads` of the arguments, `{}` when that fails. */
  function Finish(p: Partial, args: string -> Option<map<string, string>>): ToolCall {
    ToolCall(p.id, p.name, args(p.arguments).GetOr(map[]))
  }

  function FinishAll(keys: seq<int>, calls: map<int, Partial>, args: string -> Option<map<string, string>>): (r: seq<ToolCall>)
    requires forall i :: 0 <= i < |keys| ==> keys[i] in calls
    ensures |r| == |keys|
    ensures forall i :: 0 <= i < |keys| ==> r[i] == Finish(calls[keys[i]], args)
  {
    if |keys| == 0 then [] else [Finish(calls[keys[0]], args)] + FinishAll(keys[1..], calls, args)
  }

  /** The final message's calls, in ascending index order. */
  function FinalCalls(acc: Acc, args: string -> Option<map<string, string>>): (r: seq<ToolCall>)
    requires Wf(acc)
    ensures |r| == |acc.order|
  {
    var keys := SortedKeys(acc);
    assert forall i :: 0 <= i < |keys| ==> keys[i] in acc.calls by {
      forall i | 0 <= i < |keys| ensures keys[i] in acc.calls {
        assert keys[i] in multiset(keys);
      }
    }
    FinishAll(keys, acc.calls, args)
  }

  /** `_stream_chat_response`: `broken` is an exception of the transport
      (the POST or the chunk iterator) after the chunks given. Any
      exception becomes "Streaming error: ..." and suppresses the final
      tool-call message; without one, that message follows the content
      messages when the dict is not empty. */
  function StreamChat(chunks: seq<SseFraming.Bytes>, broken: Option<string>, codec: ChatCodec): (r: ChatOutcome)
    ensures r.error.Some? ==> StartsWith(r.error.value, STREAMING_ERROR)
  {
    var (st, failed) := Chunks(INITIAL, chunks, codec);
    var err := if failed.Some? then failed else broken;
    if err.Some? then ChatOutcome(st.out, Some(STREAMING_ERROR + err.value))
    else if |st.acc.order| > 0 then ChatOutcome(st.out + [ToolCallMessage(FinalCalls(st.acc, codec.args))], None)
    else ChatOutcome(st.out, None)
  }

  // ---------------------------------------------------------------------
  // Reference semantics
  // ---------------------------------------------------------------------

  /** The events a chunk's lines contribute: those before its first
      `[DONE]` line, or up to and including the applied part of its first
      malformed event, whose exception is returned with them. */
  function LineDeltas(lines: seq<string>, event: string -> Payload): (seq<Delta>, Option<string>)
    decreases |lines|
  {
    if |lines| == 0 then ([], None)
    else
      match ReadLine(lines[0], event)
      case Stop => ([], None)
      case Skip => LineDeltas(lines[1..], event)
      case Event(d) =>
        var rest := LineDeltas(lines[1..], event);
        ([d] + rest.0, rest.1)
      case Fail(d, e) => ([d], Some(e))
  }

  function ApplyDeltas(st: ChatState, ds: seq<Delta>): ChatState
    decreases |ds|
  {
    if |ds| == 0 then st else ApplyDeltas(ApplyDelta(st, ds[0]), ds[1..])
  }

  /** The events of the whole stream, chunk by chunk, up to the first chunk
      that does not decode or the first malformed event; and that
      exception. */
  function AllDeltas(chunks: seq<SseFraming.Bytes>, codec: ChatCodec): (seq<Delta>, Option<string>)
    decreases |chunks|
  {
    if |chunks| == 0 then ([], None)
    else
      match codec.utf8(chunks[0])
      case Err(e) => ([], Some(e))
      case Ok(text) =>
        var here := LineDeltas(LinesOf(text), codec.event);
        if here.1.Some? then here
        else
          var rest := AllDeltas(chunks[1..], codec);
          (here.0 + rest.0, rest.1)
  }

  /** The content messages of a sequence of events: one per non-empty
      content, in order. */
  function Contents(ds: seq<Delta>): (r: seq<ChatEvent>)
    ensures forall i :: 0 <= i < |r| ==> r[i].ContentMessage? && r[i].content != ""
    decreases |ds|
  {
    if |ds| == 0 then []
    else
      var head := if ds[0].content.Some? && ds[0].content.value != "" then [ContentMessage(ds[0].content.value)] else [];
      head + Contents(ds[1..])
  }

  /** All tool-call fragments of a sequence of events, in order. */
  function FragmentsOf(ds: seq<Delta>): seq<Fragment>
    decreases |ds|
  {
    if |ds| == 0 then [] else ds[0].toolCalls.GetOr([]) + FragmentsOf(ds[1..])
  }

  datatype Field = IdField | NameField | ArgsField

  function FieldOf(f: Fragment, which: Field): string {
    match which
    case IdField => f.id.GetOr("")
    case NameField => f.name.GetOr("")
    case ArgsField => f.arguments.GetOr("")
  }

  /** The concatenation of one field over the fragments whose index
      (defaulting to 0) is `k`, in arrival order. */
  function Joined(frags: seq<Fragment>, k: int, which: Field): string
    decreases |frags|
  {
    if |frags| == 0 then ""
    else
      var last := frags[|frags| - 1];
      Joined(frags[..|frags| - 1], k, which) + (if Key(last) == k then FieldOf(last, which) else "")
  }

  function Collected(frags: seq<Fragment>, k: int): Partial {
    Partial(Joined(frags, k, IdField), Joined(frags, k, NameField), Joined(frags, k, ArgsField))
  }

  predicate Mentions(frags: seq<Fragment>, k: int) {
    exists i :: 0 <= i < |frags| && Key(frags[i]) == k
  }

  // ---------------------------------------------------------------------
  // Properties
  // ---------------------------------------------------------------------

  lemma {:induction false} AddFragmentsAppend(acc: Acc, a: seq<Fragment>, b: seq<Fragment>)
    ensures AddFragments(acc, a + b) == AddFragments(AddFragments(acc, a), b)
    decreases |b|
  {
    if |b| == 0 {
      assert a + b == a;
    } else {
      var b' := b[..|b| - 1];
      assert (a + b)[..|a + b| - 1] == a + b';
      AddFragmentsAppend(acc, a, b');
    }
  }

  lemma {:induction false} JoinedUnmentioned(frags: seq<Fragment>, k: int, which: Field)
    requires !Mentions(frags, k)
    ensures Joined(frags, k, which) == ""
    decreases |frags|
  {
    if |frags| > 0 {
      var init := frags[..|frags| - 1];
      assert !Mentions(init, k) by {
        forall i | 0 <= i < |init| ensures Key(init[i]) != k {
          assert init[i] == frags[i];
        }
      }
      JoinedUnmentioned(init, k, which);
    }
  }

  /** Tool-call fragments are concatenated per index: after any sequence of
      fragments the dict has an entry for exactly the indices mentioned,
      and each entry's id, name and arguments are the concatenations of
      that index's fragments in arrival order. */
  lemma {:induction false} FragmentsConcatenated(frags: seq<Fragment>, k: int)
    ensures var acc := AddFragments(EMPTY_ACC, frags);
      && (k in acc.calls <==> Mentions(frags, k))
      && (k in acc.calls ==> acc.calls[k] == Collected(frags, k))
    decreases |frags|
  {
    if |frags| > 0 {
      var init := frags[..|frags| - 1];
      var f := frags[|frags| - 1];
      var prev := AddFragments(EMPTY_ACC, init);
      var acc := AddFragments(EMPTY_ACC, frags);
      assert acc == AddFragment(prev, f);
      FragmentsConcatenated(init, k);
      assert Mentions(frags, k) <==> Mentions(init, k) || Key(f) == k by {
        if Mentions(init, k) {
          var i :| 0 <= i < |init| && Key(init[i]) == k;
          assert frags[i] == init[i];
        }
        if Mentions(frags, k) && Key(f) != k {
          var i :| 0 <= i < |frags| && Key(frags[i]) == k;
          assert i < |init| && init[i] == frags[i];
        }
      }
      if Key(f) == k {
        if !Mentions(init, k) {
          JoinedUnmentioned(init, k, IdField);
          JoinedUnmentioned(init, k, NameField);
          JoinedUnmentioned(init, k, ArgsField);
        }
        assert acc.calls[k] == Collected(frags, k);
      } else {
        assert Get(acc.calls, k) == Get(prev.calls, k);
        assert Collected(frags, k) == Collected(init, k);
      }
    }
  }

  lemma {:induction false} ApplyDeltasAppend(st: ChatState, a: seq<Delta>, b: seq<Delta>)
    ensures ApplyDeltas(st, a + b) == ApplyDeltas(ApplyDeltas(st, a), b)
    decreases |a|
  {
    if |a| > 0 {
      assert (a + b)[0] == a[0];
      assert (a + b)[1..] == a[1..] + b;
      ApplyDeltasAppend(ApplyDelta(st, a[0]), a[1..], b);
    } else {
      assert a + b == b;
    }
  }

  /** Regrouping a concatenation, stated once so that the proofs below
      need not rediscover it among their other facts. */
  lemma SeqAssoc<T>(a: seq<T>, b: seq<T>, c: seq<T>)
    ensures a + b + c == a + (b + c)
  {
  }

  /** Applying events one by one yields their content messages in order and
      feeds all their fragments, in order, to the dict. */
  lemma {:induction false} ApplyDeltasSplit(st: ChatState, ds: seq<Delta>)
    ensures ApplyDeltas(st, ds) == ChatState(st.out + Contents(ds), AddFragments(st.acc, FragmentsOf(ds)))
    decreases |ds|
  {
    if |ds| == 0 {
      assert st.out + [] == st.out;
    } else {
      var next := ApplyDelta(st, ds[0]);
      assert ApplyDeltas(st, ds) == ApplyDeltas(next, ds[1..]);
      ApplyDeltasSplit(next, ds[1..]);
      assert next.out + Contents(ds[1..]) == st.out + Contents(ds) by {
        var rest := Contents(ds[1..]);
        if ds[0].content.Some? && ds[0].content.value != "" {
          var e := ContentMessage(ds[0].content.value);
          assert Contents(ds) == [e] + rest;
          SeqAssoc(st.out, [e], rest);
        } else {
          assert Contents(ds) == [] + rest;
        }
      }
      assert AddFragments(next.acc, FragmentsOf(ds[1..])) == AddFragments(st.acc, FragmentsOf(ds)) by {
        AddFragmentsAppend(st.acc, ds[0].toolCalls.GetOr([]), FragmentsOf(ds[1..]));
      }
    }
  }

  /** The line loop applies exactly the events before the first `[DONE]`,
      or up to the first malformed event, whose exception it passes on. */
  lemma {:induction false} LinesAreDeltas(st: ChatState, lines: seq<string>, event: string -> Payload)
    ensures Lines(st, lines, event) == (ApplyDeltas(st, LineDeltas(lines, event).0), LineDeltas(lines, event).1)
    decreases |lines|
  {
    if |lines| > 0 {
      match ReadLine(lines[0], event)
      case Stop =>
      case Skip => LinesAreDeltas(st, lines[1..], event);
      case Event(d) =>
        LinesAreDeltas(ApplyDelta(st, d), lines[1..], event);
        assert ([d] + LineDeltas(lines[1..], event).0)[1..] == LineDeltas(lines[1..], event).0;
      case Fail(d, e) =>
        assert [d][1..] == [];
    }
  }

  /** The chunk loop applies the events of every chunk in turn, up to the
      first chunk that does not decode or the first malformed event. */
  lemma {:induction false} ChunksAreDeltas(st: ChatState, chunks: seq<SseFraming.Bytes>, codec: ChatCodec)
    ensures Chunks(st, chunks, codec) == (ApplyDeltas(st, AllDeltas(chunks, codec).0), AllDeltas(chunks, codec).1)
    decreases |chunks|
  {
    if |chunks| > 0 {
      match codec.utf8(chunks[0])
      case Err(e) =>
      case Ok(text) =>
        var lines := LinesOf(text);
        LinesAreDeltas(st, lines, codec.event);
        if LineDeltas(lines, codec.event).1.None? {
          ChunksAreDeltas(Lines(st, lines, codec.event).0, chunks[1..], codec);
          ApplyDeltasAppend(st, LineDeltas(lines, codec.event).0, AllDeltas(chunks[1..], codec).0);
        }
    }
  }

  /** The generator's outcome in terms of the stream's events: the content
      messages in event order; then, on a clean end with a non-empty dict,
      one tool-call message built from the fragments of all events; on any
      exception (an undecodable chunk, a malformed event, the transport),
      no tool-call message and the "Streaming error: " text. */
  lemma StreamChatResult(chunks: seq<SseFraming.Bytes>, broken: Option<string>, codec: ChatCodec)
    ensures var (ds, failed) := AllDeltas(chunks, codec);
      var acc := AddFragments(EMPTY_ACC, FragmentsOf(ds));
      var r := StreamChat(chunks, broken, codec);
      && Wf(acc)
      && (failed.Some? ==> r == ChatOutcome(Contents(ds), Some(STREAMING_ERROR + failed.value)))
      && (failed.None? && broken.Some? ==> r == ChatOutcome(Contents(ds), Some(STREAMING_ERROR + broken.value)))
      && (failed.None? && broken.None? ==>
            r == ChatOutcome(Contents(ds) + (if |acc.order| > 0 then [ToolCallMessage(FinalCalls(acc, codec.args))] else []), None))
  {
    var (ds, failed) := AllDeltas(chunks, codec);
    ChunksAreDeltas(INITIAL, chunks, codec);
    ApplyDeltasSplit(INITIAL, ds);
    assert [] + Contents(ds) == Contents(ds);
  }

  /** Unlike the plain text stream, `[DONE]` only ends the lines of the
      chunk it is in: the events after it in that chunk are dropped, and
      every later chunk is still read. */
  lemma DoneEndsOnlyItsChunk(c: SseFraming.Bytes, text: string, before: seq<string>, after: seq<string>,
                             rest: seq<SseFraming.Bytes>, codec: ChatCodec)
    requires codec.utf8(c) == Ok(text)
    requires LinesOf(text) == before + [DONE_LINE] + after
    requires forall i :: 0 <= i < |before| ==> !ReadLine(before[i], codec.event).Stop?
    ensures var (ds, raised) := LineDeltas(before, codec.event);
      AllDeltas([c] + rest, codec) ==
        if raised.Some? then (ds, raised) else (ds + AllDeltas(rest, codec).0, AllDeltas(rest, codec).1)
  {
    assert ([c] + rest)[1..] == rest;
    DoneLineStops(codec.event);
    LineDeltasStop(before, after, codec.event);
  }

  lemma DoneLineStops(event: string -> Payload)
    ensures ReadLine(DONE_LINE, event) == Stop
  {
    assert DONE_LINE[0] == 'd' && DONE_LINE[|DONE_LINE| - 1] == ']';
    StripUnpadded(DONE_LINE);
  }

  lemma {:induction false} LineDeltasStop(before: seq<string>, after: seq<string>, event: string -> Payload)
    requires ReadLine(DONE_LINE, event) == Stop
    requires forall i :: 0 <= i < |before| ==> !ReadLine(before[i], event).Stop?
    ensures LineDeltas(before + [DONE_LINE] + after, event) == LineDeltas(before, event)
    decreases |before|
  {
    var lines := before + [DONE_LINE] + after;
    if |before| > 0 {
      var rest := before[1..] + [DONE_LINE] + after;
      assert lines[0] == before[0] && lines[1..] == rest;
      assert !ReadLine(before[0], event).Stop?;
      if !ReadLine(before[0], event).Fail? {
        assert LineDeltas(rest, event) == LineDeltas(before[1..], event) by {
          assert forall i :: 0 <= i < |before[1..]| ==> before[1..][i] == before[i + 1];
          LineDeltasStop(before[1..], after, event);
        }
        LineDeltasStep(lines, event);
        LineDeltasStep(before, event);
      }
    } else {
      assert lines[0] == DONE_LINE;
    }
  }

  /** A chunk's lines up to its first malformed event: the events before
      it, then the part it applied, and its exception. */
  lemma {:induction false} LineDeltasRaise(before: seq<string>, bad: string, after: seq<string>, event: string -> Payload)
    requires forall i :: 0 <= i < |before| ==> ReadLine(before[i], event).Skip? || ReadLine(before[i], event).Event?
    requires ReadLine(bad, event).Fail?
    ensures LineDeltas(before, event).1.None?
    ensures LineDeltas(before + [bad] + after, event) ==
      (LineDeltas(before, event).0 + [ReadLine(bad, event).applied], Some(ReadLine(bad, event).message))
    decreases |before|
  {
    var lines := before + [bad] + after;
    var f := ReadLine(bad, event);
    if |before| > 0 {
      var rest := before[1..] + [bad] + after;
      assert lines[0] == before[0] && lines[1..] == rest;
      assert forall i :: 0 <= i < |before[1..]| ==> before[1..][i] == before[i + 1];
      LineDeltasRaise(before[1..], bad, after, event);
      LineDeltasStep(lines, event);
      LineDeltasStep(before, event);
      var head := if ReadLine(before[0], event).Event? then [ReadLine(before[0], event).delta] else [];
      SeqAssoc(head, LineDeltas(before[1..], event).0, [f.applied]);
    } else {
      assert lines[0] == bad;
      assert [] + [f.applied] == [f.applied];
    }
  }

  /** A decoded event of the wrong shape ends the generator: the content
      yielded before it (its own content included) stays, then comes the
      "Streaming error: " text with the exception, and no tool-call
      message; later chunks and the transport no longer matter. */
  lemma MalformedEventEndsStream(c: SseFraming.Bytes, text: string, before: seq<string>, bad: string,
                                 after: seq<string>, rest: seq<SseFraming.Bytes>, broken: Option<string>,
                                 codec: ChatCodec)
    requires codec.utf8(c) == Ok(text)
    requires LinesOf(text) == before + [bad] + after
    requires forall i :: 0 <= i < |before| ==>
      ReadLine(before[i], codec.event).Skip? || ReadLine(before[i], codec.event).Event?
    requires ReadLine(bad, codec.event).Fail?
    ensures var f := ReadLine(bad, codec.event);
      StreamChat([c] + rest, broken, codec) ==
        ChatOutcome(Contents(LineDeltas(before, codec.event).0 + [f.applied]), Some(STREAMING_ERROR + f.message))
  {
    var f := ReadLine(bad, codec.event);
    LineDeltasRaise(before, bad, after, codec.event);
    assert ([c] + rest)[0] == c;
    assert AllDeltas([c] + rest, codec) == (LineDeltas(before, codec.event).0 + [f.applied], Some(f.message));
    StreamChatResult([c] + rest, broken, codec);
  }

  /** One line that neither stops nor raises: its event, if any, then the
      rest. */
  lemma LineDeltasStep(lines: seq<string>, event: string -> Payload)
    requires |lines| > 0 && !ReadLine(lines[0], event).Stop? && !ReadLine(lines[0], event).Fail?
    ensures var r := ReadLine(lines[0], event);
      var rest := LineDeltas(lines[1..], event);
      LineDeltas(lines, event) == ((if r.Event? then [r.delta] else []) + rest.0, rest.1)
  {
    var r := ReadLine(lines[0], event);
    var rest := LineDeltas(lines[1..], event);
    match r
    case Skip =>
      assert LineDeltas(lines, event) == rest;
      assert [] + rest.0 == rest.0;
    case Event(d) =>
      assert LineDeltas(lines, event) == ([d] + rest.0, rest.1);
  }

  predicate Distinct(xs: seq<int>) {
    forall i, j :: 0 <= i < j < |xs| ==> xs[i] != xs[j]
  }

  lemma {:induction false} DistinctCountsOne(xs: seq<int>, e: int)
    requires Distinct(xs)
    ensures multiset(xs)[e] <= 1
    decreases |xs|
  {
    if |xs| > 0 {
      var init := xs[..|xs| - 1];
      var last := xs[|xs| - 1];
      assert xs == init + [last];
      assert Distinct(init) by {
        forall i, j | 0 <= i < j < |init| ensures init[i] != init[j] {
          assert init[i] == xs[i] && init[j] == xs[j];
        }
      }
      DistinctCountsOne(init, e);
      if e == last {
        assert e !in init by {
          forall i | 0 <= i < |init| ensures init[i] != last {
            assert init[i] == xs[i];
          }
        }
      }
    }
  }

  lemma TwiceCountsTwo(ys: seq<int>, i: nat, j: nat)
    requires i < j < |ys|
    ensures ys[i] == ys[j] ==> multiset(ys)[ys[i]] >= 2
  {
    assert ys == ys[..j] + [ys[j]] + ys[j + 1..];
    assert ys[..j][i] == ys[i];
  }

  /** A rearrangement of distinct keys has distinct keys. */
  lemma DistinctPermutation(xs: seq<int>, ys: seq<int>)
    requires Distinct(xs) && multiset(xs) == multiset(ys)
    ensures Distinct(ys)
  {
    forall i, j | 0 <= i < j < |ys| ensures ys[i] != ys[j] {
      TwiceCountsTwo(ys, i, j);
      DistinctCountsOne(xs, ys[i]);
    }
  }

  /** The sorted keys are the dict's keys, each once, strictly ascending,
      and the final calls are built from their entries in that order. */
  lemma FinalCallsOrdered(acc: Acc, args: string -> Option<map<string, string>>)
    requires Wf(acc)
    ensures var keys := SortedKeys(acc);
      var calls := FinalCalls(acc, args);
      && (forall i, j :: 0 <= i < j < |keys| ==> keys[i] < keys[j])
      && (forall k :: k in acc.calls <==> k in keys)
      && |calls| == |keys|
      && (forall i :: 0 <= i < |keys| ==> keys[i] in acc.calls && calls[i] == Finish(acc.calls[keys[i]], args))
  {
    var keys := SortedKeys(acc);
    DistinctPermutation(acc.order, keys);
    forall k ensures k in acc.calls <==> k in keys {
      assert k in keys <==> k in multiset(keys);
      assert k in acc.order <==> k in multiset(acc.order);
    }
  }

  /** The final message: one call per index mentioned by any fragment, in
      ascending index order, whose id, name and arguments text are that
      index's fragments concatenated; arguments that do not decode become
      the empty object. */
  lemma ToolCallsFromFragments(frags: seq<Fragment>, args: string -> Option<map<string, string>>)
    ensures var acc := AddFragments(EMPTY_ACC, frags);
      var keys := SortedKeys(acc);
      && Wf(acc)
      && (forall k :: Mentions(frags, k) <==> k in keys)
      && (forall i, j :: 0 <= i < j < |keys| ==> keys[i] < keys[j])
      && |FinalCalls(acc, args)| == |keys|
      && (forall i :: 0 <= i < |keys| ==> FinalCalls(acc, args)[i] == Finish(Collected(frags, keys[i]), args))
  {
    var acc := AddFragments(EMPTY_ACC, frags);
    assert Wf(EMPTY_ACC);
    FinalCallsOrdered(acc, args);
    forall k ensures Mentions(frags, k) <==> k in acc.calls {
      FragmentsConcatenated(frags, k);
    }
    var keys := SortedKeys(acc);
    forall i | 0 <= i < |keys| ensures FinalCalls(acc, args)[i] == Finish(Collected(frags, keys[i]), args) {
      FragmentsConcatenated(frags, keys[i]);
    }
  }
}

=== FILE: chat_tables.dfy ===
/** The `conversations` and `messages` tables (migrations/20260210_01 and
    20260210_02): `BIGSERIAL` keys, timestamps defaulting to `NOW()`, and
    `messages.conversation_id REFERENCES conversations(id) ON DELETE
    CASCADE`. Timestamps are integers; the clock is a parameter. */
module ChatTables {
  import opened Wrappers
  import opened Rows

  /** A `conversations` row. */
  datatype ConversationRow = ConversationRow(id: int, userId: int, agent: string, title: Option<string>,
                                             createdAt: int, lastMessageAt: Option<int>)

  /** A `messages` row; `metadata` is the stored JSON text, or NULL. */
  datatype MessageRow = MessageRow(id: int, conversationId: int, timestamp: int, role: string,
                                   content: string, metadata: Option<string>)

  /** Both tables, in storage order, and the next value of each key
      sequence. */
  datatype ChatDb = ChatDb(conversations: seq<ConversationRow>, messages: seq<MessageRow>,
                           nextConversationId: int, nextMessageId: int)

  function ConversationId(c: ConversationRow): int { c.id }

  function MessageId(m: MessageRow): int { m.id }

  /** What the schema guarantees: unique keys, keys below their sequence's
      next value, and every message's conversation present. */
  ghost predicate Wf(db: ChatDb) {
    && UniqueIds(db.conversations, ConversationId)
    && UniqueIds(db.messages, MessageId)
    && (forall i :: 0 <= i < |db.conversations| ==> db.conversations[i].id < db.nextConversationId)
    && (forall i :: 0 <= i < |db.messages| ==> db.messages[i].id < db.nextMessageId)
    && (forall i :: 0 <= i < |db.messages| ==> HasId(db.conversations, ConversationId, db.messages[i].conversationId))
  }
}

=== FILE: conversation_service.dfy ===
/** `ConversationService` (src/services/conversation_service.py): create,
    fetch, list, update and delete conversations. Each method is one
    statement against the tables; a statement that fails raises, which the
    model leaves to the database. */
module ConversationService {
  import opened Wrappers
  import opened Sorting
  import opened Rows
  import opened ChatTables
  import SqlUpdate

  /** `ConversationCreate`. */
  datatype ConversationCreate = ConversationCreate(userId: int, agent: string, title: Option<string>)

  /** `ConversationUpdate`: a field left `None` is not written. */
  datatype ConversationUpdate = ConversationUpdate(title: Option<string>, agent: Option<string>)

  /** `create_conversation`: one new row, keyed by the next sequence value,
      created now and without messages yet. */
  function CreateConversation(db: ChatDb, data: ConversationCreate, now: int): (r: (ChatDb, ConversationRow))
    ensures r.1 == ConversationRow(db.nextConversationId, data.userId, data.agent, data.title, now, None)
    ensures r.0.messages == db.messages && r.0.nextMessageId == db.nextMessageId
    ensures r.0.nextConversationId > r.1.id
    ensures |r.0.conversations| == |db.conversations| + 1
    ensures forall i :: 0 <= i < |db.conversations| ==> r.0.conversations[i] == db.conversations[i]
    ensures r.0.conversations[|db.conversations|] == r.1
  {
    var row := ConversationRow(db.nextConversationId, data.userId, data.agent, data.title, now, None);
    (db.(conversations := db.conversations + [row], nextConversationId := db.nextConversationId + 1), row)
  }

  /** `get_conversation`. */
  function GetConversation(db: ChatDb, id: int): (r: Option<ConversationRow>)
    ensures r.Some? <==> HasId(db.conversations, ConversationId, id)
    ensures r.Some? ==> r.value in db.conversations && r.value.id == id
  {
    FindById(db.conversations, ConversationId, id)
  }

  function CreatedAtDesc(c: ConversationRow): int { -c.createdAt }

  /** `get_conversations(user_id, limit=10, offset=0)`: the user's
      conversations, newest first. */
  function GetConversations(db: ChatDb, userId: int, limit: nat, offset: nat): (r: seq<ConversationRow>)
    ensures |r| <= limit
    ensures forall i :: 0 <= i < |r| ==> r[i] in db.conversations && r[i].userId == userId
    ensures forall i, j :: 0 <= i < j < |r| ==> r[i].createdAt >= r[j].createdAt
    ensures offset == 0 && |Filter(db.conversations, (c: ConversationRow) => c.userId == userId)| <= limit ==>
      multiset(r) == multiset(Filter(db.conversations, (c: ConversationRow) => c.userId == userId))
    ensures IsSortedPage(r, db.conversations, (c: ConversationRow) => c.userId == userId, CreatedAtDesc, limit, offset)
  {
    var r := Select(db.conversations, (c: ConversationRow) => c.userId == userId, CreatedAtDesc, limit, offset);
    assert forall i, j :: 0 <= i < j < |r| ==> CreatedAtDesc(r[i]) <= CreatedAtDesc(r[j]);
    r
  }

  /** The candidate `SET` fields, title first. */
  function UpdateFields(data: ConversationUpdate): seq<SqlUpdate.Field> {
    [SqlUpdate.Field("title", if data.title.Some? then Some(SqlUpdate.PStr(data.title.value)) else None),
     SqlUpdate.Field("agent", if data.agent.Some? then Some(SqlUpdate.PStr(data.agent.value)) else None)]
  }

  /** One `col = value` of the statement on a `conversations` row. */
  function WriteColumn(c: ConversationRow, column: string, value: SqlUpdate.Param): ConversationRow {
    if column == "title" && value.PStr? then c.(title := Some(value.s))
    else if column == "agent" && value.PStr? then c.(agent := value.s)
    else c
  }

  /** The row an update should leave: supplied fields replaced, the rest
      kept. */
  function Patched(c: ConversationRow, data: ConversationUpdate): (r: ConversationRow)
    ensures r.id == c.id && r.userId == c.userId && r.createdAt == c.createdAt && r.lastMessageAt == c.lastMessageAt
    ensures r.title == (if data.title.Some? then data.title else c.title)
    ensures data.agent.Some? ==> r.agent == data.agent.value
    ensures data.agent.None? ==> r.agent == c.agent
  {
    c.(title := if data.title.Some? then data.title else c.title, agent := data.agent.GetOr(c.agent))
  }

  /** `update_conversation`: the supplied fields are written to the row
      with that id and the row is returned; with nothing supplied, the row
      as it is. Nothing else changes. */
  function UpdateConversation(db: ChatDb, id: int, data: ConversationUpdate): (r: (ChatDb, Option<ConversationRow>))
    ensures r.0.messages == db.messages
    ensures r.0.nextConversationId == db.nextConversationId && r.0.nextMessageId == db.nextMessageId
    ensures |r.0.conversations| == |db.conversations|
    ensures forall i :: 0 <= i < |db.conversations| ==>
      r.0.conversations[i] == (if db.conversations[i].id == id then Patched(db.conversations[i], data) else db.conversations[i])
    ensures r.1 == GetConversation(r.0, id)
  {
    match SqlUpdate.BuildUpdate("conversations", UpdateFields(data), id)
    case None =>
      assert UpdateFields(data)[0].value.None? && UpdateFields(data)[1].value.None?;
      (db, GetConversation(db, id))
    case Some(q) =>
      var rows := SqlUpdate.Execute(db.conversations, q, ConversationId, WriteColumn);
      forall i | 0 <= i < |db.conversations| && db.conversations[i].id == id
        ensures rows[i] == Patched(db.conversations[i], data)
      {
        AssignIsPatch(db.conversations[i], data, q);
      }
      var db' := db.(conversations := rows);
      (db', GetConversation(db', id))
  }

  /** The statement built from `data` does to a row what `Patched` says. */
  lemma AssignIsPatch(c: ConversationRow, data: ConversationUpdate, q: SqlUpdate.UpdateQuery)
    requires SqlUpdate.BuildUpdate("conversations", UpdateFields(data), c.id) == Some(q)
    ensures SqlUpdate.Assign(c, q.columns, q.params, WriteColumn) == Patched(c, data)
  {
    var fs := UpdateFields(data);
    var s := SqlUpdate.Supplied(fs);
    assert fs[1..][1..] == [];
    assert SqlUpdate.Supplied(fs[1..]) == (if data.agent.Some? then [fs[1]] else []);
    assert s == (if data.title.Some? then [fs[0]] else []) + SqlUpdate.Supplied(fs[1..]);
    var cs, ps := q.columns, q.params;
    var c1 := if data.title.Some? then WriteColumn(c, "title", SqlUpdate.PStr(data.title.value)) else c;
    var c2 := if data.agent.Some? then WriteColumn(c1, "agent", SqlUpdate.PStr(data.agent.value)) else c1;
    assert c2 == Patched(c, data);
    if data.title.Some? && data.agent.Some? {
      assert |cs| == 2 && cs[0] == "title" && cs[1] == "agent";
      assert ps[0] == SqlUpdate.PStr(data.title.value) && ps[1] == SqlUpdate.PStr(data.agent.value);
      assert SqlUpdate.Assign(c, cs, ps, WriteColumn) == SqlUpdate.Assign(c1, cs[1..], ps[1..], WriteColumn);
      assert SqlUpdate.Assign(c1, cs[1..], ps[1..], WriteColumn) == SqlUpdate.Assign(c2, cs[2..], ps[2..], WriteColumn);
    } else if data.title.Some? {
      assert |cs| == 1 && cs[0] == "title" && ps[0] == SqlUpdate.PStr(data.title.value);
      assert SqlUpdate.Assign(c, cs, ps, WriteColumn) == SqlUpdate.Assign(c1, cs[1..], ps[1..], WriteColumn);
    } else {
      assert |cs| == 1 && cs[0] == "agent" && ps[0] == SqlUpdate.PStr(data.agent.value);
      assert SqlUpdate.Assign(c, cs, ps, WriteColumn) == SqlUpdate.Assign(c2, cs[1..], ps[1..], WriteColumn);
    }
  }

  /** `delete_conversation`: whether a row went; its messages go with it
      (`ON DELETE CASCADE`). */
  function DeleteConversation(db: ChatDb, id: int): (r: (ChatDb, bool))
    ensures r.1 <==> GetConversation(db, id).Some?
    ensures GetConversation(r.0, id).None?
    ensures forall i :: 0 <= i < |r.0.messages| ==> r.0.messages[i].conversationId != id && r.0.messages[i] in db.messages
    ensures forall i :: 0 <= i < |db.messages| && db.messages[i].conversationId != id ==> db.messages[i] in r.0.messages
    ensures forall i :: 0 <= i < |db.conversations| && db.conversations[i].id != id ==> db.conversations[i] in r.0.conversations
  {
    var (rows, gone) := DeleteById(db.conversations, ConversationId, id);
    (db.(conversations := rows, messages := Filter(db.messages, (m: MessageRow) => m.conversationId != id)), gone)
  }

  // ---------------------------------------------------------------------
  // Properties
  // ---------------------------------------------------------------------

  /** A created conversation is found under its new id, and every other id
      finds what it found before. */
  lemma CreateThenGet(db: ChatDb, data: ConversationCreate, now: int, k: int)
    requires Wf(db)
    ensures var (db', row) := CreateConversation(db, data, now);
      && GetConversation(db', row.id) == Some(row)
      && (k != row.id ==> GetConversation(db', k) == GetConversation(db, k))
  {
    var (db', row) := CreateConversation(db, data, now);
    FindAppend(db.conversations, row, row.id);
    FindAppend(db.conversations, row, k);
  }

  lemma {:induction false} FindAppend(rows: seq<ConversationRow>, row: ConversationRow, k: int)
    requires forall i :: 0 <= i < |rows| ==> rows[i].id < row.id
    ensures FindById(rows + [row], ConversationId, k) ==
      (if HasId(rows, ConversationId, k) then FindById(rows, ConversationId, k) else if k == row.id then Some(row) else None)
    decreases |rows|
  {
    if |rows| > 0 {
      assert (rows + [row])[1..] == rows[1..] + [row];
      FindAppend(rows[1..], row, k);
      assert HasId(rows, ConversationId, k) <==> rows[0].id == k || HasId(rows[1..], ConversationId, k) by {
        if HasId(rows, ConversationId, k) && rows[0].id != k {
          var i :| 0 <= i < |rows| && rows[i].id == k;
          assert rows[1..][i - 1] == rows[i];
        }
      }
    } else {
      assert rows + [row] == [row];
    }
  }

  lemma CreatePreservesWf(db: ChatDb, data: ConversationCreate, now: int)
    requires Wf(db)
    ensures Wf(CreateConversation(db, data, now).0)
  {
    var (db', row) := CreateConversation(db, data, now);
    forall i | 0 <= i < |db'.messages| ensures HasId(db'.conversations, ConversationId, db'.messages[i].conversationId) {
      var j :| 0 <= j < |db.conversations| && db.conversations[j].id == db.messages[i].conversationId;
      assert db'.conversations[j] == db.conversations[j];
    }
  }

  lemma UpdatePreservesWf(db: ChatDb, id: int, data: ConversationUpdate)
    requires Wf(db)
    ensures Wf(UpdateConversation(db, id, data).0)
  {
    var db' := UpdateConversation(db, id, data).0;
    assert forall i :: 0 <= i < |db.conversations| ==> db'.conversations[i].id == db.conversations[i].id;
    forall i | 0 <= i < |db'.messages| ensures HasId(db'.conversations, ConversationId, db'.messages[i].conversationId) {
      var j :| 0 <= j < |db.conversations| && db.conversations[j].id == db.messages[i].conversationId;
      assert db'.conversations[j].id == db.conversations[j].id;
    }
  }

  /** Deleting keeps every message's conversation present: the cascade
      takes exactly the messages whose conversation went. */
  lemma DeletePreservesWf(db: ChatDb, id: int)
    requires Wf(db)
    ensures Wf(DeleteConversation(db, id).0)
  {
    var db' := DeleteConversation(db, id).0;
    DeleteKeepsUnique(db.conversations, ConversationId, id);
    FilterKeepsUnique(db.messages, MessageId, (m: MessageRow) => m.conversationId != id);
    CascadeKeepsForeignKeys(db, id);
    DeleteKeepsKeysBelowNext(db, id);
  }

  lemma CascadeKeepsForeignKeys(db: ChatDb, id: int)
    requires Wf(db)
    ensures var db' := DeleteConversation(db, id).0;
      forall i :: 0 <= i < |db'.messages| ==> HasId(db'.conversations, ConversationId, db'.messages[i].conversationId)
  {
    var db' := DeleteConversation(db, id).0;
    forall i | 0 <= i < |db'.messages| ensures HasId(db'.conversations, ConversationId, db'.messages[i].conversationId) {
      var m := db'.messages[i];
      var k :| 0 <= k < |db.messages| && db.messages[k] == m;
      var j :| 0 <= j < |db.conversations| && db.conversations[j].id == m.conversationId;
      assert db.conversations[j] in db'.conversations;
    }
  }

  lemma DeleteKeepsKeysBelowNext(db: ChatDb, id: int)
    requires Wf(db)
    ensures var db' := DeleteConversation(db, id).0;
      && (forall i :: 0 <= i < |db'.conversations| ==> db'.conversations[i].id < db'.nextConversationId)
      && (forall i :: 0 <= i < |db'.messages| ==> db'.messages[i].id < db'.nextMessageId)
  {
    var db' := DeleteConversation(db, id).0;
    forall i | 0 <= i < |db'.conversations| ensures db'.conversations[i].id < db'.nextConversationId {
      var j :| 0 <= j < |db.conversations| && db.conversations[j] == db'.conversations[i];
    }
    forall i | 0 <= i < |db'.messages| ensures db'.messages[i].id < db'.nextMessageId {
      var j :| 0 <= j < |db.messages| && db.messages[j] == db'.messages[i];
    }
  }

  /** Deleting twice: the second call finds nothing and changes nothing
      that matters. */
  lemma DeleteTwice(db: ChatDb, id: int)
    ensures var db' := DeleteConversation(db, id).0;
      !DeleteConversation(db', id).1 && GetConversation(DeleteConversation(db', id).0, id).None?
  {
  }

  /** An update found under its id: the row comes back with the supplied
      fields and its other columns as they were; an unknown id gives
      nothing. */
  lemma UpdateThenGet(db: ChatDb, id: int, data: ConversationUpdate)
    requires Wf(db)
    ensures var (db', r) := UpdateConversation(db, id, data);
      && (r.Some? <==> GetConversation(db, id).Some?)
      && (r.Some? ==> r.value == Patched(GetConversation(db, id).value, data))
  {
    var (db', r) := UpdateConversation(db, id, data);
    var before := GetConversation(db, id);
    assert forall i :: 0 <= i < |db.conversations| ==> db'.conversations[i].id == db.conversations[i].id;
    assert HasId(db'.conversations, ConversationId, id) ==> HasId(db.conversations, ConversationId, id);
    if before.Some? && r.Some? {
      var j :| 0 <= j < |db.conversations| && db.conversations[j] == before.value;
      var k :| 0 <= k < |db'.conversations| && db'.conversations[k] == r.value;
      assert db.conversations[k].id == id;
    }
  }
}

=== FILE: invoke_agent.dfy ===
/** `invoke_agent` (src/utils/invoke_agent.py): which conversation history
    and user input drive the agent, which agent runs, and which of its
    chunks are passed on.

    The conversation and message lookups are their results; building the
    agent may raise (its exception text); the agent's output is the
    sequence of chunks it yields. An exception raised while the agent
    streams is not caught here and is the caller's to handle. */
module InvokeAgent {
  import opened Wrappers
  import opened Text
  import opened Sorting

  const DEFAULT_AGENT: string := "Agent"
  const DB_AGENT_PREFIX: string := "DatabaseAgent"
  const NO_HISTORY: string := "Error: No message history found (user input missing)."
  const NO_USER_INPUT: string := "Error: No user input found."
  const INIT_ERROR: string := "Error initializing agent: "

  datatype Conversation = Conversation(userId: int, agent: Option<string>)

  /** A stored message; timestamps are compared as numbers. */
  datatype StoredMessage = StoredMessage(id: int, role: string, content: string, timestamp: int)

  /** `Message(role=..., content=...)` handed to the agent as history. */
  datatype HistoryMessage = HistoryMessage(role: string, content: string)

  /** `get_database_agent(module=...)` or `get_test_agent`. */
  datatype AgentChoice = DatabaseAgent(moduleName: Option<string>) | TestAgent

  /** What the function decides before any agent runs. */
  datatype Plan =
    | NoConversation
    | Refuse(message: string)
    | Start(agent: AgentChoice, userId: int, history: seq<HistoryMessage>, input: string)

  /** The `"content"` of a dict chunk: a dict (with its own `"content"`, if
      any), a string, or anything else. */
  datatype ChunkContent = ContentDict(inner: Option<string>) | ContentText(text: string) | ContentOther

  /** A chunk yielded by the agent: a dict (with its `"content"`, if any)
      or anything else. */
  datatype AgentChunk = DictChunk(content: Option<ChunkContent>) | OtherChunk

  function Timestamp(m: StoredMessage): int { m.timestamp }

  /** `[m for m in msgs if m.id != message_id]`. */
  function Without(ms: seq<StoredMessage>, id: int): (r: seq<StoredMessage>)
    ensures |r| <= |ms|
    ensures forall x :: x in r <==> x in ms && x.id != id
    ensures SortedBy(ms, Timestamp) ==> SortedBy(r, Timestamp)
    decreases |ms|
  {
    if |ms| == 0 then []
    else
      var init := ms[..|ms| - 1];
      var last := ms[|ms| - 1];
      assert ms == init + [last];
      var r := Without(init, id);
      if last.id == id then r
      else
        assert SortedBy(ms, Timestamp) ==> SortedBy(r + [last], Timestamp) by {
          if SortedBy(ms, Timestamp) {
            assert SortedBy(init, Timestamp) by {
              forall i, j | 0 <= i < j < |init| ensures init[i].timestamp <= init[j].timestamp {
                assert init[i] == ms[i] && init[j] == ms[j];
              }
            }
            forall i | 0 <= i < |r| ensures r[i].timestamp <= last.timestamp {
              var k :| 0 <= k < |init| && init[k] == r[i];
              assert ms[k] == init[k];
            }
          }
        }
        r + [last]
  }

  /** The messages the decision is made on: the fetched ones in timestamp
      order, without the placeholder being answered. */
  function Candidates(desc: seq<StoredMessage>, messageId: int): seq<StoredMessage> {
    Without(SortBy(desc, Timestamp), messageId)
  }

  /** `conversation.agent or "Agent"`. */
  function AgentName(c: Conversation): (r: string)
    ensures r != ""
    ensures c.agent.Some? && c.agent.value != "" ==> r == c.agent.value
  {
    if c.agent.Some? && c.agent.value != "" then c.agent.value else DEFAULT_AGENT
  }

  /** A name starting with "DatabaseAgent" selects the database agent, with
      the module taken from the second `:`-separated field when there is a
      `:`; every other name selects the test agent. */
  function SelectAgent(name: string): (r: AgentChoice)
    ensures r.DatabaseAgent? <==> StartsWith(name, DB_AGENT_PREFIX)
    ensures r.DatabaseAgent? ==> (r.moduleName.Some? <==> ':' in name)
    ensures r.DatabaseAgent? && r.moduleName.Some? ==> ':' !in r.moduleName.value
  {
    if StartsWith(name, DB_AGENT_PREFIX) then
      if ':' in name then
        var fields := Split(name, ':');
        SplitAtSeparator(name, ':');
        DatabaseAgent(Some(fields[1]))
      else DatabaseAgent(None)
    else TestAgent
  }

  function History(ms: seq<StoredMessage>): (r: seq<HistoryMessage>)
    ensures |r| == |ms|
    ensures forall i :: 0 <= i < |ms| ==> r[i] == HistoryMessage(ms[i].role, ms[i].content)
  {
    seq(|ms|, i requires 0 <= i < |ms| => HistoryMessage(ms[i].role, ms[i].content))
  }

  /** Steps 1 to 3 of `invoke_agent`, up to the choice of agent. */
  function Prepare(conv: Option<Conversation>, desc: seq<StoredMessage>, messageId: int): (r: Plan)
    ensures r.NoConversation? <==> conv.None?
    ensures r.Start? ==> r.agent == SelectAgent(AgentName(conv.value)) && r.userId == conv.value.userId
    ensures r.Refuse? ==> r.message == (if |Candidates(desc, messageId)| == 0 then NO_HISTORY else NO_USER_INPUT)
  {
    match conv
    case None => NoConversation
    case Some(c) =>
      var cands := Candidates(desc, messageId);
      if |cands| == 0 then Refuse(NO_HISTORY)
      else
        var last := cands[|cands| - 1];
        if last.role != "user" then Refuse(NO_USER_INPUT)
        else Start(SelectAgent(AgentName(c)), c.userId, History(cands[..|cands| - 1]), last.content)
  }

  /** The text a chunk contributes: the non-empty inner `content` of a dict
      chunk whose `content` is a dict. */
  function Forwarded(c: AgentChunk): (r: Option<string>)
    ensures r.Some? ==> r.value != ""
    ensures r.Some? <==> c.DictChunk? && c.content.Some? && c.content.value.ContentDict?
                         && c.content.value.inner.Some? && c.content.value.inner.value != ""
    ensures r.Some? ==> r == c.content.value.inner
  {
    match c
    case DictChunk(Some(ContentDict(Some(t)))) => if t != "" then Some(t) else None
    case _ => None
  }

  /** Step 4: the chunks passed on, in yield order. */
  function Forward(chunks: seq<AgentChunk>): (r: seq<string>)
    ensures |r| <= |chunks|
    ensures forall i :: 0 <= i < |r| ==> r[i] != ""
    decreases |chunks|
  {
    if |chunks| == 0 then []
    else
      var f := Forwarded(chunks[|chunks| - 1]);
      Forward(chunks[..|chunks| - 1]) + (if f.Some? then [f.value] else [])
  }

  /** `invoke_agent(conversation_id, message_id)`: what it yields.
      `initFailure` is the exception of building the chosen agent. */
  function Invoke(conv: Option<Conversation>, desc: seq<StoredMessage>, messageId: int,
                  initFailure: Option<string>, chunks: seq<AgentChunk>): (r: seq<string>)
    ensures Prepare(conv, desc, messageId).Start? && initFailure.None? ==> r == Forward(chunks)
  {
    match Prepare(conv, desc, messageId)
    case NoConversation => []
    case Refuse(m) => [m]
    case Start(_, _, _, _) =>
      if initFailure.Some? then [INIT_ERROR + initFailure.value] else Forward(chunks)
  }

  // ---------------------------------------------------------------------
  // Properties
  // ---------------------------------------------------------------------

  /** The candidates are in timestamp order, never include the placeholder
      being answered, and are exactly the fetched messages other than it. */
  lemma {:induction false} CandidatesOrdered(desc: seq<StoredMessage>, messageId: int)
    ensures var c := Candidates(desc, messageId);
      && SortedBy(c, Timestamp)
      && (forall i :: 0 <= i < |c| ==> c[i].id != messageId)
      && (forall m :: m in c <==> m in desc && m.id != messageId)
  {
    var sorted := SortBy(desc, Timestamp);
    forall m ensures m in sorted <==> m in desc {
      assert m in sorted <==> m in multiset(sorted);
      assert m in desc <==> m in multiset(desc);
    }
    var c := Candidates(desc, messageId);
    forall i | 0 <= i < |c| ensures c[i].id != messageId {
      assert c[i] in c;
    }
  }

  /** When the agent runs, its input is the last candidate's content, that
      candidate is a user message, and the history is every earlier
      candidate in order: history and input together are the candidates. */
  lemma {:induction false} StartUsesCandidates(conv: Option<Conversation>, desc: seq<StoredMessage>, messageId: int)
    requires Prepare(conv, desc, messageId).Start?
    ensures var p := Prepare(conv, desc, messageId);
      var c := Candidates(desc, messageId);
      && |c| == |p.history| + 1
      && c[|c| - 1].role == "user" && p.input == c[|c| - 1].content
      && History(c) == p.history + [HistoryMessage("user", p.input)]
  {
    var c := Candidates(desc, messageId);
    var n := |c| - 1;
    assert Prepare(conv, desc, messageId) == Start(SelectAgent(AgentName(conv.value)), conv.value.userId, History(c[..n]), c[n].content);
    HistoryOfLast(c);
  }

  lemma {:induction false} HistoryOfLast(c: seq<StoredMessage>)
    requires |c| > 0
    ensures History(c) == History(c[..|c| - 1]) + [HistoryMessage(c[|c| - 1].role, c[|c| - 1].content)]
  {
    var n := |c| - 1;
    forall i | 0 <= i < n ensures History(c)[i] == History(c[..n])[i] {
      assert c[..n][i] == c[i];
    }
  }

  /** For a known conversation the agent is started exactly when the last
      candidate is a user message; otherwise the call is refused. */
  lemma {:induction false} StartsOnUserTurn(c: Conversation, desc: seq<StoredMessage>, messageId: int)
    ensures var cands := Candidates(desc, messageId);
      Prepare(Some(c), desc, messageId).Start? <==> |cands| > 0 && cands[|cands| - 1].role == "user"
    ensures !Prepare(Some(c), desc, messageId).Start? ==> Prepare(Some(c), desc, messageId).Refuse?
  {
  }

  /** An unknown conversation yields nothing. */
  lemma {:induction false} UnknownConversationYieldsNothing(desc: seq<StoredMessage>, messageId: int,
                                         initFailure: Option<string>, chunks: seq<AgentChunk>)
    ensures Invoke(None, desc, messageId, initFailure, chunks) == []
  {
  }

  /** Without candidates, or with a last candidate that is not a user
      message, exactly one error chunk is yielded, whatever the agent would
      have done: the agent is not run. */
  lemma {:induction false} NoUserInputOneError(c: Conversation, desc: seq<StoredMessage>, messageId: int,
                            initFailure: Option<string>, chunks: seq<AgentChunk>)
    ensures var cands := Candidates(desc, messageId);
      && (|cands| == 0 ==> Invoke(Some(c), desc, messageId, initFailure, chunks) == [NO_HISTORY])
      && (|cands| > 0 && cands[|cands| - 1].role != "user" ==>
            Invoke(Some(c), desc, messageId, initFailure, chunks) == [NO_USER_INPUT])
  {
  }

  /** A failure to build the agent yields exactly one error chunk. */
  lemma {:induction false} InitFailureOneError(conv: Option<Conversation>, desc: seq<StoredMessage>, messageId: int,
                            e: string, chunks: seq<AgentChunk>)
    requires Prepare(conv, desc, messageId).Start?
    ensures Invoke(conv, desc, messageId, Some(e), chunks) == [INIT_ERROR + e]
  {
  }

  /** "DatabaseAgent<suffix>:<m>" followed by nothing or by further
      `:`-fields selects the database agent with module `m`. */
  lemma {:induction false} DatabaseAgentModule(suffix: string, m: string, tail: string)
    requires ':' !in suffix && ':' !in m
    requires tail == "" || tail[0] == ':'
    ensures SelectAgent(DB_AGENT_PREFIX + suffix + ":" + m + tail) == DatabaseAgent(Some(m))
  {
    var head := DB_AGENT_PREFIX + suffix;
    var name := head + ":" + m + tail;
    assert ':' !in head by {
      assert ':' !in DB_AGENT_PREFIX;
    }
    assert name == head + [':'] + (m + tail);
    SplitFirst(head, ':', m + tail);
    SecondField(m, tail);
    assert name[..|DB_AGENT_PREFIX|] == DB_AGENT_PREFIX;
    assert name[|head|] == ':';
  }

  lemma {:induction false} SecondField(m: string, tail: string)
    requires ':' !in m
    requires tail == "" || tail[0] == ':'
    ensures Split(m + tail, ':')[0] == m
  {
    if tail == "" {
      assert m + tail == m;
      SplitNoSeparator(m, ':');
    } else {
      assert m + tail == m + [':'] + tail[1..];
      SplitFirst(m, ':', tail[1..]);
    }
  }

  /** Any name not starting with "DatabaseAgent", "inquiry" among them,
      runs the test agent. */
  lemma {:induction false} OtherNamesUseTestAgent(name: string)
    requires !StartsWith(name, DB_AGENT_PREFIX)
    ensures SelectAgent(name) == TestAgent
    ensures SelectAgent("inquiry") == TestAgent
  {
  }

  /** Forwarding commutes with concatenation of the agent's output, so the
      chunks passed on can be computed as they arrive. */
  lemma {:induction false} ForwardAppend(a: seq<AgentChunk>, b: seq<AgentChunk>)
    ensures Forward(a + b) == Forward(a) + Forward(b)
    decreases |b|
  {
    if |b| == 0 {
      assert a + b == a;
    } else {
      var b' := b[..|b| - 1];
      assert (a + b)[..|a + b| - 1] == a + b';
      ForwardAppend(a, b');
    }
  }

  /** Only dict chunks with a dict `content` and non-empty inner text pass:
      a string `content` or a non-dict chunk yields nothing. */
  lemma {:induction false} OnlyInnerTextForwarded(t: string)
    ensures Forward([DictChunk(Some(ContentDict(Some(t))))]) == (if t != "" then [t] else [])
    ensures Forward([DictChunk(Some(ContentText(t)))]) == []
    ensures Forward([DictChunk(Some(ContentDict(None)))]) == []
    ensures Forward([DictChunk(Some(ContentOther))]) == []
    ensures Forward([DictChunk(None)]) == [] && Forward([OtherChunk]) == []
  {
    assert [DictChunk(Some(ContentDict(Some(t))))][..0] == [];
    assert [DictChunk(Some(ContentText(t)))][..0] == [];
    assert [DictChunk(Some(ContentDict(None)))][..0] == [];
    assert [DictChunk(Some(ContentOther))][..0] == [];
    assert [DictChunk(None)][..0] == [];
    assert [OtherChunk][..0] == [];
  }
}

=== FILE: llm_worker.dfy ===
/** `process_job` of the chat worker (src/workers/llm_worker.py): one
    claimed job's store writes and database updates.

    The outside world is an oracle outcome per step: the lookup of the
    assistant message (`MessageService.get_message`), the agent's stream
    (the chunks yielded before it finished or raised) and the outcome of
    the database update that persists the reply. Exceptions are their
    `str(e)` text. */
module LlmWorker {
  import opened Wrappers
  import opened Text
  import opened Store

  /** What `invoke_agent` did: the chunks it yielded, then either a normal
      end (`None`) or an exception. */
  datatype AgentRun = AgentRun(chunks: seq<string>, raised: Option<string>)

  /** A `MessageUpdate` sent to `MessageService.update_message`. */
  datatype DbWrite = DbWrite(content: string, metadata: map<string, bool>)

  /** A job's effects: store writes in order, and database updates in
      order (the last may have failed; see `persistFailed`). */
  datatype Job = Job(writes: seq<Write>, db: seq<DbWrite>)

  /** The database write of the error path: "Error: " and the exception
      text, flagged as an error. */
  function ErrorRecord(e: string): DbWrite {
    DbWrite("Error: " + e, map["error" := true])
  }

  /** `process_job(message_id)`. `lookup` is the message lookup (an
      exception, no message, or its conversation id); `persistFailed` is the
      exception of the final database update, if it raised. The error
      path's own database write may fail too; that failure is swallowed and
      changes nothing here. */
  function ProcessJob(id: Id, lookup: Result<Option<string>>, agent: AgentRun, persistFailed: Option<string>): (j: Job)
    ensures |j.writes| >= 1 && j.writes[0] == HashSet(id, map[STATUS := PROCESSING])
    ensures forall i :: 0 <= i < |j.writes| ==> j.writes[i].id == id
  {
    match lookup
    case Err(e) => Job(Lifecycle(id, [], ERROR, map["error" := e]), [ErrorRecord(e)])
    case Ok(None) => Job(UpdateState(id, PROCESSING, map[]), [])
    case Ok(Some(_)) =>
      match agent.raised
      case Some(e) => Job(Lifecycle(id, agent.chunks, ERROR, map["error" := e]), [ErrorRecord(e)])
      case None =>
        var done := Lifecycle(id, agent.chunks, DONE, map[]);
        match persistFailed
        case None => Job(done, [PersistReply(agent.chunks)])
        case Some(e) =>
          Job(done + UpdateState(id, ERROR, map["error" := e]), [PersistReply(agent.chunks), ErrorRecord(e)])
  }

  /** The reply persisted on success: the stripped concatenation of the
      chunks, flagged as processed. */
  function PersistReply(chunks: seq<string>): (w: DbWrite)
    ensures w.metadata == map["processed" := true]
    ensures |w.content| <= |Concat(chunks)|
    ensures StrippedOf(w.content, Concat(chunks), IsSpace)
  {
    StripIsStripped(Concat(chunks));
    DbWrite(Strip(Concat(chunks)), map["processed" := true])
  }

  /** One more chunk adds one more append and one more piece of text. */
  lemma AppendAllPrefix(id: Id, chunks: seq<string>, i: nat)
    requires i < |chunks|
    ensures AppendAll(id, chunks[..i + 1]) == AppendAll(id, chunks[..i]) + AppendChunk(id, chunks[i])
    ensures Concat(chunks[..i + 1]) == Concat(chunks[..i]) + chunks[i]
  {
    assert chunks[..i + 1][..i] == chunks[..i];
    var next := AppendAll(id, chunks[..i + 1]);
    var ws := AppendAll(id, chunks[..i]) + AppendChunk(id, chunks[i]);
    forall k | 0 <= k < |next| ensures next[k] == ws[k] {
      if k < i {
        assert chunks[..i + 1][k] == chunks[..i][k];
      }
    }
  }

  /** The `async for` loop: appends each chunk in yield order and
      accumulates `response_text`. */
  method StreamChunks(id: Id, chunks: seq<string>) returns (ws: seq<Write>, text: string)
    ensures ws == AppendAll(id, chunks)
    ensures text == Concat(chunks)
  {
    ws := [];
    text := "";
    var i := 0;
    while i < |chunks|
      invariant 0 <= i <= |chunks|
      invariant ws == AppendAll(id, chunks[..i])
      invariant text == Concat(chunks[..i])
    {
      AppendAllPrefix(id, chunks, i);
      ws := ws + AppendChunk(id, chunks[i]);
      text := text + chunks[i];
      i := i + 1;
    }
    assert chunks[..i] == chunks;
  }

  // ---------------------------------------------------------------------
  // Properties
  // ---------------------------------------------------------------------

  /** A missing assistant message ends the job with status left at
      "processing", nothing streamed and nothing persisted. */
  lemma MissingMessageStaysProcessing(s: Store, id: Id, agent: AgentRun, persistFailed: Option<string>)
    ensures var j := ProcessJob(id, Ok(None), agent, persistFailed);
      && StatusOf(Run(s, j.writes), id) == Some(PROCESSING)
      && StreamOf(Run(s, j.writes), id) == StreamOf(s, id)
      && j.db == []
  {
    UpdateStateEffect(s, id, PROCESSING, map[]);
  }

  /** A clean run: the chunks are appended in yield order before "done",
      "done" is the last store write, and the reply persisted is the
      stripped concatenation of the chunks. */
  lemma SuccessfulJob(s: Store, id: Id, conv: string, chunks: seq<string>)
    ensures var j := ProcessJob(id, Ok(Some(conv)), AgentRun(chunks, None), None);
      && j.writes == Lifecycle(id, chunks, DONE, map[])
      && StatusOf(Run(s, j.writes), id) == Some(DONE)
      && StreamOf(Run(s, j.writes), id) == StreamOf(s, id) + chunks
      && StatusAfterLastChunk(j.writes, id)
      && j.db == [DbWrite(Strip(Concat(chunks)), map["processed" := true])]
  {
    LifecycleEffect(s, id, chunks, DONE, map[]);
    LifecycleOrdered(id, chunks, DONE, map[]);
  }

  /** The agent raising after some chunks: those chunks stay in the stream,
      no error chunk is appended, the status becomes "error" with the
      exception text, and "Error: ..." is sent to the database. */
  lemma AgentFailure(s: Store, id: Id, conv: string, chunks: seq<string>, e: string, persistFailed: Option<string>)
    ensures var j := ProcessJob(id, Ok(Some(conv)), AgentRun(chunks, Some(e)), persistFailed);
      && j.writes == Lifecycle(id, chunks, ERROR, map["error" := e])
      && StatusOf(Run(s, j.writes), id) == Some(ERROR)
      && Get(StateOf(Run(s, j.writes), id), "error") == Some(e)
      && StreamOf(Run(s, j.writes), id) == StreamOf(s, id) + chunks
      && j.db == [ErrorRecord(e)]
  {
    LifecycleEffect(s, id, chunks, ERROR, map["error" := e]);
  }

  /** The database update that persists the reply runs after "done" is
      written; when it raises, the job's status moves on from "done" to
      "error". So a reader can see "done" and later "error" for one job. */
  lemma PersistFailureOverwritesDone(s: Store, id: Id, conv: string, chunks: seq<string>, e: string)
    ensures var j := ProcessJob(id, Ok(Some(conv)), AgentRun(chunks, None), Some(e));
      var done := Lifecycle(id, chunks, DONE, map[]);
      && j.writes == done + UpdateState(id, ERROR, map["error" := e])
      && j.db == [PersistReply(chunks), ErrorRecord(e)]
      && StatusOf(Run(s, done), id) == Some(DONE)
      && StatusOf(Run(s, j.writes), id) == Some(ERROR)
      && StreamOf(Run(s, j.writes), id) == StreamOf(s, id) + chunks
  {
    var done := Lifecycle(id, chunks, DONE, map[]);
    var j := ProcessJob(id, Ok(Some(conv)), AgentRun(chunks, None), Some(e));
    LifecycleEffect(s, id, chunks, DONE, map[]);
    RunAppend(s, done, UpdateState(id, ERROR, map["error" := e]));
    UpdateStateEffect(Run(s, done), id, ERROR, map["error" := e]);
  }

  /** A failed lookup: status "error" right after "processing", nothing
      streamed. */
  lemma LookupFailure(s: Store, id: Id, e: string, agent: AgentRun, persistFailed: Option<string>)
    ensures var j := ProcessJob(id, Err(e), agent, persistFailed);
      && StatusOf(Run(s, j.writes), id) == Some(ERROR)
      && StreamOf(Run(s, j.writes), id) == StreamOf(s, id)
      && j.db == [ErrorRecord(e)]
  {
    LifecycleEffect(s, id, [], ERROR, map["error" := e]);
  }
}

=== FILE: message_format.dfy ===
/** `VLLM._convert_message_to_openai_format`
    (src/agentic/llms/vllm.py): an agent-runtime message turned into the
    OpenAI chat wire format.

    Images are carried as their base64 text (`image.to_base64()` belongs to
    the agent runtime); `json.dumps` of a dict of arguments is an oracle. */
module MessageFormat {
  import opened Wrappers
  import opened Text
  import ToolNames

  const IMAGE_URL_PREFIX: string := "data:image/jpeg;base64,"
  const CALL_ID_PREFIX: string := "call_"

  /** A tool call's arguments: a dict, or any other value with its `str()`. */
  datatype Arguments = ArgsObject(fields: map<string, string>) | ArgsOther(text: string)

  /** A tool call as the agent runtime holds it. */
  datatype CallIn = CallIn(id: Option<string>, name: string, arguments: Arguments)

  /** The runtime's `Message`. */
  datatype Message = Message(role: string, content: Option<string>, images: seq<string>,
                             toolCalls: seq<CallIn>, toolCallId: Option<string>)

  /** The `content` value sent: the message text as is, or a list of one
      text part followed by one image part per image. */
  datatype Content = Plain(value: Option<string>) | Parts(text: string, imageUrls: seq<string>)

  /** `{"id": .., "type": "function", "function": {"name": .., "arguments": ..}}`. */
  datatype CallOut = CallOut(id: string, name: string, arguments: string)

  /** The message dict. `toolCallId` is `None` when the key is absent (its
      value may itself be null); `toolCalls` likewise. */
  datatype Wire = Wire(role: string, content: Content, toolCallId: Option<Option<string>>,
                       toolCalls: Option<seq<CallOut>>)

  /** `tc.id or f"call_{i}"`: an absent or empty id becomes `call_i`. */
  function CallId(given: Option<string>, i: nat): (r: string)
    ensures r != ""
    ensures given.Some? && given.value != "" ==> r == given.value
    ensures !(given.Some? && given.value != "") ==> r == CALL_ID_PREFIX + NatToString(i)
  {
    if given.Some? && given.value != "" then given.value else CALL_ID_PREFIX + NatToString(i)
  }

  /** `json.dumps(args)` for a dict, `str(args)` otherwise. */
  function ArgumentsText(a: Arguments, dumps: map<string, string> -> string): string {
    match a
    case ArgsObject(fields) => dumps(fields)
    case ArgsOther(text) => text
  }

  /** The `i`-th tool call, with its name's characters outside
      `[a-zA-Z0-9_-]` replaced by `_`. */
  function ConvertCall(c: CallIn, i: nat, dumps: map<string, string> -> string): (r: CallOut)
    ensures r.id == CallId(c.id, i)
    ensures r.name == ToolNames.Sanitize(c.name)
    ensures r.arguments == ArgumentsText(c.arguments, dumps)
  {
    CallOut(CallId(c.id, i), ToolNames.Sanitize(c.name), ArgumentsText(c.arguments, dumps))
  }

  function ConvertCalls(calls: seq<CallIn>, dumps: map<string, string> -> string): (r: seq<CallOut>)
    ensures |r| == |calls|
    ensures forall i :: 0 <= i < |calls| ==> r[i] == ConvertCall(calls[i], i, dumps)
  {
    seq(|calls|, i requires 0 <= i < |calls| => ConvertCall(calls[i], i, dumps))
  }

  function ImageUrls(images: seq<string>): (r: seq<string>)
    ensures |r| == |images|
    ensures forall i :: 0 <= i < |images| ==> r[i] == IMAGE_URL_PREFIX + images[i]
  {
    seq(|images|, i requires 0 <= i < |images| => IMAGE_URL_PREFIX + images[i])
  }

  /** `_convert_message_to_openai_format`. */
  function Convert(m: Message, dumps: map<string, string> -> string): (w: Wire)
    ensures w.role == m.role
    ensures w.content.Parts? <==> |m.images| > 0 && m.content.Some? && m.content.value != ""
    ensures w.content.Parts? ==> w.content.text == m.content.value && w.content.imageUrls == ImageUrls(m.images)
    ensures w.content.Plain? ==> w.content.value == m.content
    ensures w.toolCallId == (if m.role == "tool" then Some(m.toolCallId) else None)
    ensures w.toolCalls.Some? <==> m.role == "assistant" && |m.toolCalls| > 0
    ensures w.toolCalls.Some? ==> w.toolCalls.value == ConvertCalls(m.toolCalls, dumps)
  {
    var content :=
      if |m.images| > 0 && m.content.Some? && m.content.value != "" then Parts(m.content.value, ImageUrls(m.images))
      else Plain(m.content);
    Wire(m.role, content,
         if m.role == "tool" then Some(m.toolCallId) else None,
         if m.role == "assistant" && |m.toolCalls| > 0 then Some(ConvertCalls(m.toolCalls, dumps)) else None)
  }

  /** `body["messages"]` of `chat`: every message converted, in order. */
  function ConvertAll(messages: seq<Message>, dumps: map<string, string> -> string): (r: seq<Wire>)
    ensures |r| == |messages|
    ensures forall i :: 0 <= i < |messages| ==> r[i] == Convert(messages[i], dumps)
  {
    seq(|messages|, i requires 0 <= i < |messages| => Convert(messages[i], dumps))
  }

  // ---------------------------------------------------------------------
  // Properties
  // ---------------------------------------------------------------------

  /** Every call sent has a non-empty id; the ids generated for calls
      without one are pairwise distinct, since they carry the call's
      position. */
  lemma GeneratedIdsDistinct(calls: seq<CallIn>, dumps: map<string, string> -> string, i: nat, j: nat)
    requires i < j < |calls|
    requires calls[i].id.None? || calls[i].id == Some("")
    requires calls[j].id.None? || calls[j].id == Some("")
    ensures ConvertCalls(calls, dumps)[i].id != ConvertCalls(calls, dumps)[j].id
  {
    var a, b := CALL_ID_PREFIX + NatToString(i), CALL_ID_PREFIX + NatToString(j);
    NatToStringInjective(i, j);
    assert a[|CALL_ID_PREFIX|..] == NatToString(i);
    assert b[|CALL_ID_PREFIX|..] == NatToString(j);
  }

  /** Every name sent is made of `[a-zA-Z0-9_-]` only, has the original
      length, keeps every allowed character in place, and passes the Groq
      name check unchanged. */
  lemma SentNamesAreSafe(m: Message, dumps: map<string, string> -> string, i: nat)
    requires m.role == "assistant" && i < |m.toolCalls|
    ensures var out := Convert(m, dumps).toolCalls.value[i];
      && ToolNames.AllAllowed(out.name)
      && |out.name| == |m.toolCalls[i].name|
      && (ToolNames.AllAllowed(m.toolCalls[i].name) ==> out.name == m.toolCalls[i].name)
      && ToolNames.GroqName(out.name) == out.name
  {
    var out := Convert(m, dumps).toolCalls.value[i];
    if ToolNames.AllAllowed(m.toolCalls[i].name) {
      ToolNames.SanitizeKeepsAllowed(m.toolCalls[i].name);
    }
  }

  /** A message that is neither a tool result nor an assistant message with
      calls is sent as role and content alone; the content is a list of
      parts only when there are images and non-empty text. */
  lemma PlainMessage(m: Message, dumps: map<string, string> -> string)
    requires m.role != "tool" && m.role != "assistant"
    requires |m.images| == 0
    ensures Convert(m, dumps) == Wire(m.role, Plain(m.content), None, None)
  {
  }
}

=== FILE: message_service.dfy ===
/** `MessageService` (src/services/message_service.py): messages of the
    agent service's own conversations. `json.dumps` is an oracle. */
module MessageService {
  import opened Wrappers
  import opened Sorting
  import opened Rows
  import opened ChatTables
  import SqlUpdate
  import ConversationService

  /** The text the database raises when the conversation does not exist. */
  const FOREIGN_KEY_VIOLATION: string := "insert or update on table \"messages\" violates foreign key constraint"

  type Json = map<string, string>

  /** `MessageCreate`. */
  datatype MessageCreate = MessageCreate(conversationId: int, role: string, content: string, metadata: Option<Json>)

  /** `MessageUpdate`: a field left `None` is not written. */
  datatype MessageUpdate = MessageUpdate(content: Option<string>, metadata: Option<Json>)

  /** `json.dumps(data.metadata) if data.metadata else None`: absent and
      empty metadata are both stored as NULL. */
  function CreatedMetadata(metadata: Option<Json>, dumps: Json -> string): (r: Option<string>)
    ensures r.None? <==> metadata.None? || metadata.value == map[]
    ensures r.Some? ==> r.value == dumps(metadata.value)
  {
    if metadata.Some? && metadata.value != map[] then Some(dumps(metadata.value)) else None
  }

  /** `UPDATE conversations SET last_message_at = NOW() WHERE id = %s`. */
  function Touch(cs: seq<ConversationRow>, id: int, now: int): (r: seq<ConversationRow>)
    ensures |r| == |cs|
    ensures forall i :: 0 <= i < |cs| && cs[i].id != id ==> r[i] == cs[i]
    ensures forall i :: 0 <= i < |cs| && cs[i].id == id ==> r[i] == cs[i].(lastMessageAt := Some(now))
  {
    seq(|cs|, i requires 0 <= i < |cs| => if cs[i].id == id then cs[i].(lastMessageAt := Some(now)) else cs[i])
  }

  /** `create_message`: the insert, then the conversation's
      `last_message_at`, in one transaction; an unknown conversation fails
      the insert and nothing is written. */
  function CreateMessage(db: ChatDb, data: MessageCreate, dumps: Json -> string, now: int): (r: Result<(ChatDb, MessageRow)>)
    ensures r.Err? <==> !HasId(db.conversations, ConversationId, data.conversationId)
    ensures r.Err? ==> r.message == FOREIGN_KEY_VIOLATION
    ensures r.Ok? ==>
      var (db', row) := r.value;
      && row == MessageRow(db.nextMessageId, data.conversationId, now, data.role, data.content,
                           CreatedMetadata(data.metadata, dumps))
      && db'.messages == db.messages + [row]
      && db'.nextMessageId > row.id && db'.nextConversationId == db.nextConversationId
      && |db'.conversations| == |db.conversations|
      && (forall i :: 0 <= i < |db.conversations| ==>
            db'.conversations[i].lastMessageAt ==
              (if db.conversations[i].id == data.conversationId then Some(now) else db.conversations[i].lastMessageAt))
      && (forall i :: 0 <= i < |db.conversations| ==>
            db'.conversations[i] == db.conversations[i].(lastMessageAt := db'.conversations[i].lastMessageAt))
  {
    if !HasId(db.conversations, ConversationId, data.conversationId) then Err(FOREIGN_KEY_VIOLATION)
    else
      var row := MessageRow(db.nextMessageId, data.conversationId, now, data.role, data.content,
                            CreatedMetadata(data.metadata, dumps));
      Ok((db.(messages := db.messages + [row], nextMessageId := db.nextMessageId + 1,
              conversations := Touch(db.conversations, data.conversationId, now)), row))
  }

  /** `get_message`, as the lookup of a `messages` row by id. */
  function GetMessage(db: ChatDb, id: int): (r: Option<MessageRow>)
    ensures r.Some? <==> HasId(db.messages, MessageId, id)
    ensures r.Some? ==> r.value in db.messages && r.value.id == id
  {
    FindById(db.messages, MessageId, id)
  }

  function Timestamp(m: MessageRow): int { m.timestamp }

  function TimestampDesc(m: MessageRow): int { -m.timestamp }

  function InConversation(conversationId: int): MessageRow -> bool {
    (m: MessageRow) => m.conversationId == conversationId
  }

  /** `get_messages_by_conversation(conversation_id, limit=50, offset=0)`:
      oldest first. */
  function GetMessagesByConversation(db: ChatDb, conversationId: int, limit: nat, offset: nat): (r: seq<MessageRow>)
    ensures |r| <= limit
    ensures forall i :: 0 <= i < |r| ==> r[i] in db.messages && r[i].conversationId == conversationId
    ensures forall i, j :: 0 <= i < j < |r| ==> r[i].timestamp <= r[j].timestamp
    ensures offset == 0 && |Filter(db.messages, InConversation(conversationId))| <= limit ==>
      multiset(r) == multiset(Filter(db.messages, InConversation(conversationId)))
    ensures IsSortedPage(r, db.messages, InConversation(conversationId), Timestamp, limit, offset)
  {
    var r := Select(db.messages, InConversation(conversationId), Timestamp, limit, offset);
    assert forall i, j :: 0 <= i < j < |r| ==> Timestamp(r[i]) <= Timestamp(r[j]);
    r
  }

  /** `get_messages_by_conversation_desc(conversation_id, limit=20)`:
      newest first. */
  function GetMessagesByConversationDesc(db: ChatDb, conversationId: int, limit: nat): (r: seq<MessageRow>)
    ensures |r| <= limit
    ensures forall i :: 0 <= i < |r| ==> r[i] in db.messages && r[i].conversationId == conversationId
    ensures forall i, j :: 0 <= i < j < |r| ==> r[i].timestamp >= r[j].timestamp
    ensures |Filter(db.messages, InConversation(conversationId))| <= limit ==>
      multiset(r) == multiset(Filter(db.messages, InConversation(conversationId)))
    ensures IsSortedPage(r, db.messages, InConversation(conversationId), TimestampDesc, limit, 0)
  {
    var r := Select(db.messages, InConversation(conversationId), TimestampDesc, limit, 0);
    assert forall i, j :: 0 <= i < j < |r| ==> TimestampDesc(r[i]) <= TimestampDesc(r[j]);
    r
  }

  /** The candidate `SET` fields, content first; metadata is dumped
      whenever it is given, even when empty. */
  function UpdateFields(data: MessageUpdate, dumps: Json -> string): seq<SqlUpdate.Field> {
    [SqlUpdate.Field("content", if data.content.Some? then Some(SqlUpdate.PStr(data.content.value)) else None),
     SqlUpdate.Field("metadata", if data.metadata.Some? then Some(SqlUpdate.PJson(dumps(data.metadata.value))) else None)]
  }

  /** One `col = value` of the statement on a `messages` row. */
  function WriteColumn(m: MessageRow, column: string, value: SqlUpdate.Param): MessageRow {
    if column == "content" && value.PStr? then m.(content := value.s)
    else if column == "metadata" && value.PJson? then m.(metadata := Some(value.text))
    else m
  }

  /** The row an update should leave. */
  function Patched(m: MessageRow, data: MessageUpdate, dumps: Json -> string): (r: MessageRow)
    ensures r.id == m.id && r.conversationId == m.conversationId && r.timestamp == m.timestamp && r.role == m.role
  {
    m.(content := data.content.GetOr(m.content),
       metadata := if data.metadata.Some? then Some(dumps(data.metadata.value)) else m.metadata)
  }

  /** `update_message`: the supplied fields are written to the row with
      that id, which is returned; with nothing supplied, the row as it is.
      The conversation is not touched. */
  function UpdateMessage(db: ChatDb, id: int, data: MessageUpdate, dumps: Json -> string): (r: (ChatDb, Option<MessageRow>))
    ensures r.0.conversations == db.conversations
    ensures r.0.nextConversationId == db.nextConversationId && r.0.nextMessageId == db.nextMessageId
    ensures |r.0.messages| == |db.messages|
    ensures forall i :: 0 <= i < |db.messages| ==>
      r.0.messages[i] == (if db.messages[i].id == id then Patched(db.messages[i], data, dumps) else db.messages[i])
    ensures r.1 == GetMessage(r.0, id)
  {
    match SqlUpdate.BuildUpdate("messages", UpdateFields(data, dumps), id)
    case None =>
      assert UpdateFields(data, dumps)[0].value.None? && UpdateFields(data, dumps)[1].value.None?;
      (db, GetMessage(db, id))
    case Some(q) =>
      var rows := SqlUpdate.Execute(db.messages, q, MessageId, WriteColumn);
      forall i | 0 <= i < |db.messages| && db.messages[i].id == id
        ensures rows[i] == Patched(db.messages[i], data, dumps)
      {
        AssignIsPatch(db.messages[i], data, dumps, q);
      }
      var db' := db.(messages := rows);
      (db', GetMessage(db', id))
  }

  /** The statement built from `data` does to a row what `Patched` says. */
  lemma AssignIsPatch(m: MessageRow, data: MessageUpdate, dumps: Json -> string, q: SqlUpdate.UpdateQuery)
    requires SqlUpdate.BuildUpdate("messages", UpdateFields(data, dumps), m.id) == Some(q)
    ensures SqlUpdate.Assign(m, q.columns, q.params, WriteColumn) == Patched(m, data, dumps)
  {
    var fs := UpdateFields(data, dumps);
    var s := SqlUpdate.Supplied(fs);
    assert fs[1..][1..] == [];
    assert SqlUpdate.Supplied(fs[1..]) == (if data.metadata.Some? then [fs[1]] else []);
    assert s == (if data.content.Some? then [fs[0]] else []) + SqlUpdate.Supplied(fs[1..]);
    var cs, ps := q.columns, q.params;
    var m1 := if data.content.Some? then WriteColumn(m, "content", SqlUpdate.PStr(data.content.value)) else m;
    var m2 := if data.metadata.Some? then WriteColumn(m1, "metadata", SqlUpdate.PJson(dumps(data.metadata.value))) else m1;
    assert m2 == Patched(m, data, dumps);
    if data.content.Some? && data.metadata.Some? {
      assert |cs| == 2 && cs[0] == "content" && cs[1] == "metadata";
      assert ps[0] == SqlUpdate.PStr(data.content.value) && ps[1] == SqlUpdate.PJson(dumps(data.metadata.value));
      assert SqlUpdate.Assign(m, cs, ps, WriteColumn) == SqlUpdate.Assign(m1, cs[1..], ps[1..], WriteColumn);
      assert SqlUpdate.Assign(m1, cs[1..], ps[1..], WriteColumn) == SqlUpdate.Assign(m2, cs[2..], ps[2..], WriteColumn);
    } else if data.content.Some? {
      assert |cs| == 1 && cs[0] == "content" && ps[0] == SqlUpdate.PStr(data.content.value);
      assert SqlUpdate.Assign(m, cs, ps, WriteColumn) == SqlUpdate.Assign(m1, cs[1..], ps[1..], WriteColumn);
    } else {
      assert |cs| == 1 && cs[0] == "metadata" && ps[0] == SqlUpdate.PJson(dumps(data.metadata.value));
      assert SqlUpdate.Assign(m, cs, ps, WriteColumn) == SqlUpdate.Assign(m2, cs[1..], ps[1..], WriteColumn);
    }
  }

  /** `delete_message`: whether a row went. */
  function DeleteMessage(db: ChatDb, id: int): (r: (ChatDb, bool))
    ensures r.1 <==> GetMessage(db, id).Some?
    ensures GetMessage(r.0, id).None?
    ensures r.0.conversations == db.conversations
    ensures forall i :: 0 <= i < |r.0.messages| ==> r.0.messages[i] in db.messages
    ensures forall i :: 0 <= i < |db.messages| && db.messages[i].id != id ==> db.messages[i] in r.0.messages
  {
    var (rows, gone) := DeleteById(db.messages, MessageId, id);
    (db.(messages := rows), gone)
  }

  // ---------------------------------------------------------------------
  // Properties
  // ---------------------------------------------------------------------

  /** A created message is found under its new id and listed with its
      conversation's messages. */
  lemma CreateThenGet(db: ChatDb, data: MessageCreate, dumps: Json -> string, now: int)
    requires Wf(db)
    requires CreateMessage(db, data, dumps, now).Ok?
    ensures var (db', row) := CreateMessage(db, data, dumps, now).value;
      && GetMessage(db', row.id) == Some(row)
      && row in Filter(db'.messages, InConversation(data.conversationId))
  {
    var (db', row) := CreateMessage(db, data, dumps, now).value;
    FindLast(db.messages, row);
    assert db'.messages[|db.messages|] == row;
  }

  lemma {:induction false} FindLast(rows: seq<MessageRow>, row: MessageRow)
    requires forall i :: 0 <= i < |rows| ==> rows[i].id < row.id
    ensures FindById(rows + [row], MessageId, row.id) == Some(row)
    decreases |rows|
  {
    if |rows| > 0 {
      assert (rows + [row])[1..] == rows[1..] + [row];
      FindLast(rows[1..], row);
    } else {
      assert rows + [row] == [row];
    }
  }

  /** Creating a message keeps the schema's guarantees; the new message's
      conversation exists. */
  lemma CreatePreservesWf(db: ChatDb, data: MessageCreate, dumps: Json -> string, now: int)
    requires Wf(db)
    requires CreateMessage(db, data, dumps, now).Ok?
    ensures Wf(CreateMessage(db, data, dumps, now).value.0)
  {
    var (db', row) := CreateMessage(db, data, dumps, now).value;
    assert forall i :: 0 <= i < |db.conversations| ==> db'.conversations[i].id == db.conversations[i].id;
    forall i | 0 <= i < |db'.messages| ensures HasId(db'.conversations, ConversationId, db'.messages[i].conversationId) {
      var c := db'.messages[i].conversationId;
      if i < |db.messages| {
        assert db'.messages[i] == db.messages[i];
      }
      var j :| 0 <= j < |db.conversations| && db.conversations[j].id == c;
      assert db'.conversations[j].id == c;
    }
  }

  /** Empty metadata is stored as NULL by `create_message` but as the JSON
      text of an empty object by `update_message`. */
  lemma EmptyMetadataStoredDifferently(db: ChatDb, data: MessageCreate, dumps: Json -> string, now: int, id: int)
    requires data.metadata == Some(map[])
    requires CreateMessage(db, data, dumps, now).Ok?
    requires GetMessage(db, id).Some?
    ensures CreateMessage(db, data, dumps, now).value.1.metadata.None?
    ensures UpdateMessage(db, id, MessageUpdate(None, Some(map[])), dumps).1.value.metadata == Some(dumps(map[]))
  {
    UpdateWritesMetadata(db, id, MessageUpdate(None, Some(map[])), dumps);
  }

  /** Updating an existing message with metadata returns it with the
      dumped metadata, empty or not. */
  lemma UpdateWritesMetadata(db: ChatDb, id: int, upd: MessageUpdate, dumps: Json -> string)
    requires GetMessage(db, id).Some? && upd.metadata.Some?
    ensures var r := UpdateMessage(db, id, upd, dumps).1;
      r.Some? && r.value.metadata == Some(dumps(upd.metadata.value))
  {
    var (db', r) := UpdateMessage(db, id, upd, dumps);
    var j :| 0 <= j < |db.messages| && db.messages[j].id == id;
    assert db'.messages[j].id == id;
    var k :| 0 <= k < |db'.messages| && db'.messages[k] == r.value;
    assert db'.messages[k] == Patched(db.messages[k], upd, dumps);
  }

  /** Once a conversation is deleted, listing its messages gives nothing. */
  lemma DeletedConversationHasNoMessages(db: ChatDb, id: int, limit: nat, offset: nat)
    ensures GetMessagesByConversation(ConversationService.DeleteConversation(db, id).0, id, limit, offset) == []
  {
  }
}

=== FILE: performance_api.dfy ===
/** The performance report endpoints (src/api/performance.py): the SSE
    reader `event_generator` of `get_performance_report`, which tails the
    report's chunk list from index 0 and, unlike the chat reader, drains the
    list once more after seeing a terminal status; and the non-streaming
    `get_performance_report_result`.

    One loop iteration reads four snapshots, kept in a `PerfPoll`: the
    disconnect check, `wait_for_stream_item`, `get_message_state` and, only
    when that state is terminal, the final `wait_for_stream_item`. */
module PerformanceApi {
  import opened Wrappers
  import opened Text
  import opened Store

  const REPORT_NOT_FOUND: string := "Report not found"

  datatype PerfEvent =
    | Message(chunk: string)                            // event "message", {"chunk": chunk}
    | End(status: string, error: Option<string>)        // event "end", {"status", "error"}

  datatype PerfPoll = PerfPoll(
    disconnected: bool,
    view: seq<string>,
    state: map<string, string>,
    drain: seq<string>)

  function Messages(chunks: seq<string>): (r: seq<PerfEvent>)
    ensures |r| == |chunks|
    ensures forall i :: 0 <= i < |r| ==> r[i] == Message(chunks[i])
  {
    seq(|chunks|, i requires 0 <= i < |chunks| => Message(chunks[i]))
  }

  /** The `end` event of a poll whose state read was terminal: the stored
      status, and the stored error or null. */
  function EndOf(state: map<string, string>): PerfEvent
    requires STATUS in state
  {
    End(state[STATUS], Get(state, "error"))
  }

  predicate Finishes(p: PerfPoll) {
    IsTerminal(Get(p.state, STATUS))
  }

  /** The loop with the cursor at `cursor`. */
  function PerfTail(polls: seq<PerfPoll>, cursor: nat): (r: seq<PerfEvent>)
    ensures forall i :: 0 <= i < |r| && r[i].End? ==> i == |r| - 1
    decreases |polls|
  {
    if |polls| == 0 || polls[0].disconnected then []
    else
      var p := polls[0];
      var incoming := WaitForStreamItem(p.view, cursor);
      var next := cursor + |incoming|;
      var rest := if Finishes(p) then Messages(WaitForStreamItem(p.drain, next)) + [EndOf(p.state)]
                  else PerfTail(polls[1..], next);
      if Finishes(p) then
        EndLastAppend(Messages(WaitForStreamItem(p.drain, next)), [EndOf(p.state)]);
        EndLastAppend(Messages(incoming), rest);
        Messages(incoming) + rest
      else
        EndLastAppend(Messages(incoming), rest);
        Messages(incoming) + rest
  }

  /** Message events followed by events whose only `end` is the last one
      have their only `end` last. */
  lemma {:induction false} EndLastAppend(head: seq<PerfEvent>, rest: seq<PerfEvent>)
    requires forall i :: 0 <= i < |head| ==> head[i].Message?
    requires forall i :: 0 <= i < |rest| && rest[i].End? ==> i == |rest| - 1
    ensures forall i :: 0 <= i < |head + rest| && (head + rest)[i].End? ==> i == |head + rest| - 1
  {
    forall i | |head| <= i < |head + rest| && (head + rest)[i].End?
      ensures i == |head + rest| - 1
    {
      assert (head + rest)[i] == rest[i - |head|];
    }
  }

  /** `event_generator`: the loop from index 0. */
  function ReportStream(polls: seq<PerfPoll>): seq<PerfEvent> {
    PerfTail(polls, 0)
  }

  /** Every snapshot is a prefix of the report's final chunk list `final`;
      the cursor never exceeds the next snapshot, a drain is read after the
      snapshot of its own iteration, and snapshots do not shrink. */
  ghost predicate PerfObserved(emitted: seq<string>, polls: seq<PerfPoll>, final: seq<string>) {
    && Prefix(emitted, final)
    && (|polls| > 0 ==> |emitted| <= |polls[0].view|)
    && (forall i :: 0 <= i < |polls| ==> Within(polls[i], final))
    && (forall i :: 0 <= i < |polls| - 1 ==> |polls[i].view| <= |polls[i + 1].view|)
  }

  /** A poll's snapshots are prefixes of `final`, the drain no shorter than
      the view it follows. */
  predicate Within(p: PerfPoll, final: seq<string>) {
    Prefix(p.view, final) && Prefix(p.drain, final) && |p.view| <= |p.drain|
  }

  /** Every message event carries the chunk at its own index, counted from
      `start`. */
  ghost predicate MessagesMatch(r: seq<PerfEvent>, final: seq<string>, start: nat) {
    forall i :: 0 <= i < |r| ==> MessageAt(r[i], final, start + i)
  }

  /** A data event at stream index `k` carries chunk `k`. */
  predicate MessageAt(e: PerfEvent, final: seq<string>, k: nat) {
    e.Message? ==> k < |final| && e.chunk == final[k]
  }

  lemma {:induction false} PerfTailUnfold(polls: seq<PerfPoll>, cursor: nat)
    requires |polls| > 0 && !polls[0].disconnected
    ensures var p := polls[0];
      var incoming := WaitForStreamItem(p.view, cursor);
      var next := cursor + |incoming|;
      && (!Finishes(p) ==> PerfTail(polls, cursor) == Messages(incoming) + PerfTail(polls[1..], next))
      && (Finishes(p) ==>
            PerfTail(polls, cursor)
              == Messages(incoming) + (Messages(WaitForStreamItem(p.drain, next)) + [EndOf(p.state)]))
  {
  }

  /** A snapshot read from a cursor inside it returns the stream's own
      chunks from that cursor up to the snapshot's end. */
  lemma {:induction false} ReadFromCursor(emitted: seq<string>, view: seq<string>, final: seq<string>)
    requires Prefix(emitted, final) && Prefix(view, final) && |emitted| <= |view|
    ensures var incoming := WaitForStreamItem(view, |emitted|);
      && |emitted| + |incoming| == |view|
      && (forall i :: 0 <= i < |incoming| ==> incoming[i] == final[|emitted| + i])
  {
    assert view == final[..|view|];
  }

  lemma {:induction false} PerfMatchesAppend(incoming: seq<string>, rest: seq<PerfEvent>, final: seq<string>, start: nat)
    requires start + |incoming| <= |final|
    requires forall i :: 0 <= i < |incoming| ==> incoming[i] == final[start + i]
    requires MessagesMatch(rest, final, start + |incoming|)
    ensures MessagesMatch(Messages(incoming) + rest, final, start)
  {
    var head := Messages(incoming);
    var r := head + rest;
    forall i | 0 <= i < |r| ensures MessageAt(r[i], final, start + i) {
      if i < |head| {
        assert r[i] == head[i];
      } else {
        assert r[i] == rest[i - |head|];
      }
    }
  }

  /** What the observation says about the poll at the cursor. */
  predicate PollFits(emitted: seq<string>, p: PerfPoll, final: seq<string>) {
    Prefix(emitted, final) && |emitted| <= |p.view| && Within(p, final)
  }

  lemma {:induction false} FirstPollFits(emitted: seq<string>, polls: seq<PerfPoll>, final: seq<string>)
    requires |polls| > 0 && PerfObserved(emitted, polls, final)
    ensures PollFits(emitted, polls[0], final)
  {
  }

  lemma {:induction false} PerfObservedRest(emitted: seq<string>, polls: seq<PerfPoll>, final: seq<string>)
    requires |polls| > 0 && PerfObserved(emitted, polls, final)
    ensures PerfObserved(polls[0].view, polls[1..], final)
    ensures forall i :: 0 <= i < |polls[1..]| ==> polls[1..][i] == polls[i + 1]
  {
    assert forall i :: 0 <= i < |polls[1..]| ==> polls[1..][i] == polls[i + 1];
  }

  lemma {:induction false} PerfTailMatches(emitted: seq<string>, polls: seq<PerfPoll>, final: seq<string>)
    requires PerfObserved(emitted, polls, final)
    ensures MessagesMatch(PerfTail(polls, |emitted|), final, |emitted|)
    decreases |polls|
  {
    if |polls| > 0 && !polls[0].disconnected {
      var p := polls[0];
      FirstPollFits(emitted, polls, final);
      if Finishes(p) {
        FinishingPollMatches(emitted, polls, final);
      } else {
        PerfObservedRest(emitted, polls, final);
        PerfTailMatches(p.view, polls[1..], final);
        ContinuingPollMatches(emitted, polls, final);
      }
    }
  }

  /** A non-terminal poll puts the chunks it read in front of the rest. */
  lemma {:induction false} ContinuingPollMatches(emitted: seq<string>, polls: seq<PerfPoll>, final: seq<string>)
    requires |polls| > 0 && PollFits(emitted, polls[0], final)
    requires !polls[0].disconnected && !Finishes(polls[0])
    requires MessagesMatch(PerfTail(polls[1..], |polls[0].view|), final, |polls[0].view|)
    ensures MessagesMatch(PerfTail(polls, |emitted|), final, |emitted|)
  {
    var p := polls[0];
    var incoming := WaitForStreamItem(p.view, |emitted|);
    ReadFromCursor(emitted, p.view, final);
    var rest := PerfTail(polls[1..], |p.view|);
    PerfTailUnfold(polls, |emitted|);
    assert PerfTail(polls, |emitted|) == Messages(incoming) + rest;
    PerfMatchesAppend(incoming, rest, final, |emitted|);
  }

  /** The poll that ends the loop: its data, the drained data, then `end`. */
  lemma {:induction false} FinishingPollMatches(emitted: seq<string>, polls: seq<PerfPoll>, final: seq<string>)
    requires |polls| > 0 && PollFits(emitted, polls[0], final)
    requires |polls| > 0 && !polls[0].disconnected && Finishes(polls[0])
    ensures MessagesMatch(PerfTail(polls, |emitted|), final, |emitted|)
  {
    var p := polls[0];
    var incoming := WaitForStreamItem(p.view, |emitted|);
    ReadFromCursor(emitted, p.view, final);
    var drained := WaitForStreamItem(p.drain, |p.view|);
    ReadFromCursor(p.view, p.drain, final);
    var end := [EndOf(p.state)];
    assert MessagesMatch(end, final, |p.view| + |drained|) by {
      assert MessageAt(end[0], final, |p.view| + |drained| + 0);
    }
    PerfMatchesAppend(drained, end, final, |p.view|);
    var tail := Messages(drained) + end;
    assert |emitted| + |incoming| == |p.view|;
    PerfMatchesAppend(incoming, tail, final, |emitted|);
    PerfTailUnfold(polls, |emitted|);
    assert PerfTail(polls, |emitted|) == Messages(incoming) + tail;
  }

  /** No index is emitted twice, skipped or reordered: the message events
      come first, each carrying the chunk at its own index of the report,
      and at most one `end` event closes the stream. */
  lemma {:induction false} ReportStreamIsPrefix(polls: seq<PerfPoll>, final: seq<string>)
    requires PerfObserved([], polls, final)
    ensures var r := ReportStream(polls);
      && (forall i :: 0 <= i < |r| && r[i].End? ==> i == |r| - 1)
      && MessagesMatch(r, final, 0)
  {
    PerfTailMatches([], polls, final);
  }

  /** The final drain makes this reader complete: if the chunk list is
      already whole whenever a terminal status can be read (the writers put
      their terminal status after their last chunk), then a stream that
      ends with `end` has delivered every chunk exactly once, in order. */
  lemma {:induction false} PerfTailComplete(emitted: seq<string>, polls: seq<PerfPoll>, final: seq<string>)
    requires PerfObserved(emitted, polls, final)
    requires forall i :: 0 <= i < |polls| && Finishes(polls[i]) ==> polls[i].drain == final
    ensures Ended(PerfTail(polls, |emitted|)) ==> |PerfTail(polls, |emitted|)| == |final| - |emitted| + 1
    decreases |polls|
  {
    if |polls| > 0 && !polls[0].disconnected {
      FirstPollFits(emitted, polls, final);
      if Finishes(polls[0]) {
        FinishingPollDrains(emitted, polls, final);
      } else {
        PerfObservedRest(emitted, polls, final);
        PerfTailComplete(polls[0].view, polls[1..], final);
        ContinuingPollLength(emitted, polls, final);
      }
    }
  }

  predicate Ended(r: seq<PerfEvent>) {
    |r| > 0 && r[|r| - 1].End?
  }

  /** A terminal poll whose drain sees the whole list emits everything
      beyond the cursor, then `end`. */
  lemma {:induction false} FinishingPollDrains(emitted: seq<string>, polls: seq<PerfPoll>, final: seq<string>)
    requires |polls| > 0 && PollFits(emitted, polls[0], final)
    requires |polls| > 0 && !polls[0].disconnected && Finishes(polls[0]) && polls[0].drain == final
    ensures |PerfTail(polls, |emitted|)| == |final| - |emitted| + 1
  {
    var p := polls[0];
    ReadFromCursor(emitted, p.view, final);
    PerfTailUnfold(polls, |emitted|);
  }

  /** A non-terminal poll adds the chunks it read in front of the rest. */
  lemma {:induction false} ContinuingPollLength(emitted: seq<string>, polls: seq<PerfPoll>, final: seq<string>)
    requires |polls| > 0 && PollFits(emitted, polls[0], final)
    requires |polls| > 0 && !polls[0].disconnected && !Finishes(polls[0])
    requires Ended(PerfTail(polls[1..], |polls[0].view|)) ==>
      |PerfTail(polls[1..], |polls[0].view|)| == |final| - |polls[0].view| + 1
    ensures Ended(PerfTail(polls, |emitted|)) ==> |PerfTail(polls, |emitted|)| == |final| - |emitted| + 1
  {
    var p := polls[0];
    var incoming := WaitForStreamItem(p.view, |emitted|);
    ReadFromCursor(emitted, p.view, final);
    var rest := PerfTail(polls[1..], |p.view|);
    var r := Messages(incoming) + rest;
    PerfTailUnfold(polls, |emitted|);
    assert PerfTail(polls, |emitted|) == r && |r| == |incoming| + |rest|;
    if |rest| > 0 {
      assert r[|r| - 1] == rest[|rest| - 1];
    } else if |r| > 0 {
      assert r[|r| - 1] == Message(incoming[|incoming| - 1]);
    }
  }

  lemma {:induction false} ReportStreamComplete(polls: seq<PerfPoll>, final: seq<string>)
    requires PerfObserved([], polls, final)
    requires forall i :: 0 <= i < |polls| && Finishes(polls[i]) ==> polls[i].drain == final
    ensures var r := ReportStream(polls);
      |r| > 0 && r[|r| - 1].End? ==>
        && |r| == |final| + 1
        && (forall i :: 0 <= i < |final| ==> r[i] == Message(final[i]))
  {
    PerfTailComplete([], polls, final);
    ReportStreamIsPrefix(polls, final);
    var r := ReportStream(polls);
    if Ended(r) {
      forall i | 0 <= i < |final| ensures r[i] == Message(final[i]) {
        assert MessageAt(r[i], final, 0 + i) && !r[i].End?;
      }
    }
  }

  /** A disconnect seen at the start of an iteration ends the stream before
      any further read: whatever the later snapshots hold is irrelevant. */
  lemma {:induction false} DisconnectStopsReading(polls: seq<PerfPoll>, cursor: nat)
    requires |polls| > 0 && polls[0].disconnected
    ensures PerfTail(polls, cursor) == []
  {
  }

  // ---------------------------------------------------------------------
  // GET /performance/result/{report_id}
  // ---------------------------------------------------------------------

  datatype ReportResult =
    | NotFound(message: string, code: nat)
    | Report(status: Option<string>, report: string, error: Option<string>)

  /** `get_performance_report_result` against one store snapshot: 404 when
      the state hash is empty, otherwise the status, the concatenated
      chunks and the error from the hash. */
  function GetReportResult(s: Store, id: Id): (r: ReportResult)
    ensures r.NotFound? <==> StateOf(s, id) == map[]
    ensures r.NotFound? ==> r.code == 404 && r.message == REPORT_NOT_FOUND
    ensures r.Report? ==> r.status == StatusOf(s, id) && r.error == Get(StateOf(s, id), "error")
    ensures r.Report? ==> r.report == Concat(StreamOf(s, id))
  {
    var state := StateOf(s, id);
    if state == map[] then NotFound(REPORT_NOT_FOUND, 404)
    else Report(Get(state, STATUS), Concat(StreamOf(s, id)), Get(state, "error"))
  }

  /** The result endpoint and the stream agree: the report text is the
      concatenation of the chunks a complete stream delivered. */
  lemma {:induction false} ResultIsStreamedText(s: Store, id: Id, polls: seq<PerfPoll>)
    requires StateOf(s, id) != map[]
    requires PerfObserved([], polls, StreamOf(s, id))
    requires forall i :: 0 <= i < |polls| && Finishes(polls[i]) ==> polls[i].drain == StreamOf(s, id)
    requires var r := ReportStream(polls); |r| > 0 && r[|r| - 1].End?
    ensures var r := ReportStream(polls);
      GetReportResult(s, id).report == Concat(ChunksOf(r[..|r| - 1]))
  {
    var r := ReportStream(polls);
    ReportStreamComplete(polls, StreamOf(s, id));
    ChunksOfMessages(r[..|r| - 1], StreamOf(s, id));
  }

  /** The chunks carried by message events, in order. */
  function ChunksOf(events: seq<PerfEvent>): (r: seq<string>)
    ensures |r| <= |events|
  {
    if |events| == 0 then []
    else (if events[0].Message? then [events[0].chunk] else []) + ChunksOf(events[1..])
  }

  lemma {:induction false} ChunksOfMessages(events: seq<PerfEvent>, chunks: seq<string>)
    requires |events| == |chunks|
    requires forall i :: 0 <= i < |chunks| ==> events[i] == Message(chunks[i])
    ensures ChunksOf(events) == chunks
    decreases |events|
  {
    if |events| > 0 {
      ChunksOfMessages(events[1..], chunks[1..]);
    }
  }

  /** Once the state key has expired the result endpoint answers 404, even
      if the chunk list is still there. */
  lemma {:induction false} ExpiredReportNotFound(s: Store, id: Id)
    ensures GetReportResult(ExpireKey(s, StateKey(id)), id).NotFound?
  {
  }
}

=== FILE: performance_report.dfy ===
/** `PerformanceService.generate_performance_report`
    (src/services/performance_service.py) and the POST handler that
    schedules it (`create_performance_report`, src/api/performance.py).

    The report is a sequence of markdown chunks appended to the report's
    stream, bracketed by a "processing" and a terminal status write. The
    GRN lookup (`get_grn_data`) is an oracle outcome: an exception, no GRN,
    or the header dates and item quantities. Dates are day numbers and
    either may be NULL; comparing a NULL date raises `TypeError` part-way
    through the report. The `:,.2f`, `.1f` and `strftime` renderings and
    that exception's text are oracle values in `Fmt`; quantities are exact
    reals. */
module PerformanceReport {
  import opened Wrappers
  import opened Text
  import opened Store

  const GRN_NOT_FOUND: string := "GRN not found"
  const ON_TIME: string := "On-time delivery"
  const CHECK_ICON: char := '\U{2705}'
  const WARNING_ICON: char := '\U{26A0}'
  const HOURGLASS_ICON: char := '\U{23F3}'
  const ALL_RECEIVED: string := "- " + [CHECK_ICON] + " **Quantity:** All ordered units were received."
  const ALERT_POINT: string := "- " + [WARNING_ICON] + "\U{FE0F} **Alert:** No PO quantity found for this order."
  const LATE_POINT: string :=
    "- " + [HOURGLASS_ICON] + " **Late Arrival:** The shipment arrived after the expected delivery date."
  const SHORTAGE_ICON: char := '\U{1F4C9}'
  const EXCESS_ICON: char := '\U{1F4C8}'
  const DAMAGE_ICON: char := '\U{1F6A8}'

  /** A `grn_items` row; each quantity column may be NULL. */
  datatype Item = Item(po: Option<real>, received: Option<real>, damaged: Option<real>)

  /** `get_grn_data`'s non-None result: the header dates, each possibly
      NULL, and the items. */
  datatype GrnRow = GrnRow(expected: Option<int>, actual: Option<int>, items: seq<Item>)

  /** A GRN whose dates are both present, the case the report completes. */
  datatype Grn = Grn(expected: int, actual: int, items: seq<Item>)

  function RowOf(g: Grn): GrnRow {
    GrnRow(Some(g.expected), Some(g.actual), g.items)
  }

  /** Renderers for what the source formats with format specs, and the
      text of the `TypeError` that comparing a NULL date raises. */
  datatype Fmt = Fmt(amount: real -> string, percent: real -> string, date: int -> string,
                     nullDateError: string)

  // ---------------------------------------------------------------------
  // Decision rules
  // ---------------------------------------------------------------------

  /** `float(x or 0)`: NULL (and 0) count as 0. */
  function Qty(v: Option<real>): (r: real)
    ensures v.None? ==> r == 0.0
    ensures v.Some? ==> r == v.value
  {
    v.GetOr(0.0)
  }

  /** The delivery status text: on time exactly when the receipt is not
      after the expected date, otherwise the whole number of days late. */
  function Timeline(expected: int, actual: int): (r: string)
    ensures r == ON_TIME <==> actual <= expected
    ensures actual > expected ==>
      exists n: nat :: n > 0 && n == actual - expected && r == "Delayed by " + NatToString(n) + " days"
  {
    if actual <= expected then ON_TIME else "Delayed by " + NatToString(actual - expected) + " days"
  }

  function TimelineIcon(expected: int, actual: int): string {
    if actual <= expected then "\U{2705}" else "\U{26A0}\U{FE0F}"
  }

  /** Per-item fulfillment in percent; 0 when the PO quantity is not
      positive. */
  function Fulfillment(po: real, rec: real): (r: real)
    ensures po > 0.0 ==> r * po == rec * 100.0
    ensures po <= 0.0 ==> r == 0.0
  {
    if po > 0.0 then rec / po * 100.0 else 0.0
  }

  /** "OK" exactly when nothing was damaged. */
  function Quality(dmg: real): (r: string)
    ensures r == "OK" <==> dmg == 0.0
  {
    if dmg == 0.0 then "OK" else "\U{1F6A8} DAMAGED"
  }

  function TotalPo(items: seq<Item>): real {
    if |items| == 0 then 0.0 else TotalPo(items[..|items| - 1]) + Qty(items[|items| - 1].po)
  }

  function TotalReceived(items: seq<Item>): real {
    if |items| == 0 then 0.0 else TotalReceived(items[..|items| - 1]) + Qty(items[|items| - 1].received)
  }

  function TotalDamaged(items: seq<Item>): real {
    if |items| == 0 then 0.0 else TotalDamaged(items[..|items| - 1]) + Qty(items[|items| - 1].damaged)
  }

  datatype QuantityVerdict = Shortage | Excess | AllReceived

  /** Which of the three quantity points the summary carries. */
  function QuantityOf(totalPo: real, totalReceived: real): (v: QuantityVerdict)
    ensures v == Shortage <==> totalReceived < totalPo
    ensures v == Excess <==> totalReceived > totalPo
    ensures v == AllReceived <==> totalReceived == totalPo
  {
    if totalReceived < totalPo then Shortage
    else if totalReceived > totalPo then Excess
    else AllReceived
  }

  datatype Assessment = Excellent | Good | NeedsReview

  /** The final assessment: EXCELLENT for an on-time, undamaged, exactly
      received order; GOOD for on-time, undamaged, something received but
      not exactly the PO; NEEDS REVIEW otherwise. */
  function Assess(onTime: bool, totalDamaged: real, totalReceived: real, totalPo: real): (a: Assessment)
    ensures a == Excellent <==> onTime && totalDamaged == 0.0 && totalReceived == totalPo
    ensures a == Good <==>
      onTime && totalDamaged == 0.0 && totalReceived > 0.0 && totalReceived != totalPo
    ensures a == NeedsReview <==>
      !onTime || totalDamaged != 0.0 || (totalReceived <= 0.0 && totalReceived != totalPo)
  {
    if onTime && totalDamaged == 0.0 && totalReceived == totalPo then Excellent
    else if onTime && totalDamaged == 0.0 && totalReceived > 0.0 then Good
    else NeedsReview
  }

  // ---------------------------------------------------------------------
  // Report text
  // ---------------------------------------------------------------------

  /** The fixed pieces of the report's markdown, in the order they appear. */
  const REPORT_TITLE: string := "# \U{1F4CA} Performance Analytics Report\n"
  const GRN_LABEL: string := "**GRN Number:** `"
  const GRN_LABEL_END: string := "`  \n"
  const GENERATED_LABEL: string := "**Generated on:** "
  const RULE: string := "---\n\n"
  const NOT_FOUND_START: string := "\U{274C} **Error:** GRN `"
  const NOT_FOUND_END: string := "` was not found in the system.\n"
  const ERROR_LABEL: string := "\n\n**Error during generation**: "
  const TIMELINE_TITLE: string := "### \U{1F552} Delivery Timeline Analysis\n"
  const TIMELINE_HEAD: string := "| Metric | Details |\n| :--- | :--- |\n"
  const EXPECTED_LABEL: string := "| **Expected Date** | "
  const ACTUAL_LABEL: string := "| **Actual Receipt** | "
  const STATUS_LABEL: string := "| **Delivery Status** | "
  const ITEMS_TITLE: string := "### \U{1F4E6} Item-level Breakdown\n"
  const ITEMS_HEAD: string := "| # | PO Qty | Rec. Qty | Dmg. Qty | Fulfillment | Quality |\n"
  const ITEMS_RULE: string := "| :--- | :--- | :--- | :--- | :--- | :--- |\n"
  const SHORTAGE_LABEL: string := " **Shortage:** Order is short by "
  const SHORTAGE_UNITS: string := " units ("
  const SHORTAGE_END: string := "% fulfillment)."
  const EXCESS_LABEL: string := " **Excess:** Received "
  const EXCESS_END: string := " additional units beyond PO."
  const DAMAGE_LABEL: string := " **Quality Issue:** "
  const DAMAGE_END: string := " items were reported as damaged."
  const SUMMARY_TITLE: string := "\n### \U{1F4C8} Executive Summary\n"
  const ASSESSMENT_TITLE: string := "### \U{1F3AF} Final Assessment\n"
  const EXCELLENT_TEXT: string := "> \U{1F31F} **EXCELLENT:** This order meets all performance and quality standards.\n"
  const GOOD_TEXT: string := "> \U{1F44D} **GOOD:** The order was on time and undamaged, though quantities vary from PO.\n"
  const REVIEW_TEXT: string :=
    "> \U{1F50D} **NEEDS REVIEW:** Issues with timing, quantity, or quality were detected. Follow-up recommended.\n"

  function HeaderChunks(grnNumber: string, now: string): seq<string> {
    [ REPORT_TITLE,
      GRN_LABEL + grnNumber + GRN_LABEL_END,
      GENERATED_LABEL + now + "\n\n",
      RULE ]
  }

  function NotFoundChunk(grnNumber: string): string {
    NOT_FOUND_START + grnNumber + NOT_FOUND_END
  }

  function ErrorChunk(e: string): string {
    ERROR_LABEL + e
  }

  function TimelineChunks(g: Grn, fmt: Fmt): seq<string> {
    [ TIMELINE_TITLE,
      TIMELINE_HEAD,
      EXPECTED_LABEL + fmt.date(g.expected) + " |\n",
      ACTUAL_LABEL + fmt.date(g.actual) + " |\n",
      STATUS_LABEL + TimelineIcon(g.expected, g.actual) + " " + Timeline(g.expected, g.actual) + " |\n\n" ]
  }

  function ItemRow(idx: nat, it: Item, fmt: Fmt): string {
    var po := Qty(it.po);
    var rec := Qty(it.received);
    var dmg := Qty(it.damaged);
    "| " + NatToString(idx) + " | " + fmt.amount(po) + " | " + fmt.amount(rec) + " | "
      + fmt.amount(dmg) + " | " + fmt.percent(Fulfillment(po, rec)) + "% | " + Quality(dmg) + " |\n"
  }

  /** One row per item, numbered from 1 in item order. */
  function ItemRows(items: seq<Item>, fmt: Fmt): (r: seq<string>)
    ensures |r| == |items|
    ensures forall i :: 0 <= i < |items| ==> r[i] == ItemRow(i + 1, items[i], fmt)
  {
    if |items| == 0 then []
    else ItemRows(items[..|items| - 1], fmt) + [ItemRow(|items|, items[|items| - 1], fmt)]
  }

  function QuantityPoint(v: QuantityVerdict, totalPo: real, totalReceived: real, fmt: Fmt): string {
    match v
    case Shortage =>
      "- " + [SHORTAGE_ICON] + SHORTAGE_LABEL + fmt.amount(totalPo - totalReceived) + SHORTAGE_UNITS
        + fmt.percent(Fulfillment(totalPo, totalReceived)) + SHORTAGE_END
    case Excess =>
      "- " + [EXCESS_ICON] + EXCESS_LABEL + fmt.amount(totalReceived - totalPo) + EXCESS_END
    case AllReceived => ALL_RECEIVED
  }

  function DamagePoint(dmg: real, fmt: Fmt): string {
    "- " + [DAMAGE_ICON] + DAMAGE_LABEL + fmt.amount(dmg) + DAMAGE_END
  }

  /** The executive summary points, in the source's order. */
  function SummaryPoints(g: Grn, fmt: Fmt): seq<string> {
    var po := TotalPo(g.items);
    var rec := TotalReceived(g.items);
    var dmg := TotalDamaged(g.items);
    (if po == 0.0 then [ALERT_POINT] else [])
    + (if dmg > 0.0 then [DamagePoint(dmg, fmt)] else [])
    + [QuantityPoint(QuantityOf(po, rec), po, rec, fmt)]
    + (if g.actual > g.expected then [LATE_POINT] else [])
  }

  function AssessmentChunk(a: Assessment): string {
    match a
    case Excellent => EXCELLENT_TEXT
    case Good => GOOD_TEXT
    case NeedsReview => REVIEW_TEXT
  }

  function ReportAssessment(g: Grn): Assessment {
    Assess(g.actual <= g.expected, TotalDamaged(g.items), TotalReceived(g.items), TotalPo(g.items))
  }

  /** Everything appended after the header for a GRN that exists. */
  function BodyChunks(g: Grn, fmt: Fmt): seq<string> {
    TimelineChunks(g, fmt)
    + [ITEMS_TITLE, ITEMS_HEAD, ITEMS_RULE]
    + ItemRows(g.items, fmt)
    + [ SUMMARY_TITLE,
        Join(SummaryPoints(g, fmt), "\n") + "\n\n",
        ASSESSMENT_TITLE,
        AssessmentChunk(ReportAssessment(g)) ]
  }

  /** The whole report of a found GRN, header first. */
  function ReportChunks(grnNumber: string, now: string, g: Grn, fmt: Fmt): seq<string> {
    HeaderChunks(grnNumber, now) + BodyChunks(g, fmt)
  }

  /** What a run decides: the chunks appended while processing, the error
      the terminal status carries (none for "done"), and any chunk appended
      after the terminal status. */
  datatype Outcome = Outcome(chunks: seq<string>, error: Option<string>, trailer: seq<string>)

  /** The outcome for each result of the GRN lookup. A NULL date makes
      the first date comparison raise right after the timeline title, so
      that run fails like a failed lookup, one chunk later. */
  function ReportOutcome(grnNumber: string, now: string, fetch: Result<Option<GrnRow>>, fmt: Fmt): Outcome {
    match fetch
    case Err(e) => Outcome(HeaderChunks(grnNumber, now), Some(e), [ErrorChunk(e)])
    case Ok(None) => Outcome(HeaderChunks(grnNumber, now) + [NotFoundChunk(grnNumber)], Some(GRN_NOT_FOUND), [])
    case Ok(Some(row)) =>
      if row.expected.Some? && row.actual.Some? then
        Outcome(ReportChunks(grnNumber, now, Grn(row.expected.value, row.actual.value, row.items), fmt), None, [])
      else
        Outcome(HeaderChunks(grnNumber, now) + [TIMELINE_TITLE], Some(fmt.nullDateError), [ErrorChunk(fmt.nullDateError)])
  }

  /** The writes of an outcome: its lifecycle, ending in "done" or in
      "error" with the message, then its trailing chunks. */
  function OutcomeWrites(id: Id, o: Outcome): (ws: seq<Write>)
    ensures |ws| == |o.chunks| + 2 + |o.trailer|
    ensures ws[0] == HashSet(id, map[STATUS := PROCESSING])
    ensures forall i :: 0 <= i < |ws| ==> ws[i].id == id
  {
    match o.error
    case None => Lifecycle(id, o.chunks, DONE, map[]) + AppendAll(id, o.trailer)
    case Some(e) => Lifecycle(id, o.chunks, ERROR, map["error" := e]) + AppendAll(id, o.trailer)
  }

  /** The writes of an outcome in order: "processing", one append per
      chunk, the terminal status, one append per trailing chunk. */
  lemma OutcomeWritesInOrder(id: Id, o: Outcome)
    ensures var ws := OutcomeWrites(id, o);
      && (forall i :: 0 <= i < |o.chunks| ==> ws[i + 1] == Append(id, o.chunks[i]))
      && (o.error.None? ==> ws[|o.chunks| + 1] == HashSet(id, map[STATUS := DONE]))
      && (o.error.Some? ==> ws[|o.chunks| + 1] == HashSet(id, map["error" := o.error.value][STATUS := ERROR]))
      && (forall i :: 0 <= i < |o.trailer| ==> ws[|o.chunks| + 2 + i] == Append(id, o.trailer[i]))
  {
    var extra := if o.error.None? then map[] else map["error" := o.error.value];
    var life := Lifecycle(id, o.chunks, if o.error.None? then DONE else ERROR, extra);
    var ws := OutcomeWrites(id, o);
    assert ws == life + AppendAll(id, o.trailer);
    forall i | 0 <= i < |o.trailer| ensures ws[|o.chunks| + 2 + i] == Append(id, o.trailer[i]) {
      assert ws[|life| + i] == AppendAll(id, o.trailer)[i];
    }
  }

  /** `generate_performance_report(report_id, grn_number)` as the writes it
      issues, given the outcome of the GRN lookup. */
  function GenerateReport(id: Id, grnNumber: string, now: string, fetch: Result<Option<GrnRow>>, fmt: Fmt): (ws: seq<Write>)
    ensures |ws| >= 2 && ws[0] == HashSet(id, map[STATUS := PROCESSING])
    ensures forall i :: 0 <= i < |ws| ==> ws[i].id == id
  {
    OutcomeWrites(id, ReportOutcome(grnNumber, now, fetch, fmt))
  }

  // ---------------------------------------------------------------------
  // Properties
  // ---------------------------------------------------------------------

  /** Exactly one quantity point appears among the summary points. */
  lemma OneQuantityPoint(g: Grn, fmt: Fmt)
    ensures var pts := SummaryPoints(g, fmt);
      |set i | 0 <= i < |pts| && IsQuantityPoint(pts[i])| == 1
  {
    var po := TotalPo(g.items);
    var rec := TotalReceived(g.items);
    var dmg := TotalDamaged(g.items);
    var alert: seq<string> := if po == 0.0 then [ALERT_POINT] else [];
    var quality: seq<string> := if dmg > 0.0 then [DamagePoint(dmg, fmt)] else [];
    var late: seq<string> := if g.actual > g.expected then [LATE_POINT] else [];
    var q := QuantityPoint(QuantityOf(po, rec), po, rec, fmt);
    var pts := SummaryPoints(g, fmt);
    assert pts == alert + quality + [q] + late;
    var k := |alert| + |quality|;
    assert pts[k] == q;
    assert IsQuantityPoint(q) by {
      if q != ALL_RECEIVED {
        assert q[2] == SHORTAGE_ICON || q[2] == EXCESS_ICON;
      }
    }
    assert ALERT_POINT[2] == WARNING_ICON && LATE_POINT[2] == HOURGLASS_ICON && ALL_RECEIVED[2] == CHECK_ICON;
    forall i | 0 <= i < |pts| && i != k ensures !IsQuantityPoint(pts[i]) {
      if i < |alert| {
        assert pts[i] == ALERT_POINT;
      } else if i < k {
        assert pts[i] == quality[0] && pts[i][2] == DAMAGE_ICON;
      } else {
        assert pts[i] == LATE_POINT;
      }
    }
    assert (set i | 0 <= i < |pts| && IsQuantityPoint(pts[i])) == {k};
  }

  /** A summary point about quantities: shortage, excess or all received. */
  predicate IsQuantityPoint(p: string) {
    (|p| > 2 && (p[2] == SHORTAGE_ICON || p[2] == EXCESS_ICON)) || p == ALL_RECEIVED
  }

  /** "processing" is written first, before any chunk, and the writes
      touch only this report's keys. */
  lemma ProcessingBeforeChunks(id: Id, grnNumber: string, now: string, fetch: Result<Option<GrnRow>>, fmt: Fmt)
    ensures var ws := GenerateReport(id, grnNumber, now, fetch, fmt);
      && StatusOf(Run(Empty, ws[..1]), id) == Some(PROCESSING)
      && StreamOf(Run(Empty, ws[..1]), id) == []
  {
    var ws := GenerateReport(id, grnNumber, now, fetch, fmt);
    assert Run(Empty, ws[..1]) == Apply(Empty, ws[0]);
  }

  /** Running an outcome's writes: the terminal status is "done" or
      "error" with the message, and the stream gains the chunks and then
      the trailer. */
  lemma OutcomeEffect(s: Store, id: Id, o: Outcome)
    ensures var t := Run(s, OutcomeWrites(id, o));
      && StatusOf(t, id) == Some(if o.error.None? then DONE else ERROR)
      && (o.error.Some? ==> Get(StateOf(t, id), "error") == Some(o.error.value))
      && StreamOf(t, id) == StreamOf(s, id) + o.chunks + o.trailer
  {
    var extra := if o.error.None? then map[] else map["error" := o.error.value];
    var life := Lifecycle(id, o.chunks, if o.error.None? then DONE else ERROR, extra);
    assert OutcomeWrites(id, o) == life + AppendAll(id, o.trailer);
    LifecycleEffect(s, id, o.chunks, if o.error.None? then DONE else ERROR, extra);
    RunAppend(s, life, AppendAll(id, o.trailer));
    HistoryAfterAppends(Run(s, life), id, o.trailer);
  }

  /** An unknown GRN: the header, then the not-found chunk, then status
      "error" with error "GRN not found"; "done" is never written. */
  lemma UnknownGrnOutcome(s: Store, id: Id, grnNumber: string, now: string, fmt: Fmt)
    ensures var ws := GenerateReport(id, grnNumber, now, Ok(None), fmt);
      var t := Run(s, ws);
      && StatusOf(t, id) == Some(ERROR)
      && Get(StateOf(t, id), "error") == Some(GRN_NOT_FOUND)
      && StreamOf(t, id) == StreamOf(s, id) + HeaderChunks(grnNumber, now) + [NotFoundChunk(grnNumber)]
      && (forall i :: 0 <= i < |ws| ==> !(ws[i].HashSet? && Get(ws[i].fields, STATUS) == Some(DONE)))
  {
    var chunks := HeaderChunks(grnNumber, now) + [NotFoundChunk(grnNumber)];
    var o := ReportOutcome(grnNumber, now, Ok(None), fmt);
    assert o == Outcome(chunks, Some(GRN_NOT_FOUND), []);
    OutcomeEffect(s, id, o);
    FailedOutcomeNeverDone(id, o);
    assert chunks + [] == chunks;
  }

  /** An outcome with an error never writes "done". */
  lemma FailedOutcomeNeverDone(id: Id, o: Outcome)
    requires o.error.Some?
    ensures var ws := OutcomeWrites(id, o);
      forall i :: 0 <= i < |ws| ==> !(ws[i].HashSet? && Get(ws[i].fields, STATUS) == Some(DONE))
  {
    var extra := map["error" := o.error.value];
    var life := Lifecycle(id, o.chunks, ERROR, extra);
    var ws := OutcomeWrites(id, o);
    assert ws == life + AppendAll(id, o.trailer);
    forall i | 0 <= i < |ws| ensures !(ws[i].HashSet? && Get(ws[i].fields, STATUS) == Some(DONE)) {
      if i == 0 {
      } else if i <= |o.chunks| {
        assert ws[i] == life[(i - 1) + 1];
        assert ws[i].Append?;
      } else if i == |o.chunks| + 1 {
        assert ws[i] == HashSet(id, extra[STATUS := ERROR]);
      } else {
        assert ws[i] == AppendAll(id, o.trailer)[i - |life|];
        assert ws[i].Append?;
      }
    }
  }

  /** A found GRN: the header and the body in order, then "done" as the
      last write, after the last chunk. */
  lemma FoundGrnOutcome(s: Store, id: Id, grnNumber: string, now: string, g: Grn, fmt: Fmt)
    ensures var ws := GenerateReport(id, grnNumber, now, Ok(Some(RowOf(g))), fmt);
      var t := Run(s, ws);
      && StatusOf(t, id) == Some(DONE)
      && StreamOf(t, id) == StreamOf(s, id) + ReportChunks(grnNumber, now, g, fmt)
      && ws[|ws| - 1] == HashSet(id, map[STATUS := DONE])
      && StatusAfterLastChunk(ws, id)
  {
    var chunks := ReportChunks(grnNumber, now, g, fmt);
    FoundGrnWrites(id, grnNumber, now, g, fmt);
    LifecycleEffect(s, id, chunks, DONE, map[]);
    LifecycleOrdered(id, chunks, DONE, map[]);
  }

  lemma FoundGrnWrites(id: Id, grnNumber: string, now: string, g: Grn, fmt: Fmt)
    ensures GenerateReport(id, grnNumber, now, Ok(Some(RowOf(g))), fmt)
         == Lifecycle(id, ReportChunks(grnNumber, now, g, fmt), DONE, map[])
  {
    var o := ReportOutcome(grnNumber, now, Ok(Some(RowOf(g))), fmt);
    assert o == Outcome(ReportChunks(grnNumber, now, g, fmt), None, []);
    var life := Lifecycle(id, o.chunks, DONE, map[]);
    assert OutcomeWrites(id, o) == life + AppendAll(id, []);
    assert life + [] == life;
  }

  /** A run that raises after streaming `chunks`: status "error" carrying
      the exception's text is written first and the error chunk appended
      after it, and "done" is never written. */
  lemma RaisedOutcome(s: Store, id: Id, chunks: seq<string>, e: string)
    requires |chunks| > 0
    ensures var ws := OutcomeWrites(id, Outcome(chunks, Some(e), [ErrorChunk(e)]));
      var t := Run(s, ws);
      && StatusOf(t, id) == Some(ERROR)
      && Get(StateOf(t, id), "error") == Some(e)
      && StreamOf(t, id) == StreamOf(s, id) + chunks + [ErrorChunk(e)]
      && !StatusAfterLastChunk(ws, id)
      && (forall i :: 0 <= i < |ws| ==> !(ws[i].HashSet? && Get(ws[i].fields, STATUS) == Some(DONE)))
  {
    var o := Outcome(chunks, Some(e), [ErrorChunk(e)]);
    OutcomeEffect(s, id, o);
    FailedOutcomeNeverDone(id, o);
    var life := Lifecycle(id, chunks, ERROR, map["error" := e]);
    var ws := OutcomeWrites(id, o);
    assert ws == life + AppendAll(id, [ErrorChunk(e)]);
    assert ws[|life| - 1] == life[|life| - 1];
    assert ws[|life|] == Append(id, ErrorChunk(e));
    assert SetsTerminal(ws[|life| - 1], id) && AppendsTo(ws[|life|], id);
  }

  /** A failed lookup: status "error" carrying the message is written
      first and the error chunk appended after it, so a chunk follows the
      terminal status. */
  lemma FailedLookupOutcome(s: Store, id: Id, grnNumber: string, now: string, e: string, fmt: Fmt)
    ensures var ws := GenerateReport(id, grnNumber, now, Err(e), fmt);
      var t := Run(s, ws);
      && StatusOf(t, id) == Some(ERROR)
      && Get(StateOf(t, id), "error") == Some(e)
      && StreamOf(t, id) == StreamOf(s, id) + HeaderChunks(grnNumber, now) + [ErrorChunk(e)]
      && !StatusAfterLastChunk(ws, id)
  {
    var header := HeaderChunks(grnNumber, now);
    assert ReportOutcome(grnNumber, now, Err(e), fmt) == Outcome(header, Some(e), [ErrorChunk(e)]);
    RaisedOutcome(s, id, header, e);
  }

  /** A GRN with a NULL date: the header and the timeline title are
      streamed, then the comparison raises, so status "error" carries the
      exception's text and the error chunk follows it; nothing after the
      timeline title is appended and "done" is never written. */
  lemma NullDateOutcome(s: Store, id: Id, grnNumber: string, now: string, row: GrnRow, fmt: Fmt)
    requires row.expected.None? || row.actual.None?
    ensures var ws := GenerateReport(id, grnNumber, now, Ok(Some(row)), fmt);
      var t := Run(s, ws);
      && StatusOf(t, id) == Some(ERROR)
      && Get(StateOf(t, id), "error") == Some(fmt.nullDateError)
      && StreamOf(t, id) == StreamOf(s, id) + (HeaderChunks(grnNumber, now) + [TIMELINE_TITLE]) + [ErrorChunk(fmt.nullDateError)]
      && !StatusAfterLastChunk(ws, id)
      && (forall i :: 0 <= i < |ws| ==> !(ws[i].HashSet? && Get(ws[i].fields, STATUS) == Some(DONE)))
  {
    var e := fmt.nullDateError;
    var chunks := HeaderChunks(grnNumber, now) + [TIMELINE_TITLE];
    assert ReportOutcome(grnNumber, now, Ok(Some(row)), fmt) == Outcome(chunks, Some(e), [ErrorChunk(e)]);
    RaisedOutcome(s, id, chunks, e);
  }

  // ---------------------------------------------------------------------
  // POST /performance
  // ---------------------------------------------------------------------

  /** The reply and the background task of `create_performance_report`:
      the report id comes from `uuid4` (a parameter here). The handler
      itself writes nothing; the background job's writes are `GenerateReport`. */
  datatype Created = Created(reportId: Id, task: (Id, string))

  function CreatePerformanceReport(uuid: Id, grnNumber: string): (c: Created)
    ensures c.reportId == uuid && c.task == (uuid, grnNumber)
  {
    Created(uuid, (uuid, grnNumber))
  }

  /** The id handed to the client is the one the scheduled task writes
      under, whatever the lookup returns. */
  lemma TaskWritesUnderReturnedId(uuid: Id, grnNumber: string, now: string, fetch: Result<Option<GrnRow>>, fmt: Fmt)
    ensures var c := CreatePerformanceReport(uuid, grnNumber);
      var ws := GenerateReport(c.task.0, c.task.1, now, fetch, fmt);
      forall i :: 0 <= i < |ws| ==> ws[i].id == c.reportId
  {
  }
}

=== FILE: postgres_repository.dfy ===
/** `PostgresRepository` (whatsapp-service/repositories/PostgresRepository.js):
    the WhatsApp gateway's `whatsapp_messages` and `webhook_settings`
    tables. `whatsapp_id` is unique (the target of `ON CONFLICT`); keys come
    from sequences and timestamps from the clock parameter. */
module WaRepository {
  import opened Wrappers
  import opened Sorting
  import opened Rows

  /** A `whatsapp_messages` row. */
  datatype WaRow = WaRow(id: int, whatsappId: string, fromNumber: string, body: string, isFromMe: bool,
                         conversationId: int, groupId: Option<string>, timestamp: int)

  /** A `webhook_settings` row. */
  datatype WebhookRow = WebhookRow(id: int, url: string, retries: int, secret: string, isActive: bool, createdAt: int)

  /** Both tables, the next key of each sequence, and the `is_active`
      column default (the table's DDL is not part of this model). */
  datatype WaDb = WaDb(messages: seq<WaRow>, webhooks: seq<WebhookRow>, nextMessageId: int, nextWebhookId: int,
                       activeByDefault: bool)

  /** The object passed to `saveMessage`; `userId` is not one of the
      columns it writes. */
  datatype MessageData = MessageData(whatsappId: string, fromNumber: string, groupId: Option<string>, body: string,
                                     isFromMe: bool, conversationId: int, userId: int)

  /** `SELECT url, retries, secret`. */
  datatype WebhookConfig = WebhookConfig(url: string, retries: int, secret: string)

  /** `RETURNING id, url, is_active`. */
  datatype InsertedWebhook = InsertedWebhook(id: int, url: string, isActive: bool)

  /** `RETURNING id, url`. */
  datatype DeletedWebhook = DeletedWebhook(id: int, url: string)

  function WaRowId(m: WaRow): int { m.id }

  function WebhookId(w: WebhookRow): int { w.id }

  ghost predicate Wf(db: WaDb) {
    && UniqueIds(db.messages, WaRowId)
    && (forall i, j :: 0 <= i < j < |db.messages| ==> db.messages[i].whatsappId != db.messages[j].whatsappId)
    && (forall i :: 0 <= i < |db.messages| ==> db.messages[i].id < db.nextMessageId)
    && UniqueIds(db.webhooks, WebhookId)
    && (forall i :: 0 <= i < |db.webhooks| ==> db.webhooks[i].id < db.nextWebhookId)
  }

  /** The stored message with this WhatsApp id, if any. */
  function FindByWhatsappId(rows: seq<WaRow>, whatsappId: string): (r: Option<WaRow>)
    ensures r.None? <==> forall i :: 0 <= i < |rows| ==> rows[i].whatsappId != whatsappId
    ensures r.Some? ==> r.value in rows && r.value.whatsappId == whatsappId
    decreases |rows|
  {
    if |rows| == 0 then None
    else if rows[0].whatsappId == whatsappId then Some(rows[0])
    else
      assert forall i :: 1 <= i < |rows| ==> rows[1..][i - 1] == rows[i];
      FindByWhatsappId(rows[1..], whatsappId)
  }

  /** `saveMessage`: insert unless the WhatsApp id is already stored, and
      return the id of the row holding it either way. */
  function SaveMessage(db: WaDb, data: MessageData, now: int): (r: (WaDb, int))
    ensures FindByWhatsappId(db.messages, data.whatsappId).Some? ==>
      r.0 == db && r.1 == FindByWhatsappId(db.messages, data.whatsappId).value.id
    ensures FindByWhatsappId(db.messages, data.whatsappId).None? ==>
      && r.1 == db.nextMessageId
      && r.0.messages == db.messages + [WaRow(r.1, data.whatsappId, data.fromNumber, data.body, data.isFromMe,
                                              data.conversationId, data.groupId, now)]
      && r.0.nextMessageId > r.1
      && r.0.webhooks == db.webhooks
  {
    match FindByWhatsappId(db.messages, data.whatsappId)
    case Some(existing) => (db, existing.id)
    case None =>
      var row := WaRow(db.nextMessageId, data.whatsappId, data.fromNumber, data.body, data.isFromMe,
                       data.conversationId, data.groupId, now);
      (db.(messages := db.messages + [row], nextMessageId := db.nextMessageId + 1), row.id)
  }

  function Timestamp(m: WaRow): int { m.timestamp }

  function FromNumber(fromNumber: string): WaRow -> bool {
    (m: WaRow) => m.fromNumber == fromNumber
  }

  /** `getChatHistory(from_number)`: every message from that number, oldest
      first. */
  function GetChatHistory(db: WaDb, fromNumber: string): (r: seq<WaRow>)
    ensures forall i :: 0 <= i < |r| ==> r[i] in db.messages && r[i].fromNumber == fromNumber
    ensures forall i, j :: 0 <= i < j < |r| ==> r[i].timestamp <= r[j].timestamp
    ensures multiset(r) == multiset(Filter(db.messages, FromNumber(fromNumber)))
  {
    var r := Select(db.messages, FromNumber(fromNumber), Timestamp, |db.messages|, 0);
    assert forall i, j :: 0 <= i < j < |r| ==> Timestamp(r[i]) <= Timestamp(r[j]);
    r
  }

  /** The first active row in storage order, if any. */
  function FirstActive(ws: seq<WebhookRow>): (r: Option<WebhookRow>)
    ensures r.None? <==> forall i :: 0 <= i < |ws| ==> !ws[i].isActive
    ensures r.Some? ==> r.value in ws && r.value.isActive
    decreases |ws|
  {
    if |ws| == 0 then None
    else if ws[0].isActive then Some(ws[0])
    else
      assert forall i :: 1 <= i < |ws| ==> ws[1..][i - 1] == ws[i];
      FirstActive(ws[1..])
  }

  /** `getActiveWebhook`: some active configuration, or `undefined` when
      none is active. `LIMIT 1` without `ORDER BY` lets the database pick;
      the model picks the first in storage order. */
  function GetActiveWebhook(db: WaDb): (r: Option<WebhookConfig>)
    ensures r.None? <==> forall i :: 0 <= i < |db.webhooks| ==> !db.webhooks[i].isActive
    ensures r.Some? ==> exists i :: (0 <= i < |db.webhooks| && db.webhooks[i].isActive
      && r.value == WebhookConfig(db.webhooks[i].url, db.webhooks[i].retries, db.webhooks[i].secret))
  {
    match FirstActive(db.webhooks)
    case None => None
    case Some(w) => Some(WebhookConfig(w.url, w.retries, w.secret))
  }

  /** `retries || 3`: an absent or zero count becomes 3. */
  function StoredRetries(retries: Option<int>): (r: int)
    ensures retries.Some? && retries.value != 0 ==> r == retries.value
    ensures retries.None? || retries.value == 0 ==> r == 3
    ensures r != 0
  {
    if retries.Some? && retries.value != 0 then retries.value else 3
  }

  /** `insertWebhook({url, retries, secret})`. */
  function InsertWebhook(db: WaDb, url: string, retries: Option<int>, secret: string, now: int): (r: (WaDb, InsertedWebhook))
    ensures r.1 == InsertedWebhook(db.nextWebhookId, url, db.activeByDefault)
    ensures r.0.webhooks == db.webhooks + [WebhookRow(r.1.id, url, StoredRetries(retries), secret, db.activeByDefault, now)]
    ensures r.0.nextWebhookId > r.1.id && r.0.messages == db.messages
  {
    var row := WebhookRow(db.nextWebhookId, url, StoredRetries(retries), secret, db.activeByDefault, now);
    (db.(webhooks := db.webhooks + [row], nextWebhookId := db.nextWebhookId + 1), InsertedWebhook(row.id, url, row.isActive))
  }

  /** `deleteWebhook(id)`: the deleted row's id and url, or `undefined`. */
  function DeleteWebhook(db: WaDb, id: int): (r: (WaDb, Option<DeletedWebhook>))
    ensures r.1.Some? <==> HasId(db.webhooks, WebhookId, id)
    ensures r.1.Some? ==> r.1.value.id == id && exists i :: 0 <= i < |db.webhooks| && db.webhooks[i].id == id && db.webhooks[i].url == r.1.value.url
    ensures !HasId(r.0.webhooks, WebhookId, id)
    ensures r.0.messages == db.messages
    ensures forall i :: 0 <= i < |db.webhooks| && db.webhooks[i].id != id ==> db.webhooks[i] in r.0.webhooks
    ensures forall i :: 0 <= i < |r.0.webhooks| ==> r.0.webhooks[i] in db.webhooks
  {
    var found := FindById(db.webhooks, WebhookId, id);
    var (rows, _) := DeleteById(db.webhooks, WebhookId, id);
    (db.(webhooks := rows), if found.Some? then Some(DeletedWebhook(found.value.id, found.value.url)) else None)
  }

  function CreatedAtDesc(w: WebhookRow): int { -w.createdAt }

  /** `getAllWebhooks`: every row, newest first. */
  function GetAllWebhooks(db: WaDb): (r: seq<WebhookRow>)
    ensures multiset(r) == multiset(db.webhooks)
    ensures forall i, j :: 0 <= i < j < |r| ==> r[i].createdAt >= r[j].createdAt
  {
    var r := SortBy(db.webhooks, CreatedAtDesc);
    assert forall i, j :: 0 <= i < j < |r| ==> CreatedAtDesc(r[i]) <= CreatedAtDesc(r[j]);
    r
  }

  // ---------------------------------------------------------------------
  // Properties
  // ---------------------------------------------------------------------

  /** Saving the same WhatsApp message again writes nothing and returns
      the id of the first save. */
  lemma SaveTwice(db: WaDb, data: MessageData, again: MessageData, now: int, later: int)
    requires Wf(db)
    requires again.whatsappId == data.whatsappId
    ensures var (db1, id1) := SaveMessage(db, data, now);
      SaveMessage(db1, again, later) == (db1, id1)
  {
    var (db1, id1) := SaveMessage(db, data, now);
    if FindByWhatsappId(db.messages, data.whatsappId).None? {
      FindAppended(db.messages, db1.messages[|db.messages|]);
    }
  }

  lemma {:induction false} FindAppended(rows: seq<WaRow>, row: WaRow)
    requires forall i :: 0 <= i < |rows| ==> rows[i].whatsappId != row.whatsappId
    ensures FindByWhatsappId(rows + [row], row.whatsappId) == Some(row)
    decreases |rows|
  {
    if |rows| > 0 {
      assert (rows + [row])[1..] == rows[1..] + [row];
      FindAppended(rows[1..], row);
    } else {
      assert rows + [row] == [row];
    }
  }

  /** The caller's `user_id` is not stored: two saves differing only in it
      have the same effect. */
  lemma UserIdIgnored(db: WaDb, data: MessageData, userId: int, now: int)
    ensures SaveMessage(db, data.(userId := userId), now) == SaveMessage(db, data, now)
  {
  }

  /** Saving keeps keys and WhatsApp ids unique. */
  lemma SavePreservesWf(db: WaDb, data: MessageData, now: int)
    requires Wf(db)
    ensures Wf(SaveMessage(db, data, now).0)
  {
  }

  /** A webhook inserted while rows default to active makes
      `getActiveWebhook` find a configuration, and a zero retry count is
      stored as 3. */
  lemma InsertedWebhookIsActive(db: WaDb, url: string, retries: Option<int>, secret: string, now: int)
    requires db.activeByDefault
    ensures var db' := InsertWebhook(db, url, retries, secret, now).0;
      && GetActiveWebhook(db').Some?
      && (retries == Some(0) ==> db'.webhooks[|db.webhooks|].retries == 3)
  {
    var db' := InsertWebhook(db, url, retries, secret, now).0;
    assert db'.webhooks[|db.webhooks|].isActive;
  }

  /** Deleting every active configuration leaves `getActiveWebhook` with
      nothing. */
  lemma DeletingTheOnlyActive(db: WaDb, id: int)
    requires forall i :: 0 <= i < |db.webhooks| && db.webhooks[i].isActive ==> db.webhooks[i].id == id
    ensures GetActiveWebhook(DeleteWebhook(db, id).0).None?
  {
    var ws := DeleteWebhook(db, id).0.webhooks;
    forall i | 0 <= i < |ws| ensures !ws[i].isActive {
      var j :| 0 <= j < |db.webhooks| && db.webhooks[j] == ws[i];
    }
  }
}

=== FILE: rows.dfy ===
/** Tables as sequences of rows in storage order, and the three statements
    every service issues against them: look a row up by its primary key,
    delete by primary key (`cursor.rowcount > 0`), and a filtered, ordered,
    paged `SELECT`. */
module Rows {
  import opened Wrappers
  import opened Sorting

  /** Primary keys are unique. */
  ghost predicate UniqueIds<R>(rows: seq<R>, idOf: R -> int) {
    forall i, j :: 0 <= i < j < |rows| ==> idOf(rows[i]) != idOf(rows[j])
  }

  predicate HasId<R>(rows: seq<R>, idOf: R -> int, id: int) {
    exists i :: 0 <= i < |rows| && idOf(rows[i]) == id
  }

  /** `SELECT ... WHERE id = %s` + `fetchone()`. */
  function FindById<R>(rows: seq<R>, idOf: R -> int, id: int): (r: Option<R>)
    ensures r.Some? <==> HasId(rows, idOf, id)
    ensures r.Some? ==> r.value in rows && idOf(r.value) == id
    decreases |rows|
  {
    if |rows| == 0 then None
    else if idOf(rows[0]) == id then Some(rows[0])
    else
      var r := FindById(rows[1..], idOf, id);
      assert forall i :: 1 <= i < |rows| ==> rows[1..][i - 1] == rows[i];
      r
  }

  /** A row appended under a key no earlier row has is what a lookup of
      that key finds. */
  lemma {:induction false} FindFresh<R>(rows: seq<R>, idOf: R -> int, row: R)
    requires !HasId(rows, idOf, idOf(row))
    ensures FindById(rows + [row], idOf, idOf(row)) == Some(row)
    decreases |rows|
  {
    if |rows| > 0 {
      assert (rows + [row])[1..] == rows[1..] + [row];
      assert forall i :: 1 <= i < |rows| ==> rows[1..][i - 1] == rows[i];
      FindFresh(rows[1..], idOf, row);
    } else {
      assert rows + [row] == [row];
    }
  }

  /** With unique keys, a lookup finds the one row holding the key. */
  lemma FindUnique<R>(rows: seq<R>, idOf: R -> int, j: nat)
    requires UniqueIds(rows, idOf) && j < |rows|
    ensures FindById(rows, idOf, idOf(rows[j])) == Some(rows[j])
  {
    var r := FindById(rows, idOf, idOf(rows[j]));
    var k :| 0 <= k < |rows| && rows[k] == r.value;
    assert k == j;
  }

  /** `DELETE FROM t WHERE id = %s`: the remaining rows, in storage order,
      and whether any row went. */
  function DeleteById<R>(rows: seq<R>, idOf: R -> int, id: int): (r: (seq<R>, bool))
    ensures r.1 <==> HasId(rows, idOf, id)
    ensures !HasId(r.0, idOf, id)
    ensures forall i :: 0 <= i < |r.0| ==> r.0[i] in rows
    ensures forall i :: 0 <= i < |rows| && idOf(rows[i]) != id ==> rows[i] in r.0
  {
    (Filter(rows, x => idOf(x) != id), HasId(rows, idOf, id))
  }

  lemma DeleteKeepsUnique<R>(rows: seq<R>, idOf: R -> int, id: int)
    requires UniqueIds(rows, idOf)
    ensures UniqueIds(DeleteById(rows, idOf, id).0, idOf)
  {
    FilterKeepsUnique(rows, idOf, x => idOf(x) != id);
  }

  /** What `WHERE p ORDER BY key LIMIT limit OFFSET offset` may return:
      the window at `offset` of some ordering by `key` of exactly the
      matching rows. Which of the rows with equal keys come first is left
      open, as SQL leaves it. */
  ghost predicate IsSortedPage<R(!new)>(r: seq<R>, rows: seq<R>, p: R -> bool, key: R -> int, limit: nat, offset: nat) {
    exists s :: SortedBy(s, key) && multiset(s) == multiset(Filter(rows, p)) && r == Page(s, limit, offset)
  }

  /** `WHERE p ORDER BY key LIMIT limit OFFSET offset`; rows with equal
      keys come in storage order, one of the orders the database may use. */
  function Select<R(!new)>(rows: seq<R>, p: R -> bool, key: R -> int, limit: nat, offset: nat): (r: seq<R>)
    ensures |r| <= limit
    ensures forall i :: 0 <= i < |r| ==> r[i] in rows && p(r[i])
    ensures SortedBy(r, key)
    ensures offset == 0 && |Filter(rows, p)| <= limit ==> multiset(r) == multiset(Filter(rows, p))
    ensures IsSortedPage(r, rows, p, key, limit, offset)
  {
    var sorted := SortBy(Filter(rows, p), key);
    PageOfSorted(rows, p, key, sorted, limit, offset);
    assert SortedBy(sorted, key) && multiset(sorted) == multiset(Filter(rows, p));
    Page(sorted, limit, offset)
  }

  lemma PageOfSorted<R>(rows: seq<R>, p: R -> bool, key: R -> int, sorted: seq<R>, limit: nat, offset: nat)
    requires sorted == SortBy(Filter(rows, p), key)
    ensures var r := Page(sorted, limit, offset);
      && (forall i :: 0 <= i < |r| ==> r[i] in rows && p(r[i]))
      && SortedBy(r, key)
      && (offset == 0 && |sorted| <= limit ==> r == sorted)
  {
    var matching := Filter(rows, p);
    var r := Page(sorted, limit, offset);
    forall i | 0 <= i < |r| ensures r[i] in rows && p(r[i]) {
      assert r[i] == sorted[offset + i];
      assert sorted[offset + i] in multiset(matching);
    }
  }

  /** `Filter` keeps rows in storage order, so unique keys stay unique. */
  lemma {:induction false} FilterKeepsUnique<R>(rows: seq<R>, idOf: R -> int, p: R -> bool)
    requires UniqueIds(rows, idOf)
    ensures UniqueIds(Filter(rows, p), idOf)
    decreases |rows|
  {
    if |rows| > 0 {
      var init := rows[..|rows| - 1];
      var last := rows[|rows| - 1];
      FilterKeepsUnique(init, idOf, p);
      var f := Filter(init, p);
      forall i | 0 <= i < |f| ensures idOf(f[i]) != idOf(last) {
        var j :| 0 <= j < |init| && init[j] == f[i];
        assert rows[j] == init[j];
      }
    }
  }
}

=== FILE: schema_text.dfy ===
/** `get_schema` (src/agentic/tools/database/get_schema.py): the query
    choice and the rendering of `information_schema.columns` rows as text.

    Running the query is an oracle returning the rows or the exception
    text; the database's `ORDER BY` is its business, and the rendering
    keeps whatever order the rows arrive in. */
module SchemaText {
  import opened Wrappers
  import opened Text

  const NO_SCHEMA: string := "No schema found or no tables matched."
  const ERROR_PREFIX: string := "Error fetching schema: "
  const TABLE_PREFIX: string := "Table: "
  const BULLET: string := "  - "

  /** `(table_name, column_name, data_type)`. */
  datatype Row = Row(table: string, column: string, dtype: string)

  /** The query run: every public table, or only the named ones. */
  datatype Query = AllTables | NamedTables(names: seq<string>)

  /** One entry of `schema_dict`: a table and its rendered columns. */
  datatype Group = Group(table: string, columns: seq<string>)

  /** `if table_names:` — absent or empty means no filter. */
  function ChooseQuery(tableNames: Option<seq<string>>): (q: Query)
    ensures q.AllTables? <==> tableNames.None? || |tableNames.value| == 0
    ensures q.NamedTables? ==> q.names == tableNames.value
  {
    if tableNames.Some? && |tableNames.value| > 0 then NamedTables(tableNames.value) else AllTables
  }

  /** `f"{column} ({dtype})"`. */
  function ColumnText(r: Row): string {
    r.column + " (" + r.dtype + ")"
  }

  function Tables(groups: seq<Group>): (r: seq<string>)
    ensures |r| == |groups|
    ensures forall i :: 0 <= i < |groups| ==> r[i] == groups[i].table
  {
    seq(|groups|, i requires 0 <= i < |groups| => groups[i].table)
  }

  predicate Distinct(xs: seq<string>) {
    forall i, j :: 0 <= i < j < |xs| ==> xs[i] != xs[j]
  }

  /** The position of a table's group, if it has one. */
  function Find(groups: seq<Group>, t: string): (r: Option<nat>)
    ensures r.None? <==> t !in Tables(groups)
    ensures r.Some? ==> r.value < |groups| && groups[r.value].table == t
  {
    if |groups| == 0 then None
    else if groups[0].table == t then Some(0)
    else
      var p := Find(groups[1..], t);
      assert Tables(groups) == [groups[0].table] + Tables(groups[1..]);
      if p.None? then None else Some(p.value + 1)
  }

  /** `schema_dict.setdefault(table, []).append(...)`: a new table gets a
      group at the end; otherwise the column joins its table's group. */
  function AddRow(groups: seq<Group>, row: Row): (r: seq<Group>)
    ensures row.table in Tables(groups) ==> Tables(r) == Tables(groups)
    ensures row.table !in Tables(groups) ==> Tables(r) == Tables(groups) + [row.table]
    ensures forall i :: 0 <= i < |groups| && groups[i].table != row.table ==> r[i] == groups[i]
    ensures row.table !in Tables(groups) ==> r[|groups|] == Group(row.table, [ColumnText(row)])
    ensures Distinct(Tables(groups)) ==> Distinct(Tables(r))
    ensures Distinct(Tables(groups)) ==>
      forall i :: 0 <= i < |groups| && groups[i].table == row.table ==> r[i].columns == groups[i].columns + [ColumnText(row)]
  {
    match Find(groups, row.table)
    case None => groups + [Group(row.table, [ColumnText(row)])]
    case Some(p) =>
      var r := groups[p := Group(row.table, groups[p].columns + [ColumnText(row)])];
      assert Tables(r) == Tables(groups);
      r
  }

  /** The loop over the rows. */
  function GroupRows(rows: seq<Row>): (r: seq<Group>)
    ensures Distinct(Tables(r))
    ensures |rows| > 0 ==> |r| > 0
    decreases |rows|
  {
    if |rows| == 0 then [] else AddRow(GroupRows(rows[..|rows| - 1]), rows[|rows| - 1])
  }

  function Bullets(columns: seq<string>): (r: seq<string>)
    ensures |r| == |columns|
    ensures forall i :: 0 <= i < |columns| ==> r[i] == BULLET + columns[i]
  {
    seq(|columns|, i requires 0 <= i < |columns| => BULLET + columns[i])
  }

  /** One table's lines: its header, one bullet per column, an empty line. */
  function Block(g: Group): seq<string> {
    [TABLE_PREFIX + g.table] + Bullets(g.columns) + [""]
  }

  /** The lines of all tables, table by table; `RenderLinesAppend` gives
      the rest of the layout from the one-table case stated here. */
  function RenderLines(groups: seq<Group>): (r: seq<string>)
    ensures |groups| > 0 ==> |r| > 0
    ensures |groups| == 0 ==> r == []
    ensures |groups| == 1 ==>
      var g := groups[0];
      && |r| == |g.columns| + 2
      && r[0] == TABLE_PREFIX + g.table
      && (forall i :: 0 <= i < |g.columns| ==> r[i + 1] == BULLET + g.columns[i])
      && r[|r| - 1] == ""
    decreases |groups|
  {
    if |groups| == 0 then [] else RenderLines(groups[..|groups| - 1]) + Block(groups[|groups| - 1])
  }

  /** Rendering distributes over the tables: the lines of two runs of
      tables are the lines of the first run, then those of the second. */
  lemma {:induction false} RenderLinesAppend(a: seq<Group>, b: seq<Group>)
    ensures RenderLines(a + b) == RenderLines(a) + RenderLines(b)
    decreases |b|
  {
    if |b| == 0 {
      assert a + b == a;
    } else {
      var b' := b[..|b| - 1];
      assert (a + b)[..|a + b| - 1] == a + b';
      assert (a + b)[|a + b| - 1] == b[|b| - 1];
      RenderLinesAppend(a, b');
    }
  }

  /** `get_schema(table_names)`: never raises; a failing query becomes the
      error text. */
  function GetSchema(tableNames: Option<seq<string>>, run: Query -> Result<seq<Row>>): (r: string)
    ensures run(ChooseQuery(tableNames)).Err? ==> r == ERROR_PREFIX + run(ChooseQuery(tableNames)).message
    ensures run(ChooseQuery(tableNames)) == Ok([]) ==> r == NO_SCHEMA
  {
    match run(ChooseQuery(tableNames))
    case Err(e) => ERROR_PREFIX + e
    case Ok(rows) =>
      if |rows| == 0 then NO_SCHEMA else Join(RenderLines(GroupRows(rows)), "\n")
  }

  // ---------------------------------------------------------------------
  // Reference semantics
  // ---------------------------------------------------------------------

  function TableOf(r: Row): string { r.table }

  /** The tables of the rows in order of first occurrence. */
  function FirstOccurrences(ts: seq<string>): (r: seq<string>)
    ensures forall t :: t in r <==> t in ts
    decreases |ts|
  {
    if |ts| == 0 then []
    else
      var init := FirstOccurrences(ts[..|ts| - 1]);
      assert ts == ts[..|ts| - 1] + [ts[|ts| - 1]];
      if ts[|ts| - 1] in init then init else init + [ts[|ts| - 1]]
  }

  function TablesOfRows(rows: seq<Row>): (r: seq<string>)
    ensures |r| == |rows|
    ensures forall i :: 0 <= i < |rows| ==> r[i] == rows[i].table
  {
    seq(|rows|, i requires 0 <= i < |rows| => rows[i].table)
  }

  /** The rendered columns of table `t`, in row order. */
  function ColumnsOf(rows: seq<Row>, t: string): seq<string>
    decreases |rows|
  {
    if |rows| == 0 then []
    else
      var last := rows[|rows| - 1];
      ColumnsOf(rows[..|rows| - 1], t) + (if last.table == t then [ColumnText(last)] else [])
  }

  // ---------------------------------------------------------------------
  // Properties
  // ---------------------------------------------------------------------

  lemma {:induction false} ColumnsOfAbsent(rows: seq<Row>, t: string)
    requires t !in TablesOfRows(rows)
    ensures ColumnsOf(rows, t) == []
    decreases |rows|
  {
    if |rows| > 0 {
      var init := rows[..|rows| - 1];
      assert t !in TablesOfRows(init) by {
        forall i | 0 <= i < |init| ensures TablesOfRows(init)[i] != t {
          assert TablesOfRows(init)[i] == TablesOfRows(rows)[i];
        }
      }
      ColumnsOfAbsent(init, t);
      assert TablesOfRows(rows)[|rows| - 1] == rows[|rows| - 1].table;
    }
  }

  /** Tables appear in order of first occurrence among the rows, each
      once. */
  lemma {:induction false} TablesInOrder(rows: seq<Row>)
    ensures Tables(GroupRows(rows)) == FirstOccurrences(TablesOfRows(rows))
    decreases |rows|
  {
    if |rows| > 0 {
      var init := rows[..|rows| - 1];
      TablesInOrder(init);
      var ts := TablesOfRows(rows);
      assert ts[..|ts| - 1] == TablesOfRows(init);
    }
  }

  /** Each table's group lists its rows' columns, rendered as
      `col (dtype)`, in row order. */
  lemma {:induction false} GroupColumns(rows: seq<Row>, i: nat)
    requires i < |GroupRows(rows)|
    ensures GroupRows(rows)[i].columns == ColumnsOf(rows, GroupRows(rows)[i].table)
    decreases |rows|
  {
    var init := rows[..|rows| - 1];
    var row := rows[|rows| - 1];
    var prev := GroupRows(init);
    var g := GroupRows(rows);
    assert g == AddRow(prev, row);
    if i < |prev| {
      GroupColumns(init, i);
      assert Tables(prev)[i] == prev[i].table;
      if prev[i].table == row.table {
        assert Tables(g)[i] == g[i].table;
      }
    } else {
      TablesInOrder(init);
      assert row.table !in TablesOfRows(init);
      ColumnsOfAbsent(init, row.table);
    }
  }

  predicate NoNewline(rows: seq<Row>) {
    forall i :: 0 <= i < |rows| ==> '\n' !in rows[i].table && '\n' !in rows[i].column && '\n' !in rows[i].dtype
  }

  lemma {:induction false} LinesHaveNoNewline(rows: seq<Row>)
    requires NoNewline(rows)
    ensures forall i :: 0 <= i < |GroupRows(rows)| ==> '\n' !in GroupRows(rows)[i].table
    ensures forall i, j :: 0 <= i < |GroupRows(rows)| && 0 <= j < |GroupRows(rows)[i].columns| ==>
      '\n' !in GroupRows(rows)[i].columns[j]
    decreases |rows|
  {
    if |rows| > 0 {
      var init := rows[..|rows| - 1];
      var row := rows[|rows| - 1];
      assert NoNewline(init) by {
        forall i | 0 <= i < |init| ensures '\n' !in init[i].table && '\n' !in init[i].column && '\n' !in init[i].dtype {
          assert init[i] == rows[i];
        }
      }
      LinesHaveNoNewline(init);
      assert '\n' !in ColumnText(row);
    }
  }

  lemma {:induction false} RenderedLinesHaveNoNewline(groups: seq<Group>)
    requires forall i :: 0 <= i < |groups| ==> '\n' !in groups[i].table
    requires forall i, j :: 0 <= i < |groups| && 0 <= j < |groups[i].columns| ==> '\n' !in groups[i].columns[j]
    ensures forall k :: 0 <= k < |RenderLines(groups)| ==> '\n' !in RenderLines(groups)[k]
    decreases |groups|
  {
    if |groups| > 0 {
      var init := groups[..|groups| - 1];
      var last := groups[|groups| - 1];
      RenderedLinesHaveNoNewline(init);
      var a := RenderLines(init);
      var b := Block(last);
      forall k | 0 <= k < |b| ensures '\n' !in b[k] {
        if 0 < k < |b| - 1 {
          assert b[k] == BULLET + last.columns[k - 1];
        }
      }
      forall k | 0 <= k < |a + b| ensures '\n' !in (a + b)[k] {
        if k >= |a| {
          assert (a + b)[k] == b[k - |a|];
        }
      }
    }
  }

  /** The text splits back, at newlines, into exactly the rendered lines:
      each table's header, its column bullets and an empty line, table by
      table. */
  lemma SchemaTextSplitsIntoBlocks(tableNames: Option<seq<string>>, run: Query -> Result<seq<Row>>)
    requires run(ChooseQuery(tableNames)).Ok?
    requires |run(ChooseQuery(tableNames)).value| > 0
    requires NoNewline(run(ChooseQuery(tableNames)).value)
    ensures var g := GroupRows(run(ChooseQuery(tableNames)).value);
      Split(GetSchema(tableNames, run), '\n') == RenderLines(g)
  {
    var rows := run(ChooseQuery(tableNames)).value;
    var g := GroupRows(rows);
    LinesHaveNoNewline(rows);
    RenderedLinesHaveNoNewline(g);
    SplitOfJoin(RenderLines(g), '\n');
  }
}

=== FILE: so_pipeline.dfy ===
/** The sales-order validation pipeline around `validate_so`: the POST
    handler that stores the input and queues the request
    (src/api/so_validator.py), the worker step `process_so_job`
    (src/workers/so_worker.py) and the tiered read-back `get_so_results`.

    Its store is separate from the chat store: input and result entries
    per request id (JSON values, kept here as their decoded structure), the
    request queue, the expiry armed on each entry, and the
    `so_validation_analysis` table. */
module SoPipeline {
  import opened Wrappers
  import opened Sorting
  import opened SoValidation

  const INPUT_TTL: nat := 300
  const RESULT_TTL: nat := 3600
  const STARTED_MESSAGE: string := "Input received, validation started in background."
  const IN_PROGRESS_MESSAGE: string := "Validation is still in progress. Please try again in 2-3 seconds."
  const EXPIRED_MESSAGE: string := "Results not found or expired."

  /** The request body. */
  datatype SoInput = SoInput(productIds: seq<int>, quantities: seq<real>, weights: seq<real>)

  /** A row of `so_validation_analysis`. */
  datatype AnalysisRow = AnalysisRow(requestId: string, productId: Option<int>, quantity: real,
                                     weight: Option<real>, status: string, message: string)

  datatype SoKey = InputKey(id: string) | ResultKey(id: string)

  datatype SoStore = SoStore(
    inputs: map<string, SoInput>,
    results: map<string, seq<ItemResult>>,
    queue: seq<string>,
    ttl: map<SoKey, nat>,
    analysis: seq<AnalysisRow>)

  datatype SoWrite =
    | SetInput(id: string, input: SoInput, seconds: nat)          // SETEX input
    | PushRequest(id: string)                                     // RPUSH queue
    | SetResult(id: string, res: seq<ItemResult>, seconds: nat)   // SETEX result
    | InsertRows(rows: seq<AnalysisRow>)                          // one committed transaction
    | DeleteInput(id: string)                                     // DEL input

  function ApplySo(s: SoStore, w: SoWrite): SoStore {
    match w
    case SetInput(id, input, seconds) => s.(inputs := s.inputs[id := input], ttl := s.ttl[InputKey(id) := seconds])
    case PushRequest(id) => s.(queue := s.queue + [id])
    case SetResult(id, res, seconds) => s.(results := s.results[id := res], ttl := s.ttl[ResultKey(id) := seconds])
    case InsertRows(rows) => s.(analysis := s.analysis + rows)
    case DeleteInput(id) => s.(inputs := s.inputs - {id}, ttl := s.ttl - {InputKey(id)})
  }

  function RunSo(s: SoStore, ws: seq<SoWrite>): SoStore
    decreases |ws|
  {
    if |ws| == 0 then s else RunSo(ApplySo(s, ws[0]), ws[1..])
  }

  /** A key's expiry running out, as an explicit event. */
  function ExpireSo(s: SoStore, k: SoKey): SoStore {
    match k
    case InputKey(id) => s.(inputs := s.inputs - {id}, ttl := s.ttl - {k})
    case ResultKey(id) => s.(results := s.results - {id}, ttl := s.ttl - {k})
  }

  // ---------------------------------------------------------------------
  // POST /so/validate
  // ---------------------------------------------------------------------

  /** `validate_so` (the handler): the request id is a parameter (its
      generator is not part of this model). The input is stored with a
      five-minute expiry, then the id is queued. */
  function SubmitSo(requestId: string, input: SoInput): (r: (string, seq<SoWrite>))
    ensures r.0 == requestId
    ensures r.1 == [SetInput(requestId, input, INPUT_TTL), PushRequest(requestId)]
  {
    (requestId, [SetInput(requestId, input, INPUT_TTL), PushRequest(requestId)])
  }

  // ---------------------------------------------------------------------
  // Worker
  // ---------------------------------------------------------------------

  /** The analysis row for one result and the quantity at its position. */
  function RowFor(requestId: string, res: ItemResult, qty: real): (r: AnalysisRow)
    ensures r.requestId == requestId && r.quantity == qty
  {
    match res
    case ItemError(p, m) => AnalysisRow(requestId, Some(p), qty, None, ERROR_STATUS, m)
    case Checked(p, w, _, _, _, st, m) => AnalysisRow(requestId, Some(p), qty, Some(w), st, m)
    case JobError(m) => AnalysisRow(requestId, None, qty, None, ERROR_STATUS, m)
  }

  /** `zip(results, quantities)`: row i pairs result i with quantity i. */
  function Rows(requestId: string, results: seq<ItemResult>, quantities: seq<real>): (rows: seq<AnalysisRow>)
    ensures |rows| == Min(|results|, |quantities|)
    ensures forall i :: 0 <= i < |rows| ==> rows[i] == RowFor(requestId, results[i], quantities[i])
  {
    if |results| == 0 || |quantities| == 0 then []
    else [RowFor(requestId, results[0], quantities[0])] + Rows(requestId, results[1..], quantities[1..])
  }

  /** The writes of a successful validation: cache the results, insert
      the rows unless the database step raised, then delete the input. */
  function SuccessWrites(requestId: string, results: seq<ItemResult>, quantities: seq<real>, dbFailure: Option<string>): seq<SoWrite> {
    [SetResult(requestId, results, RESULT_TTL)]
    + (if dbFailure.None? then [InsertRows(Rows(requestId, results, quantities))] else [])
    + [DeleteInput(requestId)]
  }

  /** `process_so_job(request_id)`. `initError` is an exception raised by
      the LLM client set-up at the start of `validate_so`, before any item;
      `dbFailure` an exception of the database step. */
  method ProcessSoJob(s: SoStore, requestId: string, o: Oracles, initError: Option<string>, dbFailure: Option<string>)
    returns (ws: seq<SoWrite>, results: seq<ItemResult>)
    ensures requestId !in s.inputs ==> ws == []
    ensures requestId in s.inputs && initError.Some? ==>
      ws == [SetResult(requestId, [JobError(initError.value)], RESULT_TTL)]
    ensures requestId in s.inputs && initError.None? ==>
      var input := s.inputs[requestId];
      && |results| == Min3(|input.productIds|, |input.quantities|, |input.weights|)
      && (forall i :: 0 <= i < |results| ==>
            results[i] == ValidateItem(i, input.productIds[i], input.quantities[i], input.weights[i], o).0)
      && ws == SuccessWrites(requestId, results, input.quantities, dbFailure)
  {
    ws := [];
    results := [];
    match Get(s.inputs, requestId)
    case None =>
    case Some(input) =>
      if initError.Some? {
        results := [JobError(initError.value)];
        ws := [SetResult(requestId, results, RESULT_TTL)];
      } else {
        var prompts;
        results, prompts := ValidateSo(input.productIds, input.quantities, input.weights, o);
        ws := SuccessWrites(requestId, results, input.quantities, dbFailure);
      }
  }

  // ---------------------------------------------------------------------
  // GET /so/results/{request_id}
  // ---------------------------------------------------------------------

  datatype SoReply =
    | FromDatabase(rows: seq<AnalysisRow>)      // 200 "Results retrieved from database"
    | FromCache(results: seq<ItemResult>)       // 200 "Results retrieved from cache"
    | InProgress(code: nat, message: string)    // 202
    | Missing(code: nat, message: string)       // 404
    | Failure(message: string)                  // 500, str(e)

  function ForRequest(requestId: string): AnalysisRow -> bool {
    (r: AnalysisRow) => r.requestId == requestId
  }

  /** The `so_validation_analysis` rows of one request, in storage order. */
  function RowsOf(s: SoStore, requestId: string): seq<AnalysisRow> {
    Filter(s.analysis, ForRequest(requestId))
  }

  /** `get_so_results`: the analysis table first, then the cached result,
      then "in progress" while the input is still there, else 404.
      `dbFailure` is an exception of the database read. */
  function GetSoResults(s: SoStore, requestId: string, dbFailure: Option<string>): (r: SoReply)
    ensures dbFailure.Some? <==> r.Failure?
    ensures r.FromDatabase? ==> |r.rows| > 0 && forall i :: 0 <= i < |r.rows| ==> r.rows[i].requestId == requestId
    ensures r.FromCache? ==> requestId in s.results && r.results == s.results[requestId]
    ensures r.InProgress? ==> r.code == 202 && requestId in s.inputs && requestId !in s.results
    ensures r.Missing? ==> r.code == 404 && requestId !in s.inputs && requestId !in s.results
  {
    if dbFailure.Some? then Failure(dbFailure.value)
    else
      var rows := RowsOf(s, requestId);
      if |rows| > 0 then FromDatabase(rows)
      else match Get(s.results, requestId)
        case Some(res) => FromCache(res)
        case None =>
          if requestId in s.inputs then InProgress(202, IN_PROGRESS_MESSAGE)
          else Missing(404, EXPIRED_MESSAGE)
  }

  // ---------------------------------------------------------------------
  // Properties
  // ---------------------------------------------------------------------

  /** Submitting stores the input with a 300 s expiry and queues the id
      last; nothing else changes. */
  lemma SubmitEffect(s: SoStore, requestId: string, input: SoInput)
    ensures var t := RunSo(s, SubmitSo(requestId, input).1);
      && t.inputs == s.inputs[requestId := input]
      && t.ttl == s.ttl[InputKey(requestId) := INPUT_TTL]
      && t.queue == s.queue + [requestId]
      && t.results == s.results && t.analysis == s.analysis
  {
    var ws := SubmitSo(requestId, input).1;
    var s1 := ApplySo(s, ws[0]);
    assert ws[1..] == [ws[1]];
    assert RunSo(s1, [ws[1]]) == ApplySo(s1, ws[1]);
  }

  /** Right after submission, with nothing yet stored for the id, the
      read-back answers 202 "in progress". */
  lemma PendingAfterSubmit(s: SoStore, requestId: string, input: SoInput)
    requires requestId !in s.results && |RowsOf(s, requestId)| == 0
    ensures GetSoResults(RunSo(s, SubmitSo(requestId, input).1), requestId, None)
         == InProgress(202, IN_PROGRESS_MESSAGE)
  {
    SubmitEffect(s, requestId, input);
  }

  /** Database rows win over the cache. */
  lemma DatabaseFirst(s: SoStore, requestId: string)
    requires |RowsOf(s, requestId)| > 0
    ensures GetSoResults(s, requestId, None) == FromDatabase(RowsOf(s, requestId))
  {
  }

  /** Once the input has expired and no result was stored, the read-back
      answers 404. */
  lemma ExpiredInputNotFound(s: SoStore, requestId: string)
    requires requestId !in s.results && |RowsOf(s, requestId)| == 0
    ensures GetSoResults(ExpireSo(s, InputKey(requestId)), requestId, None) == Missing(404, EXPIRED_MESSAGE)
  {
    var t := ExpireSo(s, InputKey(requestId));
    assert t.analysis == s.analysis;
  }

  /** A successful run caches the results for an hour, adds one row per
      zipped pair when the database step succeeded (none otherwise), and
      deletes the input in both cases. */
  lemma SuccessEffect(s: SoStore, requestId: string, results: seq<ItemResult>, quantities: seq<real>, dbFailure: Option<string>)
    ensures var t := RunSo(s, SuccessWrites(requestId, results, quantities, dbFailure));
      && t.results == s.results[requestId := results]
      && ResultKey(requestId) in t.ttl && t.ttl[ResultKey(requestId)] == RESULT_TTL
      && t.inputs == s.inputs - {requestId}
      && InputKey(requestId) !in t.ttl
      && (dbFailure.None? ==> t.analysis == s.analysis + Rows(requestId, results, quantities))
      && (dbFailure.Some? ==> t.analysis == s.analysis)
      && t.queue == s.queue
  {
    var ws := SuccessWrites(requestId, results, quantities, dbFailure);
    var s1 := ApplySo(s, ws[0]);
    if dbFailure.None? {
      var s2 := ApplySo(s1, ws[1]);
      assert ws[1..][1..] == [ws[2]];
      assert RunSo(s2, [ws[2]]) == ApplySo(s2, ws[2]);
      assert RunSo(s, ws) == RunSo(s2, [ws[2]]);
    } else {
      assert ws[1..] == [ws[1]];
      assert RunSo(s1, [ws[1]]) == ApplySo(s1, ws[1]);
    }
  }

  /** End to end with the insert raising but the later read working (a
      database that was briefly unreachable, say): after the worker's
      writes the read-back serves the cached results. As written, the read
      raises too; see `ResultsNeverServedAsWritten`. */
  lemma CachedResultsServed(s: SoStore, requestId: string, results: seq<ItemResult>, quantities: seq<real>, e: string)
    requires |RowsOf(s, requestId)| == 0
    ensures GetSoResults(RunSo(s, SuccessWrites(requestId, results, quantities, Some(e))), requestId, None)
         == FromCache(results)
  {
    SuccessEffect(s, requestId, results, quantities, Some(e));
  }

  /** The failure result replaces any cached one and keeps the input. */
  lemma FailureKeepsInput(s: SoStore, requestId: string, e: string)
    ensures var t := RunSo(s, [SetResult(requestId, [JobError(e)], RESULT_TTL)]);
      && requestId in t.results && t.results[requestId] == [JobError(e)]
      && t.inputs == s.inputs
      && GetSoResults(t, requestId, None) == (if |RowsOf(s, requestId)| > 0 then FromDatabase(RowsOf(s, requestId)) else FromCache([JobError(e)]))
  {
    var ws := [SetResult(requestId, [JobError(e)], RESULT_TTL)];
    assert ws[1..] == [];
    assert RunSo(s, ws) == ApplySo(s, ws[0]);
  }

  // ---------------------------------------------------------------------
  // The `db_config` argument
  // ---------------------------------------------------------------------

  /** The text of the `TypeError` Python raises when `get_db_cursor`, which
      takes only `commit`, is called with a `db_config` keyword. */
  const DB_CONFIG_ERROR: string := "get_db_cursor() got an unexpected keyword argument 'db_config'"

  /** As written, both the worker's insert and `get_so_results`' read call
      `get_db_cursor(..., db_config=get_db_config())`, so both raise: a
      validation that ran to the end has its results cached, and the
      read-back still answers with the exception's text. */
  lemma ResultsNeverServedAsWritten(s: SoStore, requestId: string, results: seq<ItemResult>, quantities: seq<real>)
    ensures var t := RunSo(s, SuccessWrites(requestId, results, quantities, Some(DB_CONFIG_ERROR)));
      && requestId in t.results && t.results[requestId] == results
      && GetSoResults(t, requestId, Some(DB_CONFIG_ERROR)) == Failure(DB_CONFIG_ERROR)
  {
    SuccessEffect(s, requestId, results, quantities, Some(DB_CONFIG_ERROR));
  }

  /** With the intended `get_db_cursor(commit=...)` calls neither step
      raises: a run for a request with no earlier rows stores one row per
      zipped pair, and the read-back serves exactly those rows, or the
      cached results when the zip is empty. */
  lemma StoredResultsServed(s: SoStore, requestId: string, results: seq<ItemResult>, quantities: seq<real>)
    requires |RowsOf(s, requestId)| == 0
    ensures var t := RunSo(s, SuccessWrites(requestId, results, quantities, None));
      var rows := Rows(requestId, results, quantities);
      GetSoResults(t, requestId, None) == if |rows| > 0 then FromDatabase(rows) else FromCache(results)
  {
    var rows := Rows(requestId, results, quantities);
    var t := RunSo(s, SuccessWrites(requestId, results, quantities, None));
    SuccessEffect(s, requestId, results, quantities, None);
    assert RowsOf(t, requestId) == rows by {
      assert t.analysis == s.analysis + rows;
      FilterAppend(s.analysis, rows, ForRequest(requestId));
      forall i | 0 <= i < |rows| ensures ForRequest(requestId)(rows[i]) {
        assert rows[i] == RowFor(requestId, results[i], quantities[i]);
      }
      FilterAll(rows, ForRequest(requestId));
    }
  }
}

=== FILE: so_validation.dfy ===
/** `SOValidationService.validate_so` (src/services/so_validation.py): the
    per-item fan-out over a sales order, with the product lookup, one LLM
    call per found product, extraction of the JSON object from the reply
    and per-item error isolation.

    The item-master lookup, the LLM and `json.loads` are oracles: the
    lookup answers per product id (an exception, no row, or the row), the
    LLM per item position and prompt, and the parser either yields the
    decoded object's string fields or fails (which also covers a reply that
    decodes to something other than an object). */
module SoValidation {
  import opened Wrappers
  import opened Text
  import opened Sorting

  const INVALID: string := "invalid"
  const ERROR_STATUS: string := "error"

  /** The `item_master` columns read for a product; NULL is `None`. */
  datatype ProductRow = ProductRow(gsm: Option<real>, sheets: Option<real>, grossWeight: Option<real>, name: Option<string>)

  /** What the prompt is built from (its wording is not modelled). */
  datatype Prompt = Prompt(name: Option<string>, gsm: Option<real>, sheets: Option<real>,
                           expected: Option<real>, qty: real, weight: real)

  /** One entry of the result list. */
  datatype ItemResult =
    | ItemError(productId: int, message: string)          // {"product_id", "status": "error", "message"}
    | Checked(productId: int, userWeight: real, actualWeight: Option<real>,
              gsm: Option<real>, sheets: Option<int>, status: string, message: string)
    | JobError(message: string)                           // the worker's [{"status": "error", ...}]

  /** The oracles of one run. */
  datatype Oracles = Oracles(
    lookup: int -> Result<Option<ProductRow>>,
    llm: (nat, Prompt) -> Result<string>,
    parse: string -> Option<map<string, string>>)

  function NotFoundMessage(p: int): string {
    "Product ID " + IntToString(p) + " not found."
  }

  /** Python truthiness of a numeric column: NULL and zero are falsy. */
  predicate Truthy(v: Option<real>) {
    v.Some? && v.value != 0.0
  }

  /** `int(x)`: truncation toward zero. */
  function Trunc(x: real): (r: int)
    ensures 0.0 <= x ==> r as real <= x < r as real + 1.0
    ensures x < 0.0 ==> r as real - 1.0 < x <= r as real
  {
    if x >= 0.0 then x.Floor else -((-x).Floor)
  }

  /** `float(v) if v else None`. */
  function FloatOrNone(v: Option<real>): (r: Option<real>)
    ensures r.None? <==> !Truthy(v)
    ensures r.Some? ==> r == v
  {
    if Truthy(v) then v else None
  }

  /** `int(v) if v else None`. */
  function IntOrNone(v: Option<real>): (r: Option<int>)
    ensures r.None? <==> !Truthy(v)
    ensures r.Some? ==> r.value == Trunc(v.value)
  {
    if Truthy(v) then Some(Trunc(v.value)) else None
  }

  /** The JSON candidate: from the first `{` to the last `}` inclusive of
      the stripped reply, with Python's slice rules; None when either brace
      is missing. */
  function Candidate(clean: string): (r: Option<string>)
    ensures r.Some? <==> '{' in clean && '}' in clean
    ensures r.Some? ==>
      var start := IndexOf(clean, '{').value;
      var end := LastIndexOf(clean, '}').value;
      && (start < end ==> r.value == clean[start..end + 1])
      && (end < start ==> r.value == "")
  {
    match (IndexOf(clean, '{'), LastIndexOf(clean, '}'))
    case (Some(start), Some(end)) => Some(Slice(clean, start, end + 1))
    case _ => None
  }

  /** Status and message from an LLM reply: both default to "invalid" and
      the raw reply, and are read from the decoded object when there is
      one. */
  function ReadReply(reply: string, parse: string -> Option<map<string, string>>): (r: (string, string))
    ensures Candidate(Strip(reply)).None? ==> r == (INVALID, reply)
    ensures Candidate(Strip(reply)).Some? && parse(Candidate(Strip(reply)).value).None? ==> r == (INVALID, reply)
    ensures Candidate(Strip(reply)).Some? && parse(Candidate(Strip(reply)).value).Some? ==>
      var obj := parse(Candidate(Strip(reply)).value).value;
      && r.0 == Get(obj, "status").GetOr(INVALID)
      && r.1 == Get(obj, "message").GetOr(reply)
  {
    match Candidate(Strip(reply))
    case None => (INVALID, reply)
    case Some(c) =>
      match parse(c)
      case None => (INVALID, reply)
      case Some(obj) => (Get(obj, "status").GetOr(INVALID), Get(obj, "message").GetOr(reply))
  }

  function PromptFor(row: ProductRow, qty: real, weight: real): Prompt {
    Prompt(row.name, row.gsm, row.sheets, row.grossWeight, qty, weight)
  }

  /** One loop iteration for item `i`: its result, and the prompt sent to
      the LLM if one was sent. */
  function ValidateItem(i: nat, p: int, qty: real, weight: real, o: Oracles): (r: (ItemResult, Option<Prompt>))
    ensures r.0.ItemError? || r.0.Checked?
    ensures r.0.productId == p
    ensures o.lookup(p).Ok? && o.lookup(p).value.None? ==> r == (ItemError(p, NotFoundMessage(p)), None)
    ensures o.lookup(p).Err? ==> r == (ItemError(p, o.lookup(p).message), None)
    ensures r.1.Some? <==> o.lookup(p).Ok? && o.lookup(p).value.Some?
    ensures o.lookup(p).Ok? && o.lookup(p).value.Some? ==>
      var row := o.lookup(p).value.value;
      var prompt := PromptFor(row, qty, weight);
      && r.1 == Some(prompt)
      && (o.llm(i, prompt).Err? ==> r.0 == ItemError(p, o.llm(i, prompt).message))
      && (o.llm(i, prompt).Ok? ==>
            var (status, message) := ReadReply(o.llm(i, prompt).value, o.parse);
            r.0 == Checked(p, weight, FloatOrNone(row.grossWeight), FloatOrNone(row.gsm), IntOrNone(row.sheets),
                           status, message))
  {
    match o.lookup(p)
    case Err(e) => (ItemError(p, e), None)
    case Ok(None) => (ItemError(p, NotFoundMessage(p)), None)
    case Ok(Some(row)) =>
      var prompt := PromptFor(row, qty, weight);
      match o.llm(i, prompt)
      case Err(e) => (ItemError(p, e), Some(prompt))
      case Ok(reply) =>
        var (status, message) := ReadReply(reply, o.parse);
        (Checked(p, weight, FloatOrNone(row.grossWeight), FloatOrNone(row.gsm), IntOrNone(row.sheets), status, message),
         Some(prompt))
  }

  function Min3(a: nat, b: nat, c: nat): nat {
    Min(Min(a, b), c)
  }

  /** The prompts sent for the first `n` positions, in order. */
  function SentPrompts(productIds: seq<int>, quantities: seq<real>, weights: seq<real>, o: Oracles, n: nat): seq<Prompt>
    requires n <= |productIds| && n <= |quantities| && n <= |weights|
  {
    if n == 0 then []
    else
      var sent := ValidateItem(n - 1, productIds[n - 1], quantities[n - 1], weights[n - 1], o).1;
      SentPrompts(productIds, quantities, weights, o, n - 1) + (if sent.Some? then [sent.value] else [])
  }

  lemma SentPromptsStep(productIds: seq<int>, quantities: seq<real>, weights: seq<real>, o: Oracles, i: nat)
    requires i < |productIds| && i < |quantities| && i < |weights|
    ensures var sent := ValidateItem(i, productIds[i], quantities[i], weights[i], o).1;
      SentPrompts(productIds, quantities, weights, o, i + 1)
        == SentPrompts(productIds, quantities, weights, o, i) + (if sent.Some? then [sent.value] else [])
  {
  }

  /** `validate_so`: `zip` over the three lists, one result per position;
      an exception in one item is recorded for that item and the loop goes
      on. Also returns the prompts sent, in order. */
  method ValidateSo(productIds: seq<int>, quantities: seq<real>, weights: seq<real>, o: Oracles)
    returns (results: seq<ItemResult>, prompts: seq<Prompt>)
    ensures |results| == Min3(|productIds|, |quantities|, |weights|)
    ensures forall i :: 0 <= i < |results| ==>
      results[i] == ValidateItem(i, productIds[i], quantities[i], weights[i], o).0
    ensures prompts == SentPrompts(productIds, quantities, weights, o, |results|)
  {
    var n := Min3(|productIds|, |quantities|, |weights|);
    results := [];
    prompts := [];
    var i := 0;
    while i < n
      invariant 0 <= i <= n
      invariant |results| == i
      invariant forall j :: 0 <= j < i ==> results[j] == ValidateItem(j, productIds[j], quantities[j], weights[j], o).0
      invariant prompts == SentPrompts(productIds, quantities, weights, o, i)
    {
      var step := ValidateItem(i, productIds[i], quantities[i], weights[i], o);
      SentPromptsStep(productIds, quantities, weights, o, i);
      results := results + [step.0];
      if step.1.Some? {
        prompts := prompts + [step.1.value];
      }
      i := i + 1;
    }
  }

  /** The lookup of `p` returned a row. */
  predicate Found(o: Oracles, p: int) {
    o.lookup(p).Ok? && o.lookup(p).value.Some?
  }

  /** The positions below `n` whose lookup returned a row. */
  function FoundBelow(productIds: seq<int>, o: Oracles, n: nat): set<nat>
    requires n <= |productIds|
  {
    set i: nat | i < n && Found(o, productIds[i])
  }

  /** One prompt per found product and none for the others: the number of
      LLM calls is the number of positions whose lookup returned a row. */
  lemma {:induction false} PromptsForFoundProducts(productIds: seq<int>, quantities: seq<real>, weights: seq<real>, o: Oracles, n: nat)
    requires n <= |productIds| && n <= |quantities| && n <= |weights|
    ensures |SentPrompts(productIds, quantities, weights, o, n)| == |FoundBelow(productIds, o, n)|
  {
    if n > 0 {
      var last := n - 1;
      PromptsForFoundProducts(productIds, quantities, weights, o, last);
      var before := FoundBelow(productIds, o, last);
      var found := FoundBelow(productIds, o, n);
      var sent := ValidateItem(last, productIds[last], quantities[last], weights[last], o).1;
      assert |SentPrompts(productIds, quantities, weights, o, n)|
          == |SentPrompts(productIds, quantities, weights, o, last)| + (if sent.Some? then 1 else 0);
      if Found(o, productIds[last]) {
        assert found == before + {last};
        assert last !in before;
      } else {
        assert found == before;
      }
    } else {
      assert FoundBelow(productIds, o, n) == {};
    }
  }

  // ---------------------------------------------------------------------
  // Properties
  // ---------------------------------------------------------------------

  /** The candidate is a brace-delimited substring of the stripped reply:
      it begins at the first `{`, ends at the last `}`, and nothing outside
      it is a `{` before it or a `}` after it. */
  lemma CandidateIsOutermostBraces(clean: string)
    requires '{' in clean && '}' in clean
    requires IndexOf(clean, '{').value < LastIndexOf(clean, '}').value
    ensures var c := Candidate(clean).value;
      && |c| >= 2 && c[0] == '{' && c[|c| - 1] == '}'
      && (exists a :: 0 <= a <= |clean| - |c| && clean[a..a + |c|] == c
            && '{' !in clean[..a] && '}' !in clean[a + |c|..])
  {
    var start := IndexOf(clean, '{').value;
    var end := LastIndexOf(clean, '}').value;
    var c := Candidate(clean).value;
    assert c == clean[start..end + 1];
    assert clean[start..start + |c|] == c;
  }

  /** A reply with no braces, or whose candidate does not decode, is
      "invalid" with the raw reply as message, whatever the parser does
      with other text. */
  lemma UnparsedReplyIsInvalid(reply: string, parse: string -> Option<map<string, string>>)
    requires '{' !in Strip(reply) || '}' !in Strip(reply) || parse(Candidate(Strip(reply)).value).None?
    ensures ReadReply(reply, parse) == (INVALID, reply)
  {
  }

  /** A decoded object missing both fields falls back to the defaults; one
      carrying them is taken as is. */
  lemma DecodedReplyFields(reply: string, parse: string -> Option<map<string, string>>, st: string, msg: string)
    requires Candidate(Strip(reply)).Some?
    ensures parse(Candidate(Strip(reply)).value) == Some(map[]) ==> ReadReply(reply, parse) == (INVALID, reply)
    ensures parse(Candidate(Strip(reply)).value) == Some(map["status" := st, "message" := msg]) ==>
      ReadReply(reply, parse) == (st, msg)
  {
  }

  /** Error isolation: an item's result depends only on that item; a
      failure at one position leaves every other position as it would
      have been. */
  lemma ItemsAreIndependent(i: nat, p: int, qty: real, weight: real, o: Oracles, o2: Oracles)
    requires o.lookup(p) == o2.lookup(p)
    requires forall pr :: o.llm(i, pr) == o2.llm(i, pr)
    requires o.parse == o2.parse
    ensures ValidateItem(i, p, qty, weight, o) == ValidateItem(i, p, qty, weight, o2)
  {
  }

  /** A product missing from the item master yields the not-found error
      and no LLM call, whatever the LLM would have answered. */
  lemma MissingProductNoCall(i: nat, p: int, qty: real, weight: real, o: Oracles)
    requires o.lookup(p) == Ok(None)
    ensures ValidateItem(i, p, qty, weight, o) == (ItemError(p, NotFoundMessage(p)), None)
  {
  }
}

=== FILE: sorting.dfy ===
/** Ordering, filtering and paging of query results: the `ORDER BY`,
    `WHERE` and `LIMIT/OFFSET` clauses of the source's SQL and Python's
    `sorted(..., key=...)`. Tables are sequences of rows in storage order. */
module Sorting {

  ghost predicate SortedBy<T>(s: seq<T>, key: T -> int) {
    forall i, j :: 0 <= i < j < |s| ==> key(s[i]) <= key(s[j])
  }

  /** Places `x` after every element whose key is not larger, so equal keys
      keep their arrival order (Python's sort is stable). */
  function Insert<T>(x: T, s: seq<T>, key: T -> int): (r: seq<T>)
    requires SortedBy(s, key)
    ensures SortedBy(r, key)
    ensures multiset(r) == multiset(s) + multiset{x}
    ensures |r| == |s| + 1
    ensures forall k :: 0 <= k < |r| ==> r[k] == x || r[k] in s
  {
    if |s| == 0 then [x]
    else if key(s[0]) <= key(x) then
      var t := Insert(x, s[1..], key);
      InsertStep(x, s, t, key);
      [s[0]] + t
    else
      ConsSorted(x, s, key);
      [x] + s
  }

  lemma ConsSorted<T>(a: T, t: seq<T>, key: T -> int)
    requires SortedBy(t, key)
    requires forall k :: 0 <= k < |t| ==> key(a) <= key(t[k])
    ensures SortedBy([a] + t, key)
  {
    forall i, j | 0 <= i < j < |[a] + t| ensures key(([a] + t)[i]) <= key(([a] + t)[j]) {
      if i > 0 {
        assert ([a] + t)[i] == t[i - 1];
      }
      assert ([a] + t)[j] == t[j - 1];
    }
  }

  /** The step case of `Insert`: `s[0]` stays in front of the recursive result. */
  lemma InsertStep<T>(x: T, s: seq<T>, t: seq<T>, key: T -> int)
    requires |s| > 0 && SortedBy(s, key) && key(s[0]) <= key(x)
    requires SortedBy(t, key)
    requires multiset(t) == multiset(s[1..]) + multiset{x}
    requires forall k :: 0 <= k < |t| ==> t[k] == x || t[k] in s[1..]
    ensures SortedBy([s[0]] + t, key)
    ensures multiset([s[0]] + t) == multiset(s) + multiset{x}
    ensures forall k :: 0 <= k < |[s[0]] + t| ==> ([s[0]] + t)[k] == x || ([s[0]] + t)[k] in s
  {
    assert s == [s[0]] + s[1..];
    forall k | 0 <= k < |t| ensures key(s[0]) <= key(t[k]) {
      if t[k] != x {
        var j :| 0 <= j < |s[1..]| && s[1..][j] == t[k];
        assert s[j + 1] == t[k];
      }
    }
    ConsSorted(s[0], t, key);
    forall k | 0 <= k < |[s[0]] + t| ensures ([s[0]] + t)[k] == x || ([s[0]] + t)[k] in s {
      if k > 0 {
        assert ([s[0]] + t)[k] == t[k - 1];
      }
    }
  }

  /** `sorted(xs, key=key)`: ascending by key, same elements. */
  function SortBy<T>(xs: seq<T>, key: T -> int): (r: seq<T>)
    ensures SortedBy(r, key)
    ensures multiset(r) == multiset(xs)
    ensures |r| == |xs|
  {
    if |xs| == 0 then []
    else
      assert xs == xs[..|xs| - 1] + [xs[|xs| - 1]];
      Insert(xs[|xs| - 1], SortBy(xs[..|xs| - 1], key), key)
  }

  /** The rows of `xs` satisfying `p`, in storage order (a `WHERE` clause). */
  function Filter<T>(xs: seq<T>, p: T -> bool): (r: seq<T>)
    ensures |r| <= |xs|
    ensures forall i :: 0 <= i < |r| ==> p(r[i])
    ensures forall i :: 0 <= i < |r| ==> r[i] in xs
    ensures forall i :: 0 <= i < |xs| && p(xs[i]) ==> xs[i] in r
  {
    if |xs| == 0 then []
    else
      assert xs == xs[..|xs| - 1] + [xs[|xs| - 1]];
      var r := Filter(xs[..|xs| - 1], p);
      if p(xs[|xs| - 1]) then r + [xs[|xs| - 1]] else r
  }

  /** The elements whose key is `k`. */
  function HasKey<T>(key: T -> int, k: int): T -> bool {
    (x: T) => key(x) == k
  }

  /** `Filter` of a sequence with one element in front. */
  lemma {:induction false} FilterCons<T>(x: T, xs: seq<T>, p: T -> bool)
    ensures Filter([x] + xs, p) == (if p(x) then [x] else []) + Filter(xs, p)
    decreases |xs|
  {
    if |xs| > 0 {
      var init := xs[..|xs| - 1];
      var last := xs[|xs| - 1];
      assert ([x] + xs)[..|xs|] == [x] + init;
      FilterCons(x, init, p);
      var front := if p(x) then [x] else [];
      if p(last) {
        assert Filter([x] + xs, p) == front + Filter(init, p) + [last];
      }
    }
  }

  /** Inserting `x` changes the elements with key `k` only when `x` has
      that key, and then adds it behind the others. */
  lemma {:induction false} InsertFilter<T>(x: T, s: seq<T>, key: T -> int, k: int)
    requires SortedBy(s, key)
    ensures Filter(Insert(x, s, key), HasKey(key, k))
         == Filter(s, HasKey(key, k)) + (if key(x) == k then [x] else [])
    decreases |s|, 1
  {
    var p := HasKey(key, k);
    var extra := if key(x) == k then [x] else [];
    if |s| == 0 {
      FilterCons(x, [], p);
      assert Filter(Insert(x, s, key), p) == extra;
    } else if key(s[0]) <= key(x) {
      InsertFilterBehind(x, s, key, k);
    } else {
      assert Filter(Insert(x, s, key), p) == Filter(s, p) + extra by {
        assert Insert(x, s, key) == [x] + s;
        FilterCons(x, s, p);
        if key(x) == k {
          forall i | 0 <= i < |s| ensures !p(s[i]) {
            if i > 0 {
              assert key(s[0]) <= key(s[i]);
            }
          }
          FilterNone(s, p);
        }
      }
    }
  }

  /** The step of `InsertFilter` where `x` goes behind `s[0]`. */
  lemma {:induction false} InsertFilterBehind<T>(x: T, s: seq<T>, key: T -> int, k: int)
    requires SortedBy(s, key) && |s| > 0 && key(s[0]) <= key(x)
    ensures Filter(Insert(x, s, key), HasKey(key, k))
         == Filter(s, HasKey(key, k)) + (if key(x) == k then [x] else [])
    decreases |s|, 0
  {
    var p := HasKey(key, k);
    var extra := if key(x) == k then [x] else [];
    var front := if p(s[0]) then [s[0]] else [];
    var tail := Insert(x, s[1..], key);
    assert Filter(Insert(x, s, key), p) == front + Filter(tail, p) by {
      assert Insert(x, s, key) == [s[0]] + tail;
      FilterCons(s[0], tail, p);
    }
    assert Filter(tail, p) == Filter(s[1..], p) + extra by {
      InsertFilter(x, s[1..], key, k);
    }
    assert Filter(s, p) == front + Filter(s[1..], p) by {
      assert s == [s[0]] + s[1..];
      FilterCons(s[0], s[1..], p);
    }
    SeqAssoc(front, Filter(s[1..], p), extra);
  }

  /** `Filter` distributes over concatenation. */
  lemma {:induction false} FilterAppend<T>(xs: seq<T>, ys: seq<T>, p: T -> bool)
    ensures Filter(xs + ys, p) == Filter(xs, p) + Filter(ys, p)
    decreases |ys|
  {
    if |ys| == 0 {
      assert xs + ys == xs;
    } else {
      var init := ys[..|ys| - 1];
      var last := ys[|ys| - 1];
      assert (xs + ys)[..|xs + ys| - 1] == xs + init;
      FilterAppend(xs, init, p);
      if p(last) {
        SeqAssoc(Filter(xs, p), Filter(init, p), [last]);
      }
    }
  }

  /** Every element satisfies `p`, so `Filter` keeps them all. */
  lemma {:induction false} FilterAll<T>(xs: seq<T>, p: T -> bool)
    requires forall i :: 0 <= i < |xs| ==> p(xs[i])
    ensures Filter(xs, p) == xs
    decreases |xs|
  {
    if |xs| > 0 {
      FilterAll(xs[..|xs| - 1], p);
      assert xs == xs[..|xs| - 1] + [xs[|xs| - 1]];
    }
  }

  /** No element satisfies `p`, so `Filter` keeps nothing. */
  lemma FilterNone<T>(xs: seq<T>, p: T -> bool)
    requires forall i :: 0 <= i < |xs| ==> !p(xs[i])
    ensures Filter(xs, p) == []
  {
  }

  lemma SeqAssoc<T>(a: seq<T>, b: seq<T>, c: seq<T>)
    ensures a + (b + c) == a + b + c
  {
  }

  /** `SortBy` is stable, as Python's `sorted` is: the elements sharing a
      key keep the order they had in the input. */
  lemma {:induction false} SortByStable<T>(xs: seq<T>, key: T -> int, k: int)
    ensures Filter(SortBy(xs, key), HasKey(key, k)) == Filter(xs, HasKey(key, k))
    decreases |xs|
  {
    if |xs| > 0 {
      var init := xs[..|xs| - 1];
      SortByStable(init, key, k);
      InsertFilter(xs[|xs| - 1], SortBy(init, key), key, k);
    }
  }

  function Min(a: int, b: int): int { if a <= b then a else b }

  /** `LIMIT limit OFFSET offset`. */
  function Page<T>(xs: seq<T>, limit: nat, offset: nat): (r: seq<T>)
    ensures |r| == Min(limit, if offset <= |xs| then |xs| - offset else 0)
    ensures forall i :: 0 <= i < |r| ==> r[i] == xs[offset + i]
  {
    var lo := Min(offset, |xs|);
    var hi := Min(offset + limit, |xs|);
    xs[lo..hi]
  }
}

=== FILE: sql_update.dfy ===
/** The dynamic `UPDATE` builder shared by `MessageService.update_message`,
    `ConversationService.update_conversation` and
    `WhatsAppService.update_message` (src/services/): one `col = %s`
    fragment per supplied field in a fixed order, the values in the same
    order, and the row id appended last for `WHERE id = %s`. */
module SqlUpdate {
  import opened Wrappers
  import opened Text

  /** A query parameter. */
  datatype Param = PStr(s: string) | PInt(i: int) | PJson(text: string)

  /** A candidate field: its column and the value to write, if supplied
      (`is not None`). */
  datatype Field = Field(column: string, value: Option<Param>)

  /** `UPDATE table SET <columns[i] = %s>, ... WHERE id = %s` with `params`. */
  datatype UpdateQuery = UpdateQuery(table: string, columns: seq<string>, params: seq<Param>)

  /** The supplied fields, in order. */
  function Supplied(fields: seq<Field>): (r: seq<Field>)
    ensures |r| <= |fields|
    ensures forall i :: 0 <= i < |r| ==> r[i].value.Some?
    ensures (forall i :: 0 <= i < |fields| ==> fields[i].value.None?) <==> |r| == 0
    ensures forall f :: f in r <==> f in fields && f.value.Some?
    ensures |fields| == 1 ==> r == (if fields[0].value.Some? then fields else [])
    decreases |fields|
  {
    if |fields| == 0 then []
    else
      var rest := Supplied(fields[1..]);
      assert forall i :: 1 <= i < |fields| ==> fields[1..][i - 1] == fields[i];
      assert forall f :: f in fields <==> f == fields[0] || f in fields[1..];
      if fields[0].value.Some? then [fields[0]] + rest else rest
  }

  /** Selecting the supplied fields keeps their order: it distributes over
      concatenation, so with the one-field case it is the order-preserving
      filter of the given fields. */
  lemma {:induction false} SuppliedAppend(a: seq<Field>, b: seq<Field>)
    ensures Supplied(a + b) == Supplied(a) + Supplied(b)
    decreases |a|
  {
    if |a| == 0 {
      assert a + b == b;
    } else {
      assert (a + b)[0] == a[0];
      assert (a + b)[1..] == a[1..] + b;
      SuppliedAppend(a[1..], b);
    }
  }

  /** `fields`/`values` building and `values.append(id)`; `None` is the
      `if not fields:` early return, where no statement is executed. */
  function BuildUpdate(table: string, fields: seq<Field>, id: int): (r: Option<UpdateQuery>)
    ensures r.None? <==> forall i :: 0 <= i < |fields| ==> fields[i].value.None?
    ensures r.Some? ==>
      var s := Supplied(fields);
      && r.value.table == table
      && |r.value.columns| == |s| && |r.value.params| == |s| + 1
      && (forall i :: 0 <= i < |s| ==> r.value.columns[i] == s[i].column && r.value.params[i] == s[i].value.value)
      && r.value.params[|s|] == PInt(id)
    ensures r.Some? ==> WellFormed(r.value) && TargetId(r.value) == id
  {
    var s := Supplied(fields);
    if |s| == 0 then None
    else
      Some(UpdateQuery(table,
                       seq(|s|, i requires 0 <= i < |s| => s[i].column),
                       seq(|s|, i requires 0 <= i < |s| => s[i].value.value) + [PInt(id)]))
  }

  /** A statement as `BuildUpdate` makes it: one value per column, then
      the id. */
  predicate WellFormed(q: UpdateQuery) {
    |q.params| == |q.columns| + 1 && q.params[|q.columns|].PInt?
  }

  /** The id in `WHERE id = %s`. */
  function TargetId(q: UpdateQuery): int
    requires WellFormed(q)
  {
    q.params[|q.columns|].i
  }

  /** The `SET` list applied to one row, left to right; `write` writes one
      column of a row. */
  function Assign<R>(row: R, columns: seq<string>, params: seq<Param>, write: (R, string, Param) -> R): R
    requires |params| >= |columns|
    decreases |columns|
  {
    if |columns| == 0 then row else Assign(write(row, columns[0], params[0]), columns[1..], params[1..], write)
  }

  /** Running the statement: the rows whose id is the target get the `SET`
      list, the others stay as they are. */
  function Execute<R>(rows: seq<R>, q: UpdateQuery, idOf: R -> int, write: (R, string, Param) -> R): (r: seq<R>)
    requires WellFormed(q)
    ensures |r| == |rows|
    ensures forall i :: 0 <= i < |rows| && idOf(rows[i]) != TargetId(q) ==> r[i] == rows[i]
    ensures forall i :: 0 <= i < |rows| && idOf(rows[i]) == TargetId(q) ==> r[i] == Assign(rows[i], q.columns, q.params, write)
  {
    seq(|rows|, i requires 0 <= i < |rows| =>
      if idOf(rows[i]) == TargetId(q) then Assign(rows[i], q.columns, q.params, write) else rows[i])
  }

  /** `f"{col} = %s"`. */
  function Assignment(column: string): string {
    column + " = %s"
  }

  function Assignments(columns: seq<string>): (r: seq<string>)
    ensures |r| == |columns|
    ensures forall i :: 0 <= i < |columns| ==> r[i] == Assignment(columns[i])
  {
    seq(|columns|, i requires 0 <= i < |columns| => Assignment(columns[i]))
  }

  /** The statement text (whitespace and the `RETURNING` list aside). */
  function QueryText(q: UpdateQuery): string {
    "UPDATE " + q.table + " SET " + Join(Assignments(q.columns), ", ") + (" WHERE id = " + "%s")
  }

  function Count(s: string, c: char): nat
    decreases |s|
  {
    if |s| == 0 then 0 else (if s[0] == c then 1 else 0) + Count(s[1..], c)
  }

  // ---------------------------------------------------------------------
  // Properties
  // ---------------------------------------------------------------------

  lemma {:induction false} CountAppend(a: string, b: string, c: char)
    ensures Count(a + b, c) == Count(a, c) + Count(b, c)
    decreases |a|
  {
    if |a| == 0 {
      assert a + b == b;
    } else {
      assert (a + b)[0] == a[0];
      assert (a + b)[1..] == a[1..] + b;
      CountAppend(a[1..], b, c);
    }
  }

  lemma {:induction false} CountAbsent(s: string, c: char)
    requires c !in s
    ensures Count(s, c) == 0
    decreases |s|
  {
    if |s| > 0 {
      CountAbsent(s[1..], c);
    }
  }

  /** Each fragment holds one placeholder and the separators none. */
  lemma {:induction false} JoinedAssignmentsCount(columns: seq<string>)
    requires forall i :: 0 <= i < |columns| ==> '%' !in columns[i]
    ensures Count(Join(Assignments(columns), ", "), '%') == |columns|
    decreases |columns|
  {
    var parts := Assignments(columns);
    if |columns| > 0 {
      CountAppend(columns[0], " = %s", '%');
      CountAbsent(columns[0], '%');
      assert Count(parts[0], '%') == 1;
      if |columns| > 1 {
        JoinedAssignmentsCount(columns[1..]);
        assert parts[1..] == Assignments(columns[1..]);
        CountAppend(parts[0] + ", ", Join(parts[1..], ", "), '%');
        CountAppend(parts[0], ", ", '%');
      }
    }
  }

  lemma HeadCount(table: string)
    requires '%' !in table
    ensures Count("UPDATE " + table + " SET ", '%') == 0
  {
    CountAppend("UPDATE " + table, " SET ", '%');
    CountAppend("UPDATE ", table, '%');
    CountAbsent(table, '%');
    CountAbsent("UPDATE ", '%');
    CountAbsent(" SET ", '%');
  }

  lemma PlaceholderCount()
    ensures Count("%s", '%') == 1
  {
    assert "%s"[1..] == "s";
    CountAbsent("s", '%');
  }

  lemma {:induction false} TailCount(a: string)
    requires '%' !in a
    ensures Count(a + "%s", '%') == 1
  {
    CountAppend(a, "%s", '%');
    CountAbsent(a, '%');
    PlaceholderCount();
  }

  /** The text holds one placeholder per assignment plus the id's. */
  lemma QueryTextCount(q: UpdateQuery)
    requires '%' !in q.table
    requires forall i :: 0 <= i < |q.columns| ==> '%' !in q.columns[i]
    ensures Count(QueryText(q), '%') == |q.columns| + 1
  {
    var head := "UPDATE " + q.table + " SET ";
    var mid := Join(Assignments(q.columns), ", ");
    HeadCount(q.table);
    TailCount(" WHERE id = ");
    JoinedAssignmentsCount(q.columns);
    CountAppend(head, mid, '%');
    CountAppend(head + mid, " WHERE id = " + "%s", '%');
  }

  /** Placeholders and values line up: the statement text holds exactly as
      many `%s` as there are parameters, the id being the last of both. */
  lemma PlaceholdersMatchParams(table: string, fields: seq<Field>, id: int)
    requires '%' !in table
    requires forall i :: 0 <= i < |fields| ==> '%' !in fields[i].column
    requires BuildUpdate(table, fields, id).Some?
    ensures var q := BuildUpdate(table, fields, id).value;
      Count(QueryText(q), '%') == |q.params| && q.params[|q.params| - 1] == PInt(id)
  {
    var q := BuildUpdate(table, fields, id).value;
    var s := Supplied(fields);
    forall i | 0 <= i < |q.columns| ensures '%' !in q.columns[i] {
      SuppliedFrom(fields, s[i]);
    }
    QueryTextCount(q);
  }

  lemma {:induction false} SuppliedFrom(fields: seq<Field>, f: Field)
    requires f in Supplied(fields)
    ensures f in fields
    decreases |fields|
  {
    if |fields| > 0 && f != fields[0] {
      SuppliedFrom(fields[1..], f);
    }
  }
}

=== FILE: sse_framing.dfy ===
/** `VLLM._stream_response` (src/agentic/llms/vllm.py): the byte-buffer
    framing of the completion stream. The code does not split the stream
    into lines as the event-stream format of the WHATWG HTML Living
    Standard (section 9.2.6) does; it splits on the literal marker
    `data: `. A frame is decoded once the next marker has arrived; the
    frame still pending at end of input is decoded by a final flush.

    The transport is the sequence of network chunks, and optionally the
    exception raised by the transport after them. UTF-8 decoding and the
    JSON decode with its `choices[0].delta.content` lookup are oracles
    (`Codec`). */
module SseFraming {
  import opened Wrappers

  newtype byte = x: int | 0 <= x < 256

  type Bytes = seq<byte>

  /** `b"data: "` */
  const MARKER: Bytes := [100, 97, 116, 97, 58, 32]
  /** `b"[DONE]"` */
  const DONE: Bytes := [91, 68, 79, 78, 69, 93]
  const DONE_TEXT: string := "[DONE]"
  const STREAM_ERROR: string := "Stream error: "

  /** The decoders: `bytes.decode("utf-8")` (an exception's text on
      failure), and `json.loads` followed by
      `data["choices"][0]["delta"].get("content", "")` (None when any step
      raises). */
  datatype Codec = Codec(utf8: Bytes -> Result<string>, content: string -> Option<string>)

  /** What the generator produced: the yielded texts, then either a normal
      end or the message of the `RuntimeError` it raised. */
  datatype Outcome = Outcome(items: seq<string>, error: Option<string>)

  /** The state of the buffer loop: the texts yielded so far, and either
      the buffer still held or the generator having returned at a
      `[DONE]` frame. */
  datatype Drained = Pending(items: seq<string>, buffer: Bytes) | Finished(items: seq<string>)

  /** `items` yielded before `d`. */
  function Prefixed(items: seq<string>, d: Drained): (r: Drained)
    ensures r.items == items + d.items && r.Finished? == d.Finished?
    ensures r.Pending? ==> r.buffer == d.buffer
  {
    match d
    case Pending(i, b) => Pending(items + i, b)
    case Finished(i) => Finished(items + i)
  }

  predicate OccursAt(s: Bytes, j: int) {
    0 <= j && j + |MARKER| <= |s| && s[j..j + |MARKER|] == MARKER
  }

  /** The first occurrence of the marker, as `bytes.find`. */
  function Find(s: Bytes): (r: Option<nat>)
    ensures r.None? ==> forall j :: !OccursAt(s, j)
    ensures r.Some? ==> OccursAt(s, r.value) && forall j :: 0 <= j < r.value ==> !OccursAt(s, j)
    decreases |s|
  {
    if |s| < |MARKER| then None
    else if s[..|MARKER|] == MARKER then Some(0)
    else
      var t := s[1..];
      forall j | 1 <= j
        ensures OccursAt(s, j) == OccursAt(t, j - 1)
      {
        if j + |MARKER| <= |s| {
          assert s[j..j + |MARKER|] == t[j - 1..j - 1 + |MARKER|];
        }
      }
      match Find(t)
      case None => None
      case Some(k) => Some(k + 1)
  }

  /** ASCII whitespace as stripped by `bytes.strip()`. */
  predicate IsSpaceByte(b: byte) {
    b == 32 || b == 9 || b == 10 || b == 13 || b == 11 || b == 12
  }

  function TrimLeftBytes(s: Bytes): Bytes
  {
    if |s| > 0 && IsSpaceByte(s[0]) then TrimLeftBytes(s[1..]) else s
  }

  function TrimRightBytes(s: Bytes): Bytes
  {
    if |s| > 0 && IsSpaceByte(s[|s| - 1]) then TrimRightBytes(s[..|s| - 1]) else s
  }

  /** `bytes.strip()`. */
  function StripBytes(s: Bytes): Bytes
  {
    TrimRightBytes(TrimLeftBytes(s))
  }

  /** The content yielded for one decoded frame text: its delta content
      when that is non-empty, nothing when it is empty or the decode
      raised. */
  function ContentItems(text: string, codec: Codec): (r: seq<string>)
    ensures |r| <= 1 && (|r| == 1 ==> r[0] != "" && codec.content(text) == Some(r[0]))
    ensures |r| == 0 <==> codec.content(text).None? || codec.content(text) == Some("")
  {
    match codec.content(text)
    case Some(c) => if c != "" then [c] else []
    case None => []
  }

  /** A complete frame inside the loop, after stripping: decode errors are
      swallowed by the `try`. */
  function FrameItems(line: Bytes, codec: Codec): seq<string> {
    match codec.utf8(line)
    case Err(_) => []
    case Ok(text) => ContentItems(text, codec)
  }

  /** The frame pending at end of input: here the UTF-8 decode is outside
      the inner `try`, so its failure ends the generator with an error; an
      empty or `[DONE]` frame yields nothing. */
  function LastFrame(frame: Bytes, codec: Codec): (r: Outcome)
    ensures r.error.Some? <==> codec.utf8(StripBytes(frame)).Err?
    ensures r.error.Some? ==> r.error.value == STREAM_ERROR + codec.utf8(StripBytes(frame)).message && r.items == []
    ensures codec.utf8(StripBytes(frame)).Ok? ==>
      var t := codec.utf8(StripBytes(frame)).value;
      r.items == (if t != "" && t != DONE_TEXT then ContentItems(t, codec) else [])
    ensures |r.items| <= 1
  {
    match codec.utf8(StripBytes(frame))
    case Err(e) => Outcome([], Some(STREAM_ERROR + e))
    case Ok(text) =>
      if text != "" && text != DONE_TEXT then Outcome(ContentItems(text, codec), None)
      else Outcome([], None)
  }

  /** The `while b"data: " in buffer` loop, run after a chunk is appended. */
  function Drain(buffer: Bytes, codec: Codec): Drained
    decreases |buffer|
  {
    match Find(buffer)
    case None => Pending([], buffer)
    case Some(p) =>
      var after := buffer[p + |MARKER|..];
      match Find(after)
      case None =>
        // Fewer than three parts: the marker occurs exactly once, and the
        // buffer is cut down to it and what follows.
        if !OccursAt(buffer, 0) then Pending([], MARKER + after) else Pending([], buffer)
      case Some(q) =>
        var line := StripBytes(after[..q]);
        if line == DONE then Finished([])
        else Prefixed(FrameItems(line, codec), Drain(MARKER + after[q + |MARKER|..], codec))
  }

  /** The flush after the `async for` loop. */
  function Flush(buffer: Bytes, codec: Codec): Outcome {
    if OccursAt(buffer, 0) then LastFrame(buffer[|MARKER|..], codec) else Outcome([], None)
  }

  /** The `async for` loop over the network chunks: empty chunks are
      skipped, and a `[DONE]` frame returns at once. */
  function Feed(buffer: Bytes, chunks: seq<Bytes>, codec: Codec): Drained
    decreases |chunks|
  {
    if |chunks| == 0 then Pending([], buffer)
    else if |chunks[0]| == 0 then Feed(buffer, chunks[1..], codec)
    else
      match Drain(buffer + chunks[0], codec)
      case Finished(i) => Finished(i)
      case Pending(i, b) => Prefixed(i, Feed(b, chunks[1..], codec))
  }

  /** End of input with an intact transport: a returned generator is done,
      otherwise the pending frame is flushed. */
  function EndOfInput(d: Drained, codec: Codec): Outcome {
    match d
    case Finished(i) => Outcome(i, None)
    case Pending(i, b) =>
      var f := Flush(b, codec);
      Outcome(i + f.items, f.error)
  }

  /** `_stream_response`: `broken` is the exception the transport raised
      after delivering `chunks` (the request itself failing is the case of
      no chunks); it surfaces as "Stream error: ..." unless a `[DONE]`
      frame ended the generator first. */
  function StreamResponse(chunks: seq<Bytes>, broken: Option<string>, codec: Codec): Outcome {
    var d := Feed([], chunks, codec);
    match broken
    case Some(e) => if d.Finished? then Outcome(d.items, None) else Outcome(d.items, Some(STREAM_ERROR + e))
    case None => EndOfInput(d, codec)
  }

  // ---------------------------------------------------------------------
  // Reference semantics: split the whole input on the marker
  // ---------------------------------------------------------------------

  /** The bytes received, in order. */
  function Flatten(chunks: seq<Bytes>): Bytes
    decreases |chunks|
  {
    if |chunks| == 0 then [] else chunks[0] + Flatten(chunks[1..])
  }

  /** `parts` joined with the marker. */
  function JoinAll(parts: seq<Bytes>): Bytes
    decreases |parts|
  {
    if |parts| == 0 then []
    else if |parts| == 1 then parts[0]
    else parts[0] + MARKER + JoinAll(parts[1..])
  }

  /** The input cut at every marker; no piece contains the marker, and
      joining the pieces back gives the input. */
  function SplitAll(s: Bytes): (r: seq<Bytes>)
    ensures |r| >= 1
    ensures forall i :: 0 <= i < |r| ==> Find(r[i]).None?
    ensures JoinAll(r) == s
    decreases |s|
  {
    match Find(s)
    case None => [s]
    case Some(p) =>
      var head := s[..p];
      NothingBeforeFirst(s);
      var tail := SplitAll(s[p + |MARKER|..]);
      assert s == head + MARKER + s[p + |MARKER|..];
      [head] + tail
  }

  /** The complete frames in order, up to and excluding the first one that
      strips to `[DONE]`; the flag says whether such a frame was met. */
  function Frames(frames: seq<Bytes>, codec: Codec): (r: (seq<string>, bool))
    decreases |frames|
  {
    if |frames| == 0 then ([], false)
    else if StripBytes(frames[0]) == DONE then ([], true)
    else
      var rest := Frames(frames[1..], codec);
      (FrameItems(StripBytes(frames[0]), codec) + rest.0, rest.1)
  }

  /** What a reader makes of the pieces that follow the first marker:
      every piece but the last is a complete frame, decoded in order until
      a `[DONE]` frame; the last is decoded at end of input. */
  function ReadPieces(pieces: seq<Bytes>, codec: Codec): Outcome {
    if |pieces| == 0 then Outcome([], None)
    else
      var loop := Frames(pieces[..|pieces| - 1], codec);
      if loop.1 then Outcome(loop.0, None)
      else
        var last := LastFrame(pieces[|pieces| - 1], codec);
        Outcome(loop.0 + last.items, last.error)
  }

  /** The reading of the whole input: the text before the first marker is
      discarded. */
  function Reference(input: Bytes, codec: Codec): Outcome {
    ReadPieces(SplitAll(input)[1..], codec)
  }

  // ---------------------------------------------------------------------
  // Marker lemmas
  // ---------------------------------------------------------------------

  /** The bytes before the first occurrence hold no occurrence. */
  lemma {:induction false} NothingBeforeFirst(s: Bytes)
    requires Find(s).Some?
    ensures Find(s[..Find(s).value]).None?
  {
    var p := Find(s).value;
    forall j | 0 <= j
      ensures !OccursAt(s[..p], j)
    {
      if j + |MARKER| <= p {
        assert s[..p][j..j + |MARKER|] == s[j..j + |MARKER|];
        assert !OccursAt(s, j);
      }
    }
  }

  /** The first occurrence is determined by being an occurrence with none
      before it. */
  lemma {:induction false} FindIs(s: Bytes, p: nat)
    requires OccursAt(s, p)
    requires forall j :: 0 <= j < p ==> !OccursAt(s, j)
    ensures Find(s) == Some(p)
  {
  }

  /** Appending bytes never moves the first occurrence. */
  lemma {:induction false} FindAppend(x: Bytes, c: Bytes)
    requires Find(x).Some?
    ensures Find(x + c) == Find(x)
  {
    var p := Find(x).value;
    assert (x + c)[p..p + |MARKER|] == x[p..p + |MARKER|];
    forall j | 0 <= j < p
      ensures !OccursAt(x + c, j)
    {
      if OccursAt(x + c, j) {
        assert (x + c)[j..j + |MARKER|] == x[j..j + |MARKER|];
        assert OccursAt(x, j);
      }
    }
    FindIs(x + c, p);
  }

  /** The marker does not overlap itself: its first byte occurs nowhere
      else in it. So bytes free of the marker, followed by the marker,
      have their first occurrence exactly there. */
  lemma {:induction false} FirstMarkerAfter(a: Bytes, y: Bytes)
    requires Find(a).None?
    ensures Find(a + MARKER + y) == Some(|a|)
  {
    var s := a + MARKER + y;
    assert s[|a|..|a| + |MARKER|] == MARKER;
    forall j | 0 <= j < |a|
      ensures !OccursAt(s, j)
    {
      if j + |MARKER| <= |a| {
        assert s[j..j + |MARKER|] == a[j..j + |MARKER|];
        assert !OccursAt(a, j);
      } else {
        // An occurrence overlapping the appended marker would put the
        // marker's first byte at a later position of the marker.
        var k := |a| - j;
        assert s[j + k] == MARKER[0];
        assert s[j..j + |MARKER|][k] == s[j + k];
        assert k == 1 || k == 2 || k == 3 || k == 4 || k == 5;
        assert MARKER[k] != MARKER[0];
      }
    }
    FindIs(s, |a|);
  }

  lemma {:induction false} SplitAfterMarker(y: Bytes)
    ensures SplitAll(MARKER + y) == [[]] + SplitAll(y)
  {
    FirstMarkerAfter([], y);
    assert [] + MARKER + y == MARKER + y;
    assert (MARKER + y)[|MARKER|..] == y;
  }

  /** Splitting is the inverse of joining, for pieces free of the marker. */
  lemma {:induction false} SplitJoin(parts: seq<Bytes>)
    requires |parts| >= 1
    requires forall i :: 0 <= i < |parts| ==> Find(parts[i]).None?
    ensures SplitAll(JoinAll(parts)) == parts
    decreases |parts|
  {
    if |parts| > 1 {
      var y := JoinAll(parts[1..]);
      var s := parts[0] + MARKER + y;
      assert JoinAll(parts) == s;
      FirstMarkerAfter(parts[0], y);
      SplitStep(s);
      assert s[..|parts[0]|] == parts[0];
      assert s[|parts[0]| + |MARKER|..] == y;
      forall i | 0 <= i < |parts[1..]| ensures Find(parts[1..][i]).None? {
        assert parts[1..][i] == parts[i + 1];
      }
      SplitJoin(parts[1..]);
      assert parts == [parts[0]] + parts[1..];
    } else {
      assert SplitAll(parts[0]) == [parts[0]];
    }
  }

  // ---------------------------------------------------------------------
  // The buffer loop against the reference
  // ---------------------------------------------------------------------

  lemma {:induction false} DropAppend(x: Bytes, c: Bytes, k: nat)
    requires k <= |x|
    ensures (x + c)[k..] == x[k..] + c
  {
  }

  lemma {:induction false} TakeAppend(x: Bytes, c: Bytes, k: nat)
    requires k <= |x|
    ensures (x + c)[..k] == x[..k]
  {
  }

  lemma {:induction false} ConsAllButLast<T>(h: T, t: seq<T>)
    requires |t| >= 1
    ensures var l := [h] + t; l[..|l| - 1] == [h] + t[..|t| - 1] && l[|l| - 1] == t[|t| - 1]
  {
  }

  lemma {:induction false} MarkerFirst(y: Bytes)
    ensures Find(MARKER + y) == Some(0) && (MARKER + y)[|MARKER|..] == y
  {
    FirstMarkerAfter([], y);
    assert [] + MARKER + y == MARKER + y;
  }

  /** The loop on a buffer that starts with the marker followed by
      `after`: the normal form of `Drain`. */
  function FromMarker(after: Bytes, codec: Codec): Drained
    decreases |after|
  {
    match Find(after)
    case None => Pending([], MARKER + after)
    case Some(q) =>
      var line := StripBytes(after[..q]);
      if line == DONE then Finished([])
      else Prefixed(FrameItems(line, codec), FromMarker(after[q + |MARKER|..], codec))
  }

  /** `Drain` at a complete frame. */
  lemma {:induction false} DrainStep(z: Bytes, codec: Codec)
    requires Find(z).Some? && Find(z[Find(z).value + |MARKER|..]).Some?
    ensures var after := z[Find(z).value + |MARKER|..];
      var q := Find(after).value;
      var line := StripBytes(after[..q]);
      && (line == DONE ==> Drain(z, codec) == Finished([]))
      && (line != DONE ==> Drain(z, codec) == Prefixed(FrameItems(line, codec), Drain(MARKER + after[q + |MARKER|..], codec)))
  {
    var p := Find(z).value;
    var after := z[p + |MARKER|..];
    var q := Find(after).value;
    var rest := Drain(MARKER + after[q + |MARKER|..], codec);
    if StripBytes(after[..q]) == DONE {
      assert Drain(z, codec) == Finished([]);
    } else {
      assert Drain(z, codec) == Prefixed(FrameItems(StripBytes(after[..q]), codec), rest);
    }
  }

  /** The loop only depends on what follows the first marker. */
  lemma {:induction false} DrainNormal(z: Bytes, codec: Codec)
    ensures Find(z).None? ==> Drain(z, codec) == Pending([], z)
    ensures Find(z).Some? ==> Drain(z, codec) == FromMarker(z[Find(z).value + |MARKER|..], codec)
    decreases |z|
  {
    if Find(z).Some? {
      var p := Find(z).value;
      var after := z[p + |MARKER|..];
      if Find(after).None? {
        if OccursAt(z, 0) {
          assert z == MARKER + after;
        }
        assert Drain(z, codec) == Pending([], MARKER + after);
      } else {
        var q := Find(after).value;
        var y := after[q + |MARKER|..];
        DrainStep(z, codec);
        FromMarkerStep(after, codec);
        if StripBytes(after[..q]) != DONE {
          MarkerFirst(y);
          DrainNormal(MARKER + y, codec);
        }
      }
    }
  }

  /** `SplitAll` at an occurrence: the piece before it, then the split of
      the rest. */
  lemma {:induction false} SplitStep(s: Bytes)
    requires Find(s).Some?
    ensures SplitAll(s) == [s[..Find(s).value]] + SplitAll(s[Find(s).value + |MARKER|..])
  {
  }

  /** `FromMarker` at a complete frame. */
  lemma {:induction false} FromMarkerStep(after: Bytes, codec: Codec)
    requires Find(after).Some?
    ensures var q := Find(after).value;
      var line := StripBytes(after[..q]);
      && (line == DONE ==> FromMarker(after, codec) == Finished([]))
      && (line != DONE ==> FromMarker(after, codec) == Prefixed(FrameItems(line, codec), FromMarker(after[q + |MARKER|..], codec)))
  {
  }

  /** `Frames` on a first frame followed by more. */
  lemma {:induction false} FramesCons(h: Bytes, t: seq<Bytes>, codec: Codec)
    ensures var f := Frames([h] + t, codec);
      && (StripBytes(h) == DONE ==> f == ([], true))
      && (StripBytes(h) != DONE ==> f == (FrameItems(StripBytes(h), codec) + Frames(t, codec).0, Frames(t, codec).1))
  {
    assert ([h] + t)[0] == h && ([h] + t)[1..] == t;
  }

  /** The normal form consumes every complete frame, stopping at a
      `[DONE]` frame, and leaves the marker and the last piece pending. */
  lemma {:induction false} FromMarkerFrames(after: Bytes, codec: Codec)
    ensures var parts := SplitAll(after);
      var f := Frames(parts[..|parts| - 1], codec);
      && (f.1 ==> FromMarker(after, codec) == Finished(f.0))
      && (!f.1 ==> FromMarker(after, codec) == Pending(f.0, MARKER + parts[|parts| - 1]))
    decreases |after|
  {
    if Find(after).None? {
      assert SplitAll(after) == [after];
      assert FromMarker(after, codec) == Pending([], MARKER + after);
    } else {
      var q := Find(after).value;
      var y := after[q + |MARKER|..];
      var tail := SplitAll(y);
      SplitStep(after);
      ConsAllButLast(after[..q], tail);
      FramesCons(after[..q], tail[..|tail| - 1], codec);
      FromMarkerStep(after, codec);
      if StripBytes(after[..q]) != DONE {
        FromMarkerFrames(y, codec);
      }
    }
  }

  lemma {:induction false} PrefixedTwice(a: seq<string>, b: seq<string>, d: Drained)
    ensures Prefixed(a, Prefixed(b, d)) == Prefixed(a + b, d)
  {
  }

  /** More bytes after the normal form: a returned generator stays
      returned with the same items; otherwise the loop goes on from the
      pending frame. */
  lemma {:induction false} FromMarkerAppend(after: Bytes, c: Bytes, codec: Codec)
    ensures var d := FromMarker(after, codec);
      && (d.Finished? ==> FromMarker(after + c, codec) == d)
      && (d.Pending? ==>
            && |MARKER| <= |d.buffer| && d.buffer[..|MARKER|] == MARKER
            && FromMarker(after + c, codec) == Prefixed(d.items, FromMarker(d.buffer[|MARKER|..] + c, codec)))
    decreases |after|
  {
    if Find(after).None? {
      assert (MARKER + after)[|MARKER|..] == after;
      assert FromMarker(after, codec) == Pending([], MARKER + after);
      assert Prefixed([], FromMarker(after + c, codec)) == FromMarker(after + c, codec);
    } else {
      var q := Find(after).value;
      FindAppend(after, c);
      TakeAppend(after, c, q);
      var y := after[q + |MARKER|..];
      DropAppend(after, c, q + |MARKER|);
      var line := StripBytes(after[..q]);
      if line != DONE {
        var items := FrameItems(line, codec);
        FromMarkerAppend(y, c, codec);
        assert FromMarker(after, codec) == Prefixed(items, FromMarker(y, codec));
        assert FromMarker(after + c, codec) == Prefixed(items, FromMarker(y + c, codec));
        var d := FromMarker(y, codec);
        if d.Pending? {
          PrefixedTwice(items, d.items, FromMarker(d.buffer[|MARKER|..] + c, codec));
        }
      }
    }
  }

  /** The pending case of `FromMarkerAppend`, stated with `Drain` on the
      pending buffer. */
  lemma {:induction false} PendingContinues(after: Bytes, c: Bytes, codec: Codec)
    requires FromMarker(after, codec).Pending?
    ensures var d := FromMarker(after, codec);
      FromMarker(after + c, codec) == Prefixed(d.items, Drain(d.buffer + c, codec))
  {
    FromMarkerAppend(after, c, codec);
    var b := FromMarker(after, codec).buffer;
    var rest := b[|MARKER|..];
    MarkerThen(b, c);
    DrainOfMarker(rest + c, codec);
  }

  lemma {:induction false} MarkerThen(b: Bytes, c: Bytes)
    requires |MARKER| <= |b| && b[..|MARKER|] == MARKER
    ensures b + c == MARKER + (b[|MARKER|..] + c)
  {
    assert b == MARKER + b[|MARKER|..];
  }

  lemma {:induction false} DrainOfMarker(y: Bytes, codec: Codec)
    ensures Drain(MARKER + y, codec) == FromMarker(y, codec)
  {
    MarkerFirst(y);
    DrainNormal(MARKER + y, codec);
  }

  /** Running the loop on more bytes continues where it stopped: a
      generator already returned stays returned with the same items, and
      otherwise the new run is the old items followed by the loop on the
      pending buffer plus the new bytes. */
  lemma {:induction false} DrainAppend(x: Bytes, c: Bytes, codec: Codec)
    ensures var d := Drain(x, codec);
      && (d.Finished? ==> Drain(x + c, codec) == d)
      && (d.Pending? ==> Drain(x + c, codec) == Prefixed(d.items, Drain(d.buffer + c, codec)))
  {
    DrainNormal(x, codec);
    if Find(x).None? {
      assert Prefixed([], Drain(x + c, codec)) == Drain(x + c, codec);
    } else {
      var p := Find(x).value;
      FindAppend(x, c);
      var after := x[p + |MARKER|..];
      DropAppend(x, c, p + |MARKER|);
      DrainNormal(x + c, codec);
      assert Drain(x + c, codec) == FromMarker(after + c, codec);
      if FromMarker(after, codec).Pending? {
        PendingContinues(after, c, codec);
      } else {
        FromMarkerAppend(after, c, codec);
      }
    }
  }

  /** A buffer left by the loop is idle: running the loop on it again
      yields nothing and keeps it. */
  lemma {:induction false} DrainIdle(x: Bytes, codec: Codec)
    requires Drain(x, codec).Pending?
    ensures var b := Drain(x, codec).buffer; Drain(b, codec) == Pending([], b)
  {
    DrainAppend(x, [], codec);
    assert x + [] == x;
    assert Drain(x, codec).buffer + [] == Drain(x, codec).buffer;
  }

  /** Feeding chunks one at a time from an idle buffer is the loop over
      all their bytes at once. */
  lemma {:induction false} FeedIsDrain(buffer: Bytes, chunks: seq<Bytes>, codec: Codec)
    requires Drain(buffer, codec) == Pending([], buffer)
    ensures Feed(buffer, chunks, codec) == Drain(buffer + Flatten(chunks), codec)
    decreases |chunks|
  {
    if |chunks| == 0 {
      assert buffer + Flatten(chunks) == buffer;
    } else if |chunks[0]| == 0 {
      assert Flatten(chunks) == Flatten(chunks[1..]);
      FeedIsDrain(buffer, chunks[1..], codec);
    } else {
      var x := buffer + chunks[0];
      assert buffer + Flatten(chunks) == x + Flatten(chunks[1..]);
      DrainAppend(x, Flatten(chunks[1..]), codec);
      match Drain(x, codec)
      case Finished(i) =>
      case Pending(i, b) =>
        DrainIdle(x, codec);
        FeedIsDrain(b, chunks[1..], codec);
  }
  }

  lemma {:induction false} ConsInner<T>(h: T, t: seq<T>)
    requires |t| >= 1
    ensures var l := [h] + t; l[1..|l| - 1] == t[..|t| - 1] && l[|l| - 1] == t[|t| - 1]
  {
    var l := [h] + t;
    assert l[1..] == t;
  }

  /** The normal form after the first marker of an input, in terms of the
      input's pieces. */
  lemma {:induction false} InputFrames(x: Bytes, codec: Codec)
    requires Find(x).Some?
    ensures var parts := SplitAll(x);
      var f := Frames(parts[1..|parts| - 1], codec);
      && |parts| > 1
      && FromMarker(x[Find(x).value + |MARKER|..], codec)
           == (if f.1 then Finished(f.0) else Pending(f.0, MARKER + parts[|parts| - 1]))
  {
    var parts := SplitAll(x);
    var p := Find(x).value;
    var after := x[p + |MARKER|..];
    var tail := SplitAll(after);
    FromMarkerFrames(after, codec);
    SplitStep(x);
    assert parts == [x[..p]] + tail;
    ConsInner(x[..p], tail);
    assert parts[1..|parts| - 1] == tail[..|tail| - 1];
    assert parts[|parts| - 1] == tail[|tail| - 1];
  }

  /** The loop on a whole input, in terms of its pieces. */
  lemma {:induction false} DrainFrames(x: Bytes, codec: Codec)
    ensures |SplitAll(x)| == 1 ==> Drain(x, codec) == Pending([], x)
    ensures |SplitAll(x)| > 1 ==>
      var parts := SplitAll(x);
      var f := Frames(parts[1..|parts| - 1], codec);
      && (f.1 ==> Drain(x, codec) == Finished(f.0))
      && (!f.1 ==> Drain(x, codec) == Pending(f.0, MARKER + parts[|parts| - 1]))
  {
    DrainNormal(x, codec);
    if Find(x).None? {
      assert SplitAll(x) == [x];
    } else {
      InputFrames(x, codec);
    }
  }

  /** The normal form read to the end is the reading of its pieces. */
  lemma {:induction false} FromMarkerReads(after: Bytes, codec: Codec)
    ensures EndOfInput(FromMarker(after, codec), codec) == ReadPieces(SplitAll(after), codec)
  {
    FromMarkerFrames(after, codec);
    var parts := SplitAll(after);
    MarkerFirst(parts[|parts| - 1]);
  }

  /** The reference reading of an input is the loop over it followed by
      the end of input. */
  lemma {:induction false} ReferenceIsDrainThenEnd(x: Bytes, codec: Codec)
    ensures Reference(x, codec) == EndOfInput(Drain(x, codec), codec)
  {
    DrainNormal(x, codec);
    if Find(x).None? {
      assert !OccursAt(x, 0);
      assert SplitAll(x)[1..] == [];
    } else {
      var p := Find(x).value;
      var after := x[p + |MARKER|..];
      assert SplitAll(x)[1..] == SplitAll(after);
      FromMarkerReads(after, codec);
    }
  }

  // ---------------------------------------------------------------------
  // Properties
  // ---------------------------------------------------------------------

  /** With an intact transport the generator's output is the reference
      reading of the bytes received: frames are decoded in order, the
      text before the first marker is dropped, the pending frame is
      flushed at the end, and `[DONE]` ends it. */
  lemma {:induction false} StreamMatchesReference(chunks: seq<Bytes>, codec: Codec)
    ensures StreamResponse(chunks, None, codec) == Reference(Flatten(chunks), codec)
  {
    assert Find([]).None?;
    FeedIsDrain([], chunks, codec);
    assert [] + Flatten(chunks) == Flatten(chunks);
    ReferenceIsDrainThenEnd(Flatten(chunks), codec);
  }

  /** How the bytes are cut into network chunks never changes the output,
      even when a marker or a frame is split across chunks. */
  lemma {:induction false} ChunkingIrrelevant(chunks1: seq<Bytes>, chunks2: seq<Bytes>, codec: Codec)
    requires Flatten(chunks1) == Flatten(chunks2)
    ensures StreamResponse(chunks1, None, codec) == StreamResponse(chunks2, None, codec)
  {
    StreamMatchesReference(chunks1, codec);
    StreamMatchesReference(chunks2, codec);
  }

  /** Bytes before the first marker are discarded. */
  lemma {:induction false} PreambleDiscarded(junk: Bytes, y: Bytes, codec: Codec)
    requires Find(junk).None?
    ensures Reference(junk + MARKER + y, codec) == Reference(MARKER + y, codec)
  {
    FirstMarkerAfter(junk, y);
    assert (junk + MARKER + y)[|junk| + |MARKER|..] == y;
    assert SplitAll(junk + MARKER + y)[1..] == SplitAll(y);
    SplitAfterMarker(y);
    assert SplitAll(MARKER + y)[1..] == SplitAll(y);
  }

  lemma {:induction false} FramesStopAtDone(frames: seq<Bytes>, i: nat, codec: Codec)
    requires i < |frames| && StripBytes(frames[i]) == DONE
    ensures Frames(frames, codec).1
    ensures Frames(frames, codec).0 == Frames(frames[..i], codec).0
    decreases i
  {
    if i > 0 && StripBytes(frames[0]) != DONE {
      FramesStopAtDone(frames[1..], i - 1, codec);
      assert frames[1..][..i - 1] == frames[..i][1..];
    }
  }

  /** A complete `[DONE]` frame returns from the loop with the items of
      the frames before it. */
  lemma {:induction false} DoneFrameFinishes(x: Bytes, i: nat, codec: Codec)
    requires 1 <= i < |SplitAll(x)| - 1 && StripBytes(SplitAll(x)[i]) == DONE
    ensures Drain(x, codec) == Finished(Frames(SplitAll(x)[1..i], codec).0)
  {
    var parts := SplitAll(x);
    var frames := parts[1..|parts| - 1];
    assert frames[i - 1] == parts[i];
    FramesStopAtDone(frames, i - 1, codec);
    assert frames[..i - 1] == parts[1..i];
    DrainFrames(x, codec);
    assert Frames(frames, codec).0 == Frames(parts[1..i], codec).0;
  }

  /** A complete `[DONE]` frame ends the stream: the items are those of the
      frames before it, no error is raised, and nothing received later
      changes the output. */
  lemma {:induction false} DoneFrameEndsStream(x: Bytes, y: Bytes, i: nat, codec: Codec)
    requires 1 <= i < |SplitAll(x)| - 1 && StripBytes(SplitAll(x)[i]) == DONE
    ensures Reference(x, codec) == Outcome(Frames(SplitAll(x)[1..i], codec).0, None)
    ensures Reference(x + y, codec) == Reference(x, codec)
  {
    DoneFrameFinishes(x, i, codec);
    DrainAppend(x, y, codec);
    ReferenceIsDrainThenEnd(x, codec);
    ReferenceIsDrainThenEnd(x + y, codec);
  }

  /** A broken transport yields what the loop had yielded, never the
      pending frame, and raises "Stream error: ..." unless `[DONE]` came
      first, in which case the break is never seen. */
  lemma {:induction false} BrokenTransport(chunks: seq<Bytes>, e: string, codec: Codec)
    ensures var r := StreamResponse(chunks, Some(e), codec);
      var whole := StreamResponse(chunks, None, codec);
      && r.items <= whole.items
      && (r.error.None? ==> r == whole)
      && (r.error.Some? ==> r.error == Some(STREAM_ERROR + e))
  {
  }
}

=== FILE: sse_router.dfy ===
/** The chat-reply SSE reader (`event_generator` inside
    `stream_message_reply`, src/sse/router.py): replay the history, then
    poll for chunks beyond a cursor until the job reaches a terminal status
    or the client goes away.

    The reader never writes. Each store read it makes is one snapshot: the
    initial history, and per loop iteration one `Poll` holding what the
    disconnect check, `wait_for_stream_item` and `get_message_state`
    returned. Interleaving with the worker is represented only by the
    snapshots differing. */
module SseRouter {
  import opened Wrappers
  import opened Store

  const DONE_DATA: string := "Stream finished"
  const UNKNOWN_ERROR: string := "Unknown error"

  datatype Event =
    | Data(text: string)        // {"data": chunk}
    | Done                      // {"event": "done", "data": "Stream finished"}
    | Failed(message: string)   // {"event": "error", "data": error}

  datatype Poll = Poll(disconnected: bool, view: seq<string>, state: map<string, string>)

  function DataEvents(chunks: seq<string>): (r: seq<Event>)
    ensures |r| == |chunks|
    ensures forall i :: 0 <= i < |r| ==> r[i] == Data(chunks[i])
  {
    seq(|chunks|, i requires 0 <= i < |chunks| => Data(chunks[i]))
  }

  /** The text of the terminal error event: the stored error, or
      "Unknown error" when the hash has none. */
  function ErrorText(state: map<string, string>): string {
    Get(state, "error").GetOr(UNKNOWN_ERROR)
  }

  /** The event closing the loop on a terminal status: "done" or else "error". */
  function Closing(state: map<string, string>): (e: Event)
    ensures !e.Data?
  {
    if Get(state, STATUS) == Some(DONE) then Done else Failed(ErrorText(state))
  }

  /** A poll after which the loop ends: the client left, or the state read
      showed "done" or "error". */
  predicate Halts(p: Poll) {
    p.disconnected || IsTerminal(Get(p.state, STATUS))
  }

  /** The polling loop from cursor `cursor` on. */
  function Tail(polls: seq<Poll>, cursor: nat): (r: seq<Event>)
    ensures forall i :: 0 <= i < |r| && !r[i].Data? ==> i == |r| - 1
    decreases |polls|
  {
    if |polls| == 0 || polls[0].disconnected then []
    else
      var p := polls[0];
      var incoming := WaitForStreamItem(p.view, cursor);
      var rest := if IsTerminal(Get(p.state, STATUS)) then [Closing(p.state)]
                  else Tail(polls[1..], cursor + |incoming|);
      ClosingLastAppend(DataEvents(incoming), rest);
      DataEvents(incoming) + rest
  }

  /** Data events followed by events whose only non-data event is the last
      one have their only non-data event last. */
  lemma {:induction false} ClosingLastAppend(head: seq<Event>, rest: seq<Event>)
    requires forall i :: 0 <= i < |head| ==> head[i].Data?
    requires forall i :: 0 <= i < |rest| && !rest[i].Data? ==> i == |rest| - 1
    ensures forall i :: 0 <= i < |head + rest| && !(head + rest)[i].Data? ==> i == |head + rest| - 1
  {
    forall i | |head| <= i < |head + rest| && !(head + rest)[i].Data?
      ensures i == |head + rest| - 1
    {
      assert (head + rest)[i] == rest[i - |head|];
    }
  }

  /** `event_generator`: history replay, then the polling loop with the
      cursor at the history length. */
  function StreamMessageReply(history: seq<string>, polls: seq<Poll>): (r: seq<Event>)
    ensures |r| >= |history|
    ensures forall i :: 0 <= i < |history| ==> r[i] == Data(history[i])
  {
    DataEvents(history) + Tail(polls, |history|)
  }

  /** One poll brings the emitted data exactly up to the polled snapshot. */
  lemma {:induction false} CatchesUp(emitted: seq<string>, view: seq<string>, final: seq<string>)
    requires Prefix(emitted, final) && Prefix(view, final) && |emitted| <= |view|
    ensures emitted + WaitForStreamItem(view, |emitted|) == view
  {
    assert view[..|emitted|] == final[..|emitted|] == emitted;
    if |view| > |emitted| {
      assert view == view[..|emitted|] + view[|emitted|..];
    }
  }

  /** What the reader saw is consistent with one append-only stream `final`:
      every snapshot is a prefix of it and later snapshots are no shorter. */
  ghost predicate Observed(history: seq<string>, polls: seq<Poll>, final: seq<string>) {
    && Prefix(history, final)
    && (|polls| > 0 ==> |history| <= |polls[0].view|)
    && (forall i :: 0 <= i < |polls| ==> Prefix(polls[i].view, final))
    && (forall i :: 0 <= i < |polls| - 1 ==> |polls[i].view| <= |polls[i + 1].view|)
  }

  /** Every data event carries the chunk of the stream at its own position,
      counted from `start`. */
  ghost predicate DataMatches(r: seq<Event>, final: seq<string>, start: nat) {
    forall i :: 0 <= i < |r| ==> DataAt(r[i], final, start + i)
  }

  /** A data event at stream index `k` carries chunk `k`. */
  predicate DataAt(e: Event, final: seq<string>, k: nat) {
    e.Data? ==> k < |final| && e.text == final[k]
  }

  lemma {:induction false} ObservedRest(emitted: seq<string>, polls: seq<Poll>, final: seq<string>)
    requires |polls| > 0 && Observed(emitted, polls, final)
    ensures Observed(polls[0].view, polls[1..], final)
  {
    assert forall i :: 0 <= i < |polls[1..]| ==> polls[1..][i] == polls[i + 1];
  }

  /** One poll read as data followed by the rest of the loop. */
  lemma {:induction false} TailUnfold(polls: seq<Poll>, cursor: nat)
    requires |polls| > 0 && !polls[0].disconnected
    ensures var incoming := WaitForStreamItem(polls[0].view, cursor);
      && (!Halts(polls[0]) ==>
            Tail(polls, cursor) == DataEvents(incoming) + Tail(polls[1..], cursor + |incoming|))
      && (Halts(polls[0]) ==> Tail(polls, cursor) == DataEvents(incoming) + [Closing(polls[0].state)])
  {
  }

  /** Data events built from chunks read at `start`, followed by events that
      match the stream further on, match the stream as a whole. */
  lemma {:induction false} MatchesAppend(incoming: seq<string>, rest: seq<Event>, final: seq<string>, start: nat)
    requires start + |incoming| <= |final|
    requires forall i :: 0 <= i < |incoming| ==> incoming[i] == final[start + i]
    requires DataMatches(rest, final, start + |incoming|)
    ensures DataMatches(DataEvents(incoming) + rest, final, start)
  {
    var head := DataEvents(incoming);
    var at := (e: Event, k: nat) => DataAt(e, final, k);
    forall i | 0 <= i < |head| ensures at(head[i], start + i) {
      assert head[i] == Data(incoming[i]);
    }
    PointwiseAppend(head, rest, at, start);
  }

  /** A property holding at each index of two sequences, counted on from
      `start`, holds at each index of their concatenation. */
  lemma {:induction false} PointwiseAppend<E>(head: seq<E>, rest: seq<E>, at: (E, nat) -> bool, start: nat)
    requires forall i :: 0 <= i < |head| ==> at(head[i], start + i)
    requires forall j :: 0 <= j < |rest| ==> at(rest[j], start + |head| + j)
    ensures forall i :: 0 <= i < |head + rest| ==> at((head + rest)[i], start + i)
  {
    forall i | |head| <= i < |head + rest| ensures at((head + rest)[i], start + i) {
      var j := i - |head|;
      assert (head + rest)[i] == rest[j] && at(rest[j], start + |head| + j);
    }
  }

  /** The chunks read at the cursor are the stream's from that index on,
      up to the snapshot's end. */
  lemma {:induction false} ReadMatches(emitted: seq<string>, view: seq<string>, final: seq<string>)
    requires Prefix(emitted, final) && Prefix(view, final) && |emitted| <= |view|
    ensures var incoming := WaitForStreamItem(view, |emitted|);
      && |emitted| + |incoming| == |view|
      && (forall i :: 0 <= i < |incoming| ==> incoming[i] == final[|emitted| + i])
  {
    assert view == final[..|view|];
  }

  lemma {:induction false} TailMatchesStream(emitted: seq<string>, polls: seq<Poll>, final: seq<string>)
    requires Observed(emitted, polls, final)
    ensures DataMatches(Tail(polls, |emitted|), final, |emitted|)
    decreases |polls|
  {
    if |polls| > 0 && !polls[0].disconnected {
      var p := polls[0];
      assert Prefix(p.view, final);
      if Halts(p) {
        LastPollMatches(emitted, polls, final);
      } else {
        ObservedRest(emitted, polls, final);
        TailMatchesStream(p.view, polls[1..], final);
        ContinuingPollMatches(emitted, polls, final);
      }
    }
  }

  /** A poll that does not end the loop puts the chunks it read in front of
      the rest. */
  lemma {:induction false} ContinuingPollMatches(emitted: seq<string>, polls: seq<Poll>, final: seq<string>)
    requires |polls| > 0 && Prefix(emitted, final) && Prefix(polls[0].view, final) && |emitted| <= |polls[0].view|
    requires !polls[0].disconnected && !Halts(polls[0])
    requires DataMatches(Tail(polls[1..], |polls[0].view|), final, |polls[0].view|)
    ensures DataMatches(Tail(polls, |emitted|), final, |emitted|)
  {
    var p := polls[0];
    var incoming := WaitForStreamItem(p.view, |emitted|);
    ReadMatches(emitted, p.view, final);
    var rest := Tail(polls[1..], |p.view|);
    TailUnfold(polls, |emitted|);
    assert Tail(polls, |emitted|) == DataEvents(incoming) + rest;
    MatchesAppend(incoming, rest, final, |emitted|);
  }

  /** The poll that ends the loop: its data, then the closing event. */
  lemma {:induction false} LastPollMatches(emitted: seq<string>, polls: seq<Poll>, final: seq<string>)
    requires |polls| > 0 && Prefix(emitted, final) && Prefix(polls[0].view, final) && |emitted| <= |polls[0].view|
    requires !polls[0].disconnected && Halts(polls[0])
    ensures DataMatches(Tail(polls, |emitted|), final, |emitted|)
  {
    var p := polls[0];
    var incoming := WaitForStreamItem(p.view, |emitted|);
    ReadMatches(emitted, p.view, final);
    var end := [Closing(p.state)];
    assert DataMatches(end, final, |emitted| + |incoming|) by {
      assert DataAt(end[0], final, |emitted| + |incoming| + 0);
    }
    MatchesAppend(incoming, end, final, |emitted|);
    TailUnfold(polls, |emitted|);
    assert Tail(polls, |emitted|) == DataEvents(incoming) + end;
  }

  /** A closing "done" event is only sent after a state read showing
      "done"; a closing error event only after one showing "error", and it
      carries that read's error text. */
  lemma {:induction false} ClosingHasCause(polls: seq<Poll>, cursor: nat)
    ensures var r := Tail(polls, cursor);
      && (|r| > 0 && r[|r| - 1].Done? ==>
            exists i :: 0 <= i < |polls| && Get(polls[i].state, STATUS) == Some(DONE))
      && (|r| > 0 && r[|r| - 1].Failed? ==>
            exists i :: 0 <= i < |polls| && Get(polls[i].state, STATUS) == Some(ERROR)
              && r[|r| - 1].message == ErrorText(polls[i].state))
    decreases |polls|
  {
    if |polls| > 0 && !polls[0].disconnected {
      TailUnfold(polls, cursor);
      if !Halts(polls[0]) {
        var incoming := WaitForStreamItem(polls[0].view, cursor);
        var rest := Tail(polls[1..], cursor + |incoming|);
        ClosingHasCause(polls[1..], cursor + |incoming|);
        if |rest| > 0 {
          var r := Tail(polls, cursor);
          assert r[|r| - 1] == rest[|rest| - 1];
          if r[|r| - 1].Done? {
            var i :| 0 <= i < |polls[1..]| && Get(polls[1..][i].state, STATUS) == Some(DONE);
            assert polls[i + 1] == polls[1..][i];
          }
          if r[|r| - 1].Failed? {
            var i :| 0 <= i < |polls[1..]| && Get(polls[1..][i].state, STATUS) == Some(ERROR)
              && r[|r| - 1].message == ErrorText(polls[1..][i].state);
            assert polls[i + 1] == polls[1..][i];
          }
        }
      }
    }
  }

  /** The key delivery theorem: the data events come first, each carrying
      the chunk at its own index of the job's stream, and at most one
      terminal event closes the sequence. So the emitted data is a prefix of
      the stream: no index is emitted twice, skipped or reordered. */
  lemma {:induction false} EmitsPrefixOfStream(history: seq<string>, polls: seq<Poll>, final: seq<string>)
    requires Observed(history, polls, final)
    ensures var r := StreamMessageReply(history, polls);
      && (forall i :: 0 <= i < |r| && !r[i].Data? ==> i == |r| - 1)
      && DataMatches(r, final, 0)
  {
    TailMatchesStream(history, polls, final);
    MatchesAppend(history, Tail(polls, |history|), final, 0);
  }

  /** Once a poll halts the loop (disconnect or terminal status), later
      snapshots are never read: they cannot change what is emitted. */
  lemma {:induction false} NothingReadAfterHalt(polls: seq<Poll>, more: seq<Poll>, cursor: nat, h: nat)
    requires h < |polls| && Halts(polls[h])
    ensures Tail(polls + more, cursor) == Tail(polls, cursor)
    decreases |polls|
  {
    var p := polls[0];
    var all := polls + more;
    assert all[0] == p;
    if !p.disconnected {
      TailUnfold(polls, cursor);
      TailUnfold(all, cursor);
      if !Halts(p) {
        var next := cursor + |WaitForStreamItem(p.view, cursor)|;
        assert all[1..] == polls[1..] + more;
        assert polls[1..][h - 1] == polls[h];
        NothingReadAfterHalt(polls[1..], more, next, h - 1);
      }
    }
  }

  /** router.py performs no final drain after seeing "done": a chunk
      appended between the poll and the state read is never delivered, so
      completeness does not hold for this reader. */
  lemma {:induction false} MayMissChunksBeforeDone()
    ensures var polls := [Poll(false, [], map[STATUS := DONE])];
      && Observed([], polls, ["last"])
      && StreamMessageReply([], polls) == [Done]
  {
    var polls := [Poll(false, [], map[STATUS := DONE])];
    assert Tail(polls, 0) == DataEvents([]) + [Done];
  }
}

=== FILE: store.dfy ===
/** The shared key-value store used by the chat and report pipelines
    (src/utils/redis.py): a FIFO work queue of job ids, one state hash per
    job (`message:{id}:state`), one append-only chunk list per job
    (`message:{id}:stream`) and the expiry armed on each key.

    The store is an immutable record. Every helper of the source that writes
    becomes a sequence of `Write`s; `Run` applies them in order, so a
    worker's effect is the list of writes it issues and ordering properties
    are statements about positions in that list. */
module Store {
  import opened Wrappers

  type Id = string

  /** Retention window re-armed by every write (redis.py:51). */
  const TTL_SECONDS: nat := 3600

  const STATUS: string := "status"
  const PENDING: string := "pending"
  const PROCESSING: string := "processing"
  const DONE: string := "done"
  const ERROR: string := "error"

  datatype Key = StateKey(id: Id) | StreamKey(id: Id)

  datatype Store = Store(
    state: map<Id, map<string, string>>,
    streams: map<Id, seq<string>>,
    queue: seq<Id>,
    ttl: map<Key, nat>)

  /** One write helper call: a hash merge (HSET + EXPIRE), a chunk append
      (RPUSH + EXPIRE) or a queue push (RPUSH, no expiry). */
  datatype Write =
    | HashSet(id: Id, fields: map<string, string>)
    | Append(id: Id, chunk: string)
    | Push(id: Id)

  const Empty: Store := Store(map[], map[], [], map[])

  /** HGETALL: a missing key reads as the empty hash. */
  function StateOf(s: Store, id: Id): map<string, string> {
    if id in s.state then s.state[id] else map[]
  }

  /** LRANGE 0 -1: a missing key reads as the empty list. */
  function StreamOf(s: Store, id: Id): seq<string> {
    if id in s.streams then s.streams[id] else []
  }

  function StatusOf(s: Store, id: Id): Option<string> {
    Get(StateOf(s, id), STATUS)
  }

  /** `a` is an initial segment of `b`: what an append-only list looked
      like at an earlier moment. */
  predicate Prefix<T(==)>(a: seq<T>, b: seq<T>) {
    |a| <= |b| && b[..|a|] == a
  }

  predicate IsTerminal(status: Option<string>) {
    status == Some(DONE) || status == Some(ERROR)
  }

  function Apply(s: Store, w: Write): Store {
    match w
    case HashSet(id, fields) =>
      s.(state := s.state[id := StateOf(s, id) + fields],
         ttl := s.ttl[StateKey(id) := TTL_SECONDS])
    case Append(id, chunk) =>
      s.(streams := s.streams[id := StreamOf(s, id) + [chunk]],
         ttl := s.ttl[StreamKey(id) := TTL_SECONDS])
    case Push(id) =>
      s.(queue := s.queue + [id])
  }

  function Run(s: Store, ws: seq<Write>): Store
    decreases |ws|
  {
    if |ws| == 0 then s else Run(Apply(s, ws[0]), ws[1..])
  }

  lemma {:induction false} RunAppend(s: Store, a: seq<Write>, b: seq<Write>)
    ensures Run(s, a + b) == Run(Run(s, a), b)
    decreases |a|
  {
    if |a| == 0 {
      assert a + b == b;
    } else {
      assert (a + b)[1..] == a[1..] + b;
      RunAppend(Apply(s, a[0]), a[1..], b);
    }
  }

  /** `enqueue_job`: the state hash is initialised to "pending" (merged into
      whatever hash is already there) before the id is pushed. */
  function EnqueueJob(id: Id, createdAt: string): (ws: seq<Write>)
    ensures |ws| == 2 && ws[0].HashSet? && ws[1] == Push(id)
    ensures ws[0].id == id && Get(ws[0].fields, STATUS) == Some(PENDING)
  {
    [HashSet(id, map[STATUS := PENDING, "created_at" := createdAt]), Push(id)]
  }

  /** `claim_job`: BLPOP from the left of the queue; None when nothing
      arrives (one snapshot stands for the five-second wait). */
  function ClaimJob(s: Store): (r: (Option<Id>, Store))
    ensures s.queue == [] ==> r.0 == None && r.1 == s
    ensures s.queue != [] ==> r.0 == Some(s.queue[0]) && [s.queue[0]] + r.1.queue == s.queue
    ensures r.1.state == s.state && r.1.streams == s.streams && r.1.ttl == s.ttl
  {
    if |s.queue| == 0 then (None, s)
    else (Some(s.queue[0]), s.(queue := s.queue[1..]))
  }

  /** `update_state(id, status, **extra)`. Python refuses a keyword argument
      named `status` next to the positional one, hence the precondition. */
  function UpdateState(id: Id, status: string, extra: map<string, string>): (ws: seq<Write>)
    requires STATUS !in extra
    ensures |ws| == 1 && ws[0].HashSet? && ws[0].id == id
    ensures ws[0].fields.Keys == extra.Keys + {STATUS}
    ensures ws[0].fields[STATUS] == status
    ensures forall k :: k in extra ==> ws[0].fields[k] == extra[k]
  {
    [HashSet(id, extra[STATUS := status])]
  }

  /** `append_chunk`. */
  function AppendChunk(id: Id, chunk: string): (ws: seq<Write>)
    ensures ws == [Append(id, chunk)]
  {
    [Append(id, chunk)]
  }

  /** `wait_for_stream_item(id, start)` read against one snapshot of the
      stream: everything from index `start` on when the list is longer than
      `start`, otherwise nothing (the source returns [] both when the job has
      finished and when its polling window runs out). */
  function WaitForStreamItem(view: seq<string>, start: nat): (r: seq<string>)
    ensures |r| > 0 <==> |view| > start
    ensures |r| > 0 ==> |r| == |view| - start
    ensures forall i :: 0 <= i < |r| ==> r[i] == view[start + i]
  {
    if |view| > start then view[start..] else []
  }

  /** The TTL running out on one key, as an explicit event. */
  function ExpireKey(s: Store, k: Key): Store {
    match k
    case StateKey(id) => s.(state := s.state - {id}, ttl := s.ttl - {k})
    case StreamKey(id) => s.(streams := s.streams - {id}, ttl := s.ttl - {k})
  }

  // ---------------------------------------------------------------------
  // Properties of the write helpers
  // ---------------------------------------------------------------------

  /** `update_state` sets `status` and the extra fields, keeps every other
      field of the hash (such as `created_at`), checks no transition, and
      re-arms the expiry of the state key only. */
  lemma UpdateStateEffect(s: Store, id: Id, status: string, extra: map<string, string>)
    requires STATUS !in extra
    ensures var t := Run(s, UpdateState(id, status, extra));
      && StatusOf(t, id) == Some(status)
      && (forall k :: k in extra ==> k in StateOf(t, id) && StateOf(t, id)[k] == extra[k])
      && (forall k :: k in StateOf(s, id) && k != STATUS && k !in extra ==>
            k in StateOf(t, id) && StateOf(t, id)[k] == StateOf(s, id)[k])
      && (forall other :: other != id ==> StateOf(t, other) == StateOf(s, other))
      && t.streams == s.streams && t.queue == s.queue
      && t.ttl == s.ttl[StateKey(id) := TTL_SECONDS]
  {
    var ws := UpdateState(id, status, extra);
    assert Run(s, ws) == Apply(s, ws[0]);
  }

  /** `append_chunk` puts the chunk at index old-length, leaves earlier
      chunks, other streams and all state untouched, and re-arms the expiry
      of that stream key only. */
  lemma AppendChunkEffect(s: Store, id: Id, chunk: string)
    ensures var t := Run(s, AppendChunk(id, chunk));
      && |StreamOf(t, id)| == |StreamOf(s, id)| + 1
      && StreamOf(t, id)[|StreamOf(s, id)|] == chunk
      && StreamOf(t, id)[..|StreamOf(s, id)|] == StreamOf(s, id)
      && (forall other :: other != id ==> StreamOf(t, other) == StreamOf(s, other))
      && t.state == s.state && t.queue == s.queue
      && t.ttl == s.ttl[StreamKey(id) := TTL_SECONDS]
  {
    assert Run(s, AppendChunk(id, chunk)) == Apply(s, Append(id, chunk));
  }

  /** Appending chunks one after another yields the old history followed by
      the chunks in append order (`get_stream_history` after the writes). */
  function AppendAll(id: Id, chunks: seq<string>): (ws: seq<Write>)
    ensures |ws| == |chunks|
    ensures forall i :: 0 <= i < |ws| ==> ws[i] == Append(id, chunks[i])
  {
    if |chunks| == 0 then [] else AppendChunk(id, chunks[0]) + AppendAll(id, chunks[1..])
  }

  lemma {:induction false} HistoryAfterAppends(s: Store, id: Id, chunks: seq<string>)
    ensures StreamOf(Run(s, AppendAll(id, chunks)), id) == StreamOf(s, id) + chunks
    ensures StateOf(Run(s, AppendAll(id, chunks)), id) == StateOf(s, id)
    decreases |chunks|
  {
    if |chunks| > 0 {
      var s1 := Apply(s, Append(id, chunks[0]));
      assert Run(s, AppendAll(id, chunks)) == Run(s1, AppendAll(id, chunks[1..])) by {
        var ws := AppendAll(id, chunks);
        assert ws[0] == Append(id, chunks[0]);
        assert ws[1..] == AppendAll(id, chunks[1..]);
      }
      assert StreamOf(s1, id) == StreamOf(s, id) + [chunks[0]];
      HistoryAfterAppends(s1, id, chunks[1..]);
      assert chunks == [chunks[0]] + chunks[1..];
    }
  }

  /** After `enqueue_job` the job reads as pending and its id is the last
      queue entry; nothing else in the queue moves. */
  lemma EnqueueEffect(s: Store, id: Id, createdAt: string)
    ensures var t := Run(s, EnqueueJob(id, createdAt));
      && StatusOf(t, id) == Some(PENDING)
      && Get(StateOf(t, id), "created_at") == Some(createdAt)
      && t.queue == s.queue + [id]
      && t.streams == s.streams
  {
    var ws := EnqueueJob(id, createdAt);
    var s1 := Apply(s, ws[0]);
    assert ws[1..] == [ws[1]];
    assert Run(s1, [ws[1]]) == Apply(s1, ws[1]);
    assert Run(s, ws) == Apply(s1, ws[1]);
  }

  // ---------------------------------------------------------------------
  // FIFO queue
  // ---------------------------------------------------------------------

  function EnqueueAll(ids: seq<Id>, createdAt: string): seq<Write> {
    if |ids| == 0 then [] else EnqueueJob(ids[0], createdAt) + EnqueueAll(ids[1..], createdAt)
  }

  /** Claims jobs until `claim_job` returns None; the ids in claim order. */
  function DrainQueue(s: Store): (ids: seq<Id>)
    decreases |s.queue|
  {
    match ClaimJob(s).0
    case None => []
    case Some(id) => [id] + DrainQueue(ClaimJob(s).1)
  }

  lemma {:induction false} DrainIsQueue(s: Store)
    ensures DrainQueue(s) == s.queue
    decreases |s.queue|
  {
    if |s.queue| > 0 {
      DrainIsQueue(ClaimJob(s).1);
    }
  }

  lemma {:induction false} QueueAfterEnqueues(s: Store, ids: seq<Id>, createdAt: string)
    ensures Run(s, EnqueueAll(ids, createdAt)).queue == s.queue + ids
    decreases |ids|
  {
    if |ids| > 0 {
      var first := EnqueueJob(ids[0], createdAt);
      RunAppend(s, first, EnqueueAll(ids[1..], createdAt));
      EnqueueEffect(s, ids[0], createdAt);
      QueueAfterEnqueues(Run(s, first), ids[1..], createdAt);
      assert s.queue + [ids[0]] + ids[1..] == s.queue + ids;
    }
  }

  /** The queue is FIFO: jobs enqueued in some order are claimed in that
      order, after whatever was already waiting. */
  lemma FifoClaimOrder(s: Store, ids: seq<Id>, createdAt: string)
    ensures DrainQueue(Run(s, EnqueueAll(ids, createdAt))) == s.queue + ids
  {
    QueueAfterEnqueues(s, ids, createdAt);
    DrainIsQueue(Run(s, EnqueueAll(ids, createdAt)));
  }

  // ---------------------------------------------------------------------
  // Writers that finish with their status
  // ---------------------------------------------------------------------

  /** `w` writes a terminal status into job `id`'s state hash. */
  predicate SetsTerminal(w: Write, id: Id) {
    w.HashSet? && w.id == id && STATUS in w.fields && IsTerminal(Some(w.fields[STATUS]))
  }

  predicate AppendsTo(w: Write, id: Id) {
    w.Append? && w.id == id
  }

  /** No chunk of job `id` is appended after its terminal status is set. */
  ghost predicate StatusAfterLastChunk(ws: seq<Write>, id: Id) {
    forall i, j :: 0 <= i < j < |ws| && SetsTerminal(ws[i], id) ==> !AppendsTo(ws[j], id)
  }

  /** A terminal status can only come from a write that sets it. */
  lemma {:induction false} TerminalHasWriter(s: Store, ws: seq<Write>, id: Id)
    requires !IsTerminal(StatusOf(s, id)) && IsTerminal(StatusOf(Run(s, ws), id))
    ensures exists i :: 0 <= i < |ws| && SetsTerminal(ws[i], id)
    decreases |ws|
  {
    if |ws| > 0 {
      var s1 := Apply(s, ws[0]);
      if !SetsTerminal(ws[0], id) {
        assert !IsTerminal(StatusOf(s1, id));
        TerminalHasWriter(s1, ws[1..], id);
        var i :| 0 <= i < |ws[1..]| && SetsTerminal(ws[1..][i], id);
        assert ws[i + 1] == ws[1..][i];
      }
    }
  }

  /** Writes that append nothing to job `id` leave its stream as it is. */
  lemma {:induction false} StreamUntouched(s: Store, ws: seq<Write>, id: Id)
    requires forall j :: 0 <= j < |ws| ==> !AppendsTo(ws[j], id)
    ensures StreamOf(Run(s, ws), id) == StreamOf(s, id)
    decreases |ws|
  {
    if |ws| > 0 {
      StreamUntouched(Apply(s, ws[0]), ws[1..], id);
    }
  }

  /** For a writer that sets the terminal status after its last chunk, any
      intermediate store whose state reads terminal already holds the
      writer's whole stream: a reader that sees "done" or "error" and then
      reads the list misses nothing. */
  lemma TerminalSeesWholeStream(s: Store, ws: seq<Write>, id: Id, k: nat)
    requires k <= |ws| && StatusAfterLastChunk(ws, id)
    requires !IsTerminal(StatusOf(s, id)) && IsTerminal(StatusOf(Run(s, ws[..k]), id))
    ensures StreamOf(Run(s, ws[..k]), id) == StreamOf(Run(s, ws), id)
  {
    TerminalHasWriter(s, ws[..k], id);
    var i :| 0 <= i < k && SetsTerminal(ws[..k][i], id);
    assert ws[i] == ws[..k][i];
    assert ws == ws[..k] + ws[k..];
    RunAppend(s, ws[..k], ws[k..]);
    forall j | 0 <= j < |ws[k..]| ensures !AppendsTo(ws[k..][j], id) {
      assert ws[k..][j] == ws[k + j];
    }
    StreamUntouched(Run(s, ws[..k]), ws[k..], id);
  }

  /** The write pattern shared by the job workers: mark the job
      "processing", append its chunks in order, then write the final
      status (with extra fields such as `error`). */
  function Lifecycle(id: Id, chunks: seq<string>, status: string, extra: map<string, string>): (ws: seq<Write>)
    requires STATUS !in extra
    ensures |ws| == |chunks| + 2
    ensures ws[0] == HashSet(id, map[STATUS := PROCESSING])
    ensures forall i :: 0 <= i < |chunks| ==> ws[i + 1] == Append(id, chunks[i])
    ensures ws[|ws| - 1] == HashSet(id, extra[STATUS := status])
    ensures forall i :: 0 <= i < |ws| ==> ws[i].id == id
  {
    UpdateState(id, PROCESSING, map[]) + AppendAll(id, chunks) + UpdateState(id, status, extra)
  }

  /** After a lifecycle the job reads with its final status and extra
      fields, and its stream is the old one followed by the chunks. */
  lemma LifecycleEffect(s: Store, id: Id, chunks: seq<string>, status: string, extra: map<string, string>)
    requires STATUS !in extra
    ensures var t := Run(s, Lifecycle(id, chunks, status, extra));
      && StatusOf(t, id) == Some(status)
      && (forall k :: k in extra ==> Get(StateOf(t, id), k) == Some(extra[k]))
      && StreamOf(t, id) == StreamOf(s, id) + chunks
  {
    var first := UpdateState(id, PROCESSING, map[]);
    var middle := AppendAll(id, chunks);
    var last := UpdateState(id, status, extra);
    assert Lifecycle(id, chunks, status, extra) == first + (middle + last);
    RunAppend(s, first, middle + last);
    var s1 := Run(s, first);
    UpdateStateEffect(s, id, PROCESSING, map[]);
    RunAppend(s1, middle, last);
    HistoryAfterAppends(s1, id, chunks);
    UpdateStateEffect(Run(s1, middle), id, status, extra);
  }

  /** A lifecycle sets its terminal status only after its last chunk. */
  lemma LifecycleOrdered(id: Id, chunks: seq<string>, status: string, extra: map<string, string>)
    requires STATUS !in extra
    ensures StatusAfterLastChunk(Lifecycle(id, chunks, status, extra), id)
  {
    var ws := Lifecycle(id, chunks, status, extra);
    forall i | 0 <= i < |ws| - 1 ensures !SetsTerminal(ws[i], id) {
      if i > 0 {
        assert ws[i] == Append(id, chunks[i - 1]);
      }
    }
  }
}

=== FILE: text.dfy ===
/** String helpers with the semantics of the Python and JavaScript string
    methods the source calls (`startswith`, `endswith`, `split`, `strip`,
    `"".join`, `str(int)`, `slice(-n)`, `trim`). Strings are `seq<char>`
    of code points; whitespace is each language's own set. */
module Text {
  import opened Wrappers

  predicate StartsWith(s: string, prefix: string) {
    |prefix| <= |s| && s[..|prefix|] == prefix
  }

  predicate EndsWith(s: string, suffix: string) {
    |suffix| <= |s| && s[|s| - |suffix|..] == suffix
  }

  /** Python's `"".join(parts)`. */
  function Concat(parts: seq<string>): (r: string)
    ensures |parts| == 0 ==> r == ""
  {
    if |parts| == 0 then "" else Concat(parts[..|parts| - 1]) + parts[|parts| - 1]
  }

  lemma {:induction false} ConcatAppend(a: seq<string>, b: seq<string>)
    ensures Concat(a + b) == Concat(a) + Concat(b)
    decreases |b|
  {
    if |b| == 0 {
      assert a + b == a;
    } else {
      var b' := b[..|b| - 1];
      assert (a + b)[..|a + b| - 1] == a + b';
      ConcatAppend(a, b');
    }
  }

  /** `sep.join(parts)`. */
  function Join(parts: seq<string>, sep: string): string
  {
    if |parts| == 0 then ""
    else if |parts| == 1 then parts[0]
    else parts[0] + sep + Join(parts[1..], sep)
  }

  /** Python's `s.split(d)` for a one-character separator: never empty, and
      the pieces joined back with `d` give `s` again. */
  function Split(s: string, d: char): (r: seq<string>)
    ensures |r| >= 1
    ensures forall i :: 0 <= i < |r| ==> d !in r[i]
    ensures Join(r, [d]) == s
    decreases |s|
  {
    if |s| == 0 then [""]
    else if s[0] == d then
      var t := Split(s[1..], d);
      assert s == [d] + Join(t, [d]);
      [""] + t
    else
      var t := Split(s[1..], d);
      var r := [[s[0]] + t[0]] + t[1..];
      assert Join(r, [d]) == [s[0]] + Join(t, [d]) by {
        if |t| > 1 {
          assert r[1..] == t[1..];
        }
      }
      r
  }

  /** A piece without the separator splits to itself. */
  lemma {:induction false} SplitNoSeparator(p: string, d: char)
    requires d !in p
    ensures Split(p, d) == [p]
    decreases |p|
  {
    if |p| > 0 {
      SplitNoSeparator(p[1..], d);
      assert [p[0]] + p[1..] == p;
    }
  }

  /** Splitting at the first separator: the piece before it comes first. */
  lemma {:induction false} SplitFirst(p: string, d: char, rest: string)
    requires d !in p
    ensures Split(p + [d] + rest, d) == [p] + Split(rest, d)
    decreases |p|
  {
    var s := p + [d] + rest;
    if |p| == 0 {
      assert s[0] == d && s[1..] == rest;
    } else {
      assert s[0] == p[0] && s[1..] == p[1..] + [d] + rest;
      SplitFirst(p[1..], d, rest);
      assert [p[0]] + p[1..] == p;
    }
  }

  /** A string holding the separator splits into at least two pieces. */
  lemma SplitAtSeparator(s: string, d: char)
    requires d in s
    ensures |Split(s, d)| >= 2
  {
    var r := Split(s, d);
    var first := r[0];
    assert |r| == 1 ==> Join(r, [d]) == first;
  }

  /** `split` undoes `join` when no piece holds the separator. */
  lemma {:induction false} SplitOfJoin(parts: seq<string>, d: char)
    requires |parts| >= 1
    requires forall i :: 0 <= i < |parts| ==> d !in parts[i]
    ensures Split(Join(parts, [d]), d) == parts
    decreases |parts|
  {
    if |parts| == 1 {
      SplitNoSeparator(parts[0], d);
    } else {
      SplitOfJoin(parts[1..], d);
      assert Join(parts, [d]) == parts[0] + [d] + Join(parts[1..], [d]);
      SplitFirst(parts[0], d, Join(parts[1..], [d]));
      assert [parts[0]] + parts[1..] == parts;
    }
  }

  /** The characters Python's `str.isspace` accepts, which `str.strip()`
      removes: the ASCII tab to carriage return, the four information
      separators U+001C..U+001F, space, U+0085, no-break space, and the
      Unicode space separators and line and paragraph separators. */
  predicate IsSpace(c: char) {
    ('\t' <= c <= '\r') || ('\U{1C}' <= c <= ' ') || c == '\U{85}' || c == '\U{A0}'
    || c == '\U{1680}' || ('\U{2000}' <= c <= '\U{200A}') || c == '\U{2028}' || c == '\U{2029}'
    || c == '\U{202F}' || c == '\U{205F}' || c == '\U{3000}'
  }

  /** The characters JavaScript's `String.prototype.trim` removes: its
      WhiteSpace (tab, vertical tab, form feed, space, no-break space, the
      byte order mark and the Unicode space separators) and its
      LineTerminators (line feed, carriage return, U+2028, U+2029). Unlike
      Python it keeps U+001C..U+001F and U+0085 and removes U+FEFF. */
  predicate IsJsSpace(c: char) {
    ('\t' <= c <= '\r') || c == ' ' || c == '\U{A0}' || c == '\U{FEFF}'
    || c == '\U{1680}' || ('\U{2000}' <= c <= '\U{200A}') || c == '\U{2028}' || c == '\U{2029}'
    || c == '\U{202F}' || c == '\U{205F}' || c == '\U{3000}'
  }

  /** `s` without its leading characters in `space`. */
  function TrimLeft(s: string, space: char -> bool): (r: string)
    ensures |r| <= |s| && r == s[|s| - |r|..]
    ensures |r| > 0 ==> !space(r[0])
    ensures forall i :: 0 <= i < |s| - |r| ==> space(s[i])
  {
    if |s| > 0 && space(s[0]) then
      var r := TrimLeft(s[1..], space);
      assert s[1..][|s| - 1 - |r|..] == s[|s| - |r|..];
      assert forall i :: 1 <= i < |s| - |r| ==> s[i] == s[1..][i - 1];
      r
    else s
  }

  /** `s` without its trailing characters in `space`. */
  function TrimRight(s: string, space: char -> bool): (r: string)
    ensures |r| <= |s| && r == s[..|r|]
    ensures |r| > 0 ==> !space(r[|r| - 1])
    ensures forall i :: |r| <= i < |s| ==> space(s[i])
  {
    if |s| > 0 && space(s[|s| - 1]) then TrimRight(s[..|s| - 1], space) else s
  }

  /** `r` is `s` with its leading and trailing characters in `space`
      removed: a slice of `s` with only such characters around it, and
      neither starting nor ending with one. */
  ghost predicate StrippedOf(r: string, s: string, space: char -> bool) {
    && (|r| > 0 ==> !space(r[0]) && !space(r[|r| - 1]))
    && exists i, j :: 0 <= i <= j <= |s| && r == s[i..j]
         && (forall k :: 0 <= k < i ==> space(s[k]))
         && (forall k :: j <= k < |s| ==> space(s[k]))
  }

  /** The slice bounds a `StrippedOf` result comes from. */
  lemma StrippedBounds(r: string, s: string, space: char -> bool) returns (i: nat, j: nat)
    requires StrippedOf(r, s, space)
    ensures i <= j <= |s| && r == s[i..j]
    ensures forall k :: 0 <= k < i ==> space(s[k])
    ensures forall k :: j <= k < |s| ==> space(s[k])
  {
    i, j :| 0 <= i <= j <= |s| && r == s[i..j]
      && (forall k :: 0 <= k < i ==> space(s[k]))
      && (forall k :: j <= k < |s| ==> space(s[k]));
  }

  /** What `StrippedOf` leaves is empty exactly when `s` is all `space`. */
  lemma StrippedEmpty(r: string, s: string, space: char -> bool)
    requires StrippedOf(r, s, space)
    ensures |r| == 0 <==> forall k :: 0 <= k < |s| ==> space(s[k])
  {
    var i, j := StrippedBounds(r, s, space);
    if |r| > 0 {
      SliceEnds(r, s, space, i, j);
    }
  }

  /** `StrippedOf` pins its result down: there is one stripped form of a
      string. */
  lemma StrippedUnique(r1: string, r2: string, s: string, space: char -> bool)
    requires StrippedOf(r1, s, space) && StrippedOf(r2, s, space)
    ensures r1 == r2
  {
    StrippedEmpty(r1, s, space);
    StrippedEmpty(r2, s, space);
    var i1, j1 := StrippedBounds(r1, s, space);
    var i2, j2 := StrippedBounds(r2, s, space);
    if |r1| > 0 {
      SliceEnds(r1, s, space, i1, j1);
      SliceEnds(r2, s, space, i2, j2);
      assert i1 <= i2 && i2 <= i1;
      assert j1 <= j2 && j2 <= j1;
    }
  }

  lemma SliceEnds(r: string, s: string, space: char -> bool, i: nat, j: nat)
    requires i <= j <= |s| && r == s[i..j]
    requires |r| > 0 && !space(r[0]) && !space(r[|r| - 1])
    ensures i < j && !space(s[i]) && !space(s[j - 1])
  {
    assert s[i] == r[0] && s[j - 1] == r[|r| - 1];
  }

  lemma TrimmedSlice(s: string, left: string, r: string, space: char -> bool)
    requires |left| <= |s| && left == s[|s| - |left|..]
    requires forall k :: 0 <= k < |s| - |left| ==> space(s[k])
    requires |left| > 0 ==> !space(left[0])
    requires |r| <= |left| && r == left[..|r|]
    requires |r| > 0 ==> !space(r[|r| - 1])
    requires forall k :: |r| <= k < |left| ==> space(left[k])
    ensures StrippedOf(r, s, space)
  {
    var i := |s| - |left|;
    var j := i + |r|;
    assert r == s[i..j];
    forall k | j <= k < |s| ensures space(s[k]) {
      assert s[k] == left[k - i];
    }
    if |r| > 0 {
      assert r[0] == left[0];
    }
  }

  /** Python's `s.strip()`. */
  function Strip(s: string): (r: string)
    ensures |r| > 0 ==> !IsSpace(r[0]) && !IsSpace(r[|r| - 1])
  {
    TrimRight(TrimLeft(s, IsSpace), IsSpace)
  }

  /** `Strip` removes exactly the leading and trailing Python whitespace. */
  lemma StripIsStripped(s: string)
    ensures StrippedOf(Strip(s), s, IsSpace)
  {
    var left := TrimLeft(s, IsSpace);
    TrimmedSlice(s, left, TrimRight(left, IsSpace), IsSpace);
  }

  /** A string that neither starts nor ends with whitespace is its own
      `strip()`. */
  lemma StripUnpadded(s: string)
    requires |s| > 0 && !IsSpace(s[0]) && !IsSpace(s[|s| - 1])
    ensures Strip(s) == s
  {
    assert TrimLeft(s, IsSpace) == s;
  }

  /** JavaScript's `s.trim()`. */
  function Trim(s: string): (r: string)
    ensures |r| > 0 ==> !IsJsSpace(r[0]) && !IsJsSpace(r[|r| - 1])
  {
    TrimRight(TrimLeft(s, IsJsSpace), IsJsSpace)
  }

  /** `Trim` removes exactly the leading and trailing JavaScript
      whitespace. */
  lemma TrimIsStripped(s: string)
    ensures StrippedOf(Trim(s), s, IsJsSpace)
  {
    var left := TrimLeft(s, IsJsSpace);
    TrimmedSlice(s, left, TrimRight(left, IsJsSpace), IsJsSpace);
  }

  function DigitChar(d: nat): char
    requires d < 10
  {
    "0123456789"[d]
  }

  /** Decimal rendering of a natural number, as Python's `str(n)`. */
  function NatToString(n: nat): (r: string)
    ensures |r| >= 1
    ensures forall i :: 0 <= i < |r| ==> '0' <= r[i] <= '9'
  {
    if n < 10 then [DigitChar(n)] else NatToString(n / 10) + [DigitChar(n % 10)]
  }

  lemma DigitCharInjective(a: nat, b: nat)
    requires a < 10 && b < 10
    ensures DigitChar(a) == DigitChar(b) ==> a == b
  {
  }

  /** Different numbers render differently. */
  lemma {:induction false} NatToStringInjective(a: nat, b: nat)
    ensures NatToString(a) == NatToString(b) ==> a == b
    decreases a
  {
    var sa, sb := NatToString(a), NatToString(b);
    if a < 10 && b < 10 {
      DigitCharInjective(a, b);
    } else if a >= 10 && b >= 10 {
      NatToStringInjective(a / 10, b / 10);
      DigitCharInjective(a % 10, b % 10);
      assert sa[..|sa| - 1] == NatToString(a / 10) && sa[|sa| - 1] == DigitChar(a % 10);
      assert sb[..|sb| - 1] == NatToString(b / 10) && sb[|sb| - 1] == DigitChar(b % 10);
    } else if a < 10 {
      assert |NatToString(b / 10)| >= 1;
      assert |sa| == 1 && |sb| >= 2;
    } else {
      assert |NatToString(a / 10)| >= 1;
      assert |sb| == 1 && |sa| >= 2;
    }
  }

  /** `str(i)` for an arbitrary integer. */
  function IntToString(i: int): (r: string)
    ensures |r| >= 1
  {
    if i < 0 then "-" + NatToString(-i) else NatToString(i)
  }

  /** JavaScript's `s.slice(-n)` for `n <= |s|`. */
  function LastN(s: string, n: nat): (r: string)
    requires n <= |s|
    ensures |r| == n && EndsWith(s, r)
  {
    s[|s| - n..]
  }

  /** `s.find(c)`: the first position of `c`, if any. */
  function IndexOf(s: string, c: char): (r: Option<nat>)
    ensures r.None? <==> c !in s
    ensures r.Some? ==> r.value < |s| && s[r.value] == c && c !in s[..r.value]
  {
    if |s| == 0 then None
    else if s[0] == c then Some(0)
    else
      match IndexOf(s[1..], c)
      case None => None
      case Some(k) =>
        assert s[..k + 1] == [s[0]] + s[1..][..k];
        Some(k + 1)
  }

  /** `s.rfind(c)`: the last position of `c`, if any. */
  function LastIndexOf(s: string, c: char): (r: Option<nat>)
    ensures r.None? <==> c !in s
    ensures r.Some? ==> r.value < |s| && s[r.value] == c && c !in s[r.value + 1..]
  {
    if |s| == 0 then None
    else if s[|s| - 1] == c then Some(|s| - 1)
    else
      match LastIndexOf(s[..|s| - 1], c)
      case None =>
        assert s == s[..|s| - 1] + [s[|s| - 1]];
        None
      case Some(k) =>
        assert s[k + 1..] == s[..|s| - 1][k + 1..] + [s[|s| - 1]];
        Some(k)
  }

  /** Python's slice `s[a:b]` for in-range bounds: empty when `b <= a`. */
  function Slice(s: string, a: nat, b: nat): (r: string)
    requires a <= |s| && b <= |s|
    ensures a < b ==> r == s[a..b]
    ensures b <= a ==> r == ""
  {
    if a < b then s[a..b] else ""
  }
}

=== FILE: tool_names.dfy ===
/** Tool-name sanitising and the Groq tool declaration
    (`FixedGroqLLM._convert_tool_to_groq_format`,
    src/agentic/llms/groq_fixed.py), and the character-class replacement
    also used when vLLM messages are converted (src/agentic/llms/vllm.py).

    A parameter's `to_property()` belongs to the agent runtime and is
    carried as an opaque map. */
module ToolNames {
  import opened Wrappers

  /** The character class `[a-zA-Z0-9_-]`. */
  predicate Allowed(c: char) {
    ('a' <= c <= 'z') || ('A' <= c <= 'Z') || ('0' <= c <= '9') || c == '_' || c == '-'
  }

  predicate AllAllowed(s: string) {
    forall i :: 0 <= i < |s| ==> Allowed(s[i])
  }

  /** `re.sub(r'[^a-zA-Z0-9_-]', '_', s)`: every character outside the
      class becomes `_`, the others stay, and the length is kept. */
  function Sanitize(s: string): (r: string)
    ensures |r| == |s| && AllAllowed(r)
    ensures forall i :: 0 <= i < |s| && Allowed(s[i]) ==> r[i] == s[i]
    ensures forall i :: 0 <= i < |s| && !Allowed(s[i]) ==> r[i] == '_'
    decreases |s|
  {
    if |s| == 0 then ""
    else
      var c := s[|s| - 1];
      Sanitize(s[..|s| - 1]) + [if Allowed(c) then c else '_']
  }

  /** `re.match(r'^[a-zA-Z0-9_-]+$', s)`. In Python `$` matches at the end
      of the string and also just before a newline that ends it. */
  predicate MatchesAsWritten(s: string) {
    || (|s| > 0 && AllAllowed(s))
    || (|s| > 1 && s[|s| - 1] == '\n' && AllAllowed(s[..|s| - 1]))
  }

  /** The Groq name as the code computes it: kept when the pattern
      matches, sanitised otherwise. */
  function GroqNameAsWritten(name: string): (r: string)
    ensures |r| == |name|
    ensures MatchesAsWritten(name) ==> r == name
  {
    if MatchesAsWritten(name) then name else Sanitize(name)
  }

  /** The Groq name as intended: kept only when every character is in the
      class, sanitised otherwise. */
  function GroqName(name: string): (r: string)
    ensures |r| == |name| && AllAllowed(r)
    ensures AllAllowed(name) ==> r == name
  {
    if |name| > 0 && AllAllowed(name) then name else Sanitize(name)
  }

  /** A tool parameter. */
  datatype Param = Param(name: string, required: bool, property: map<string, string>)

  /** A tool as declared to the agent runtime. */
  datatype Tool = Tool(name: string, description: Option<string>, params: seq<Param>)

  /** The `{"type": "function", "function": {...}}` declaration. */
  datatype GroqTool = GroqTool(name: string, description: string,
                               properties: map<string, map<string, string>>,
                               required: seq<string>, additionalProperties: bool)

  /** The names of the required parameters, in declaration order. */
  function RequiredNames(params: seq<Param>): (r: seq<string>)
    ensures |r| <= |params|
    ensures forall n :: n in r <==> exists i :: 0 <= i < |params| && params[i].required && params[i].name == n
    decreases |params|
  {
    if |params| == 0 then []
    else
      var last := params[|params| - 1];
      var r := RequiredNames(params[..|params| - 1]);
      assert forall i :: 0 <= i < |params| - 1 ==> params[..|params| - 1][i] == params[i];
      if last.required then r + [last.name] else r
  }

  /** `{param.name: param.to_property() for param in params}`: a later
      parameter with the same name replaces an earlier one. */
  function Properties(params: seq<Param>): (r: map<string, map<string, string>>)
    ensures r.Keys == set i | 0 <= i < |params| :: params[i].name
    decreases |params|
  {
    if |params| == 0 then map[]
    else
      var init := params[..|params| - 1];
      var m := Properties(init);
      var all := set i | 0 <= i < |params| :: params[i].name;
      var before := set i | 0 <= i < |init| :: init[i].name;
      assert all == before + {params[|params| - 1].name} by {
        forall n | n in all
          ensures n in before + {params[|params| - 1].name}
        {
          var i :| 0 <= i < |params| && params[i].name == n;
          if i < |init| {
            assert init[i].name == n;
          }
        }
      }
      m[params[|params| - 1].name := params[|params| - 1].property]
  }

  /** `_convert_tool_to_groq_format`, with the intended name check. */
  function ConvertTool(tool: Tool): (g: GroqTool)
    ensures g.name == GroqName(tool.name)
    ensures g.description == (if tool.description.Some? then tool.description.value else "")
    ensures !g.additionalProperties
    ensures g.required == RequiredNames(tool.params) && g.properties == Properties(tool.params)
  {
    GroqTool(GroqName(tool.name), tool.description.GetOr(""), Properties(tool.params),
             RequiredNames(tool.params), false)
  }

  // ---------------------------------------------------------------------
  // Properties
  // ---------------------------------------------------------------------

  /** Sanitising twice is sanitising once. */
  lemma SanitizeIdempotent(s: string)
    ensures Sanitize(Sanitize(s)) == Sanitize(s)
  {
  }

  /** A name already in the class is left alone. */
  lemma SanitizeKeepsAllowed(s: string)
    requires AllAllowed(s)
    ensures Sanitize(s) == s
  {
  }

  /** The check in the code is only a shortcut for the intended name: the
      intended name is always the sanitised one. */
  lemma GroqNameIsSanitize(name: string)
    ensures GroqName(name) == Sanitize(name)
  {
    if |name| > 0 && AllAllowed(name) {
      SanitizeKeepsAllowed(name);
    }
  }

  /** The code and the intended name agree on every name except one of
      allowed characters followed by a single final newline. */
  lemma GroqNameAgreesExceptFinalNewline(name: string)
    requires !(|name| > 1 && name[|name| - 1] == '\n' && AllAllowed(name[..|name| - 1]))
    ensures GroqNameAsWritten(name) == GroqName(name)
  {
  }

  /** The discrepancy: a name of allowed characters followed by a newline
      passes the check and is sent unchanged, newline included. */
  lemma FinalNewlinePassesCheck(stem: string)
    requires |stem| > 0 && AllAllowed(stem)
    ensures var name := stem + "\n";
      && GroqNameAsWritten(name) == name
      && !AllAllowed(GroqNameAsWritten(name))
      && GroqName(name) == stem + "_"
  {
    var name := stem + "\n";
    assert name[..|name| - 1] == stem;
    assert !Allowed(name[|name| - 1]);
    GroqNameIsSanitize(name);
    assert Sanitize(name) == stem + "_";
  }

  /** The required list only depends on the parameters in order: the
      required names of a concatenation are those of each part in turn. */
  lemma {:induction false} RequiredNamesAppend(a: seq<Param>, b: seq<Param>)
    ensures RequiredNames(a + b) == RequiredNames(a) + RequiredNames(b)
    decreases |b|
  {
    if |b| == 0 {
      assert a + b == a;
    } else {
      var b' := b[..|b| - 1];
      assert (a + b)[..|a + b| - 1] == a + b';
      RequiredNamesAppend(a, b');
    }
  }

  /** The property of a name is that of the last parameter bearing it. */
  lemma {:induction false} LastParamWins(params: seq<Param>, i: nat)
    requires i < |params|
    requires forall j :: i < j < |params| ==> params[j].name != params[i].name
    ensures Properties(params)[params[i].name] == params[i].property
    decreases |params|
  {
    if i < |params| - 1 {
      var init := params[..|params| - 1];
      assert init[i] == params[i];
      LastParamWins(init, i);
    }
  }
}

=== FILE: webhook_service.dfy ===
/** `LLMService.triggerLLMService` (whatsapp-service/services/WebhookService.js):
    notify the agent host that a WhatsApp message was stored, signing the
    body with the active webhook's secret and retrying failed POSTs up to
    the configured count. HMAC-SHA256 and the POST itself are oracles:
    `post(k)` says whether the `k`-th POST (from 0) succeeds. */
module WebhookService {
  import opened Wrappers
  import opened Text
  import opened WaRepository

  const SIGNATURE_PREFIX: string := "sha256="

  /** One POST: the URL, the JSON body and the `X-Hub-Signature-256`
      header. */
  datatype Request = Request(url: string, body: string, signature: string)

  /** The POSTs made, in order, and whether one succeeded. */
  datatype Delivery = Delivery(requests: seq<Request>, delivered: bool)

  /** `JSON.stringify({id: messageId})`: an undefined id is dropped. */
  function Payload(messageId: Option<int>): (r: string)
    ensures messageId.None? ==> r == "{}"
    ensures messageId.Some? ==> r == "{\"id\":" + IntToString(messageId.value) + "}"
  {
    if messageId.Some? then "{\"id\":" + IntToString(messageId.value) + "}" else "{}"
  }

  /** The request every attempt sends. */
  function RequestFor(c: WebhookConfig, agentHost: string, messageId: Option<int>, hmac: (string, string) -> string): (r: Request)
    ensures r.url == agentHost + "/" + c.url
    ensures r.body == Payload(messageId)
    ensures r.signature == SIGNATURE_PREFIX + hmac(c.secret, r.body)
  {
    var body := Payload(messageId);
    Request(agentHost + "/" + c.url, body, SIGNATURE_PREFIX + hmac(c.secret, body))
  }

  function Max0(n: int): nat { if n > 0 then n else 0 }

  /** `triggerLLMService(messageId, db)`: nothing without an active
      configuration; otherwise the same signed request until one succeeds
      or `retries` have failed. */
  method TriggerLlmService(config: Option<WebhookConfig>, agentHost: string, messageId: Option<int>,
                           hmac: (string, string) -> string, post: nat -> bool)
    returns (d: Delivery)
    ensures config.None? ==> d == Delivery([], false)
    ensures config.Some? ==> forall k :: 0 <= k < |d.requests| ==> d.requests[k] == RequestFor(config.value, agentHost, messageId, hmac)
    ensures config.Some? ==> |d.requests| <= Max0(config.value.retries)
    ensures d.delivered <==> |d.requests| > 0 && post(|d.requests| - 1)
    ensures forall k :: 0 <= k < |d.requests| - 1 ==> !post(k)
    ensures config.Some? && !d.delivered ==> |d.requests| == Max0(config.value.retries)
  {
    if config.None? {
      return Delivery([], false);
    }
    var c := config.value;
    var request := RequestFor(c, agentHost, messageId, hmac);
    var attempts := 0;
    var requests: seq<Request> := [];
    var delivered := false;
    while attempts < c.retries && !delivered
      invariant 0 <= attempts <= Max0(c.retries)
      invariant |requests| == attempts + (if delivered then 1 else 0)
      invariant forall k :: 0 <= k < |requests| ==> requests[k] == request
      invariant forall k :: 0 <= k < attempts ==> !post(k)
      invariant delivered ==> post(attempts) && attempts < c.retries
      decreases c.retries - attempts, if delivered then 0 else 1
    {
      requests := requests + [request];
      if post(attempts) {
        delivered := true;
      } else {
        attempts := attempts + 1;
      }
    }
    d := Delivery(requests, delivered);
  }

  /** The number of POSTs a configuration with `retries` makes: up to and
      including the first success, at most `retries`. */
  function PostsMade(retries: int, post: nat -> bool, k: nat): (n: nat)
    decreases Max0(retries - k)
  {
    if k >= retries then k
    else if post(k) then k + 1
    else PostsMade(retries, post, k + 1)
  }

  /** The method's count agrees with the reference count, whether the
      deliveries stopped at a success or ran out of retries. */
  lemma DeliveryMatchesReference(c: WebhookConfig, post: nat -> bool, n: nat, delivered: bool)
    requires n <= Max0(c.retries)
    requires delivered <==> n > 0 && post(n - 1)
    requires forall k :: 0 <= k < n - 1 ==> !post(k)
    requires !delivered ==> n == Max0(c.retries)
    ensures n == PostsMade(c.retries, post, 0)
  {
    if delivered {
      SucceedsAt(c.retries, post, 0, n);
    } else {
      RunsOut(c.retries, post, 0);
    }
  }

  lemma {:induction false} SucceedsAt(retries: int, post: nat -> bool, k: nat, n: nat)
    requires k < n <= retries && post(n - 1)
    requires forall j :: k <= j < n - 1 ==> !post(j)
    ensures PostsMade(retries, post, k) == n
    decreases n - k
  {
    if k < n - 1 {
      SucceedsAt(retries, post, k + 1, n);
    }
  }

  lemma {:induction false} RunsOut(retries: int, post: nat -> bool, k: nat)
    requires k <= Max0(retries)
    requires forall j :: k <= j < Max0(retries) ==> !post(j)
    ensures PostsMade(retries, post, k) == Max0(retries)
    decreases Max0(retries) - k
  {
    if k < retries {
      RunsOut(retries, post, k + 1);
    }
  }
}

=== FILE: whatsapp_app.dfy ===
/** The gateway's message handler (`messenger.onMessage` in
    whatsapp-service/app.js): admit the message, map the sender to a POC
    user, find or create that user's inquiry conversation on the agent
    host, store the message and notify the agent host.

    The admin service and the agent host are oracles. An exception (a
    failed request, or a non-2xx reply, which axios turns into one) is
    `Err`; a reply whose `data` is missing is `Ok(None)`. */
module WhatsAppApp {
  import opened Wrappers
  import opened Text
  import opened WaRepository
  import WebhookService
  import ChatTables
  import ConversationService

  const GROUP_SUFFIX: string := "@g.us"
  const INQUIRY_AGENT: string := "inquiry"
  const INQUIRY_TITLE: string := "WhatsApp Inquiry"
  const MOBILE_DIGITS: nat := 10

  /** The incoming WhatsApp message: the chat id, the message id, the text
      and the sender's contact number. */
  datatype Incoming = Incoming(from: string, messageId: string, body: string, contactNumber: string)

  /** A point-of-contact record of the admin service. */
  datatype Poc = Poc(id: int, name: string)

  /** A conversation as the agent host returns it. */
  datatype RemoteConversation = RemoteConversation(id: int, agent: string)

  /** The remote calls the handler makes: the POC lookup by mobile
      number, and the agent host's list (user id, limit), update (id, new
      agent) and create (user id, agent, title) of conversations. */
  datatype Services = Services(
    findPocs: string -> Result<Option<seq<Poc>>>,
    listConversations: (int, nat) -> Result<Option<seq<RemoteConversation>>>,
    updateAgent: (int, string) -> Result<Option<RemoteConversation>>,
    createConversation: (int, string, string) -> Result<Option<RemoteConversation>>)

  /** Why a message was not stored. */
  datatype Stop = UnauthorizedGroup | NoPoc | AdminError | AgentError | WorkflowError

  /** The handler's decision: stop, or store this record. */
  datatype Decision = Dropped(stop: Stop) | Store(data: MessageData)

  /** `rawNumber.length > 10 ? rawNumber.slice(-10) : rawNumber`. */
  function MobileNumber(raw: string): (r: string)
    ensures |raw| <= MOBILE_DIGITS ==> r == raw
    ensures |raw| > MOBILE_DIGITS ==> |r| == MOBILE_DIGITS
    ensures EndsWith(raw, r)
  {
    if |raw| > MOBILE_DIGITS then LastN(raw, MOBILE_DIGITS) else raw
  }

  predicate IsGroup(from: string) {
    EndsWith(from, GROUP_SUFFIX)
  }

  function TrimAll(ids: seq<string>): (r: seq<string>)
    ensures |r| == |ids|
    ensures forall i :: 0 <= i < |ids| ==> r[i] == Trim(ids[i])
  {
    seq(|ids|, i requires 0 <= i < |ids| => Trim(ids[i]))
  }

  /** `ALLOWED_GROUP_IDS` split at commas and trimmed; unset or empty
      means no group is allowed. */
  function AllowedGroups(env: Option<string>): (r: seq<string>)
    ensures env.None? || env.value == "" ==> r == []
    ensures env.Some? && env.value != "" ==> r == TrimAll(Split(env.value, ','))
  {
    if env.Some? && env.value != "" then TrimAll(Split(env.value, ',')) else []
  }

  /** Steps 2: the first POC's id, or why there is none. */
  function FindUser(mobile: string, s: Services): (r: Result<int>)
    ensures s.findPocs(mobile).Err? ==> r == Err("admin")
    ensures r.Ok? <==> s.findPocs(mobile).Ok? && s.findPocs(mobile).value.Some? && |s.findPocs(mobile).value.value| > 0
    ensures r.Ok? ==> r.value == s.findPocs(mobile).value.value[0].id
  {
    match s.findPocs(mobile)
    case Err(_) => Err("admin")
    case Ok(None) => Err("no poc")
    case Ok(Some(pocs)) => if |pocs| == 0 then Err("no poc") else Ok(pocs[0].id)
  }

  /** Steps 3 and 4: the user's latest conversation, switched to the
      inquiry agent when it has another one, or a new inquiry
      conversation when there is none. */
  function ChooseConversation(userId: int, s: Services): (r: Result<Option<RemoteConversation>>)
    ensures s.listConversations(userId, 1).Err? ==> r.Err?
    ensures s.listConversations(userId, 1).Ok? ==>
      var listed := s.listConversations(userId, 1).value;
      if listed.Some? && |listed.value| > 0 then
        (if listed.value[0].agent == INQUIRY_AGENT then r == Ok(Some(listed.value[0]))
         else r == s.updateAgent(listed.value[0].id, INQUIRY_AGENT))
      else r == s.createConversation(userId, INQUIRY_AGENT, INQUIRY_TITLE)
  {
    match s.listConversations(userId, 1)
    case Err(e) => Err(e)
    case Ok(listed) =>
      if listed.Some? && |listed.value| > 0 then
        var first := listed.value[0];
        if first.agent != INQUIRY_AGENT then s.updateAgent(first.id, INQUIRY_AGENT) else Ok(Some(first))
      else s.createConversation(userId, INQUIRY_AGENT, INQUIRY_TITLE)
  }

  /** The group gate: direct chats pass, groups only when listed. */
  predicate Admitted(msg: Incoming, allowedEnv: Option<string>) {
    !IsGroup(msg.from) || msg.from in AllowedGroups(allowedEnv)
  }

  /** Everything `onMessage` decides before writing. A message is stored
      exactly when it passes the gate, a POC is found and the agent host
      hands back a conversation; each other outcome names where it
      stopped. */
  function Decide(msg: Incoming, allowedEnv: Option<string>, s: Services): (d: Decision)
    ensures !Admitted(msg, allowedEnv) ==> d == Dropped(UnauthorizedGroup)
    ensures Admitted(msg, allowedEnv) && s.findPocs(MobileNumber(msg.contactNumber)).Err? ==> d == Dropped(AdminError)
    ensures (Admitted(msg, allowedEnv) && s.findPocs(MobileNumber(msg.contactNumber)).Ok?
             && FindUser(MobileNumber(msg.contactNumber), s).Err?) ==> d == Dropped(NoPoc)
    ensures Admitted(msg, allowedEnv) && FindUser(MobileNumber(msg.contactNumber), s).Ok? ==>
      var conv := ChooseConversation(FindUser(MobileNumber(msg.contactNumber), s).value, s);
      && (conv.Err? ==> d == Dropped(AgentError))
      && (conv == Ok(None) ==> d == Dropped(WorkflowError))
      && (conv.Ok? && conv.value.Some? ==> d.Store?)
    ensures d.Store? ==>
      && (IsGroup(msg.from) ==> msg.from in AllowedGroups(allowedEnv))
      && d.data.whatsappId == msg.messageId
      && d.data.fromNumber == MobileNumber(msg.contactNumber)
      && d.data.groupId == (if IsGroup(msg.from) then Some(msg.from) else None)
      && d.data.body == msg.body
      && !d.data.isFromMe
      && FindUser(MobileNumber(msg.contactNumber), s) == Ok(d.data.userId)
      && ChooseConversation(d.data.userId, s).Ok?
      && ChooseConversation(d.data.userId, s).value.Some?
      && ChooseConversation(d.data.userId, s).value.value.id == d.data.conversationId
  {
    var mobile := MobileNumber(msg.contactNumber);
    var group := IsGroup(msg.from);
    if group && msg.from !in AllowedGroups(allowedEnv) then Dropped(UnauthorizedGroup)
    else
      match FindUser(mobile, s)
      case Err(why) => if why == "admin" then Dropped(AdminError) else Dropped(NoPoc)
      case Ok(userId) =>
        match ChooseConversation(userId, s)
        case Err(_) => Dropped(AgentError)
        case Ok(None) => Dropped(WorkflowError)
        case Ok(Some(conv)) =>
          Store(MessageData(msg.messageId, mobile, if group then Some(msg.from) else None, msg.body,
                            false, conv.id, userId))
  }

  /** `onMessage(msg)`: store the decided record, then notify the agent
      host with the stored row's id. */
  method OnMessage(db: WaDb, msg: Incoming, allowedEnv: Option<string>, s: Services, now: int,
                   agentHost: string, hmac: (string, string) -> string, post: nat -> bool)
    returns (db': WaDb, notified: Option<WebhookService.Delivery>)
    ensures Decide(msg, allowedEnv, s).Dropped? ==> db' == db && notified.None?
    ensures Decide(msg, allowedEnv, s).Store? ==>
      var (saved, id) := SaveMessage(db, Decide(msg, allowedEnv, s).data, now);
      && db' == saved
      && notified.Some?
      && (GetActiveWebhook(db').Some? ==>
            forall k :: 0 <= k < |notified.value.requests| ==>
              notified.value.requests[k].body == WebhookService.Payload(Some(id)))
      && (GetActiveWebhook(db').None? ==> notified.value.requests == [])
  {
    var d := Decide(msg, allowedEnv, s);
    if d.Dropped? {
      return db, None;
    }
    var saved := SaveMessage(db, d.data, now);
    db' := saved.0;
    var delivery := WebhookService.TriggerLlmService(GetActiveWebhook(db'), agentHost, Some(saved.1), hmac, post);
    notified := Some(delivery);
  }

  // ---------------------------------------------------------------------
  // Properties
  // ---------------------------------------------------------------------

  /** Direct (non-group) chats are never turned away at the group gate. */
  lemma DirectChatsPassTheGate(msg: Incoming, allowedEnv: Option<string>, s: Services)
    requires !IsGroup(msg.from)
    ensures Decide(msg, allowedEnv, s) != Dropped(UnauthorizedGroup)
  {
  }

  /** With `ALLOWED_GROUP_IDS` unset or empty, every group message is
      dropped, whatever the remote services would answer. */
  lemma NoAllowListDropsGroups(msg: Incoming, allowedEnv: Option<string>, s: Services)
    requires IsGroup(msg.from)
    requires allowedEnv.None? || allowedEnv.value == ""
    ensures Decide(msg, allowedEnv, s) == Dropped(UnauthorizedGroup)
  {
  }

  /** Every id listed in `ALLOWED_GROUP_IDS`, blanks around it trimmed,
      is admitted. */
  lemma ListedGroupsAdmitted(ids: seq<string>, i: nat)
    requires i < |ids|
    requires forall k :: 0 <= k < |ids| ==> ',' !in ids[k]
    requires Join(ids, [',']) != ""
    ensures Trim(ids[i]) in AllowedGroups(Some(Join(ids, [','])))
  {
    SplitOfJoin(ids, ',');
    assert TrimAll(ids)[i] == Trim(ids[i]);
  }

  /** The stored record's conversation uses the inquiry agent whenever the
      agent host answered as asked: an existing inquiry conversation is
      reused as it is. */
  lemma ExistingInquiryReused(userId: int, s: Services, c: RemoteConversation, rest: seq<RemoteConversation>)
    requires s.listConversations(userId, 1) == Ok(Some([c] + rest))
    requires c.agent == INQUIRY_AGENT
    ensures ChooseConversation(userId, s) == Ok(Some(c))
  {
    assert ([c] + rest)[0] == c;
  }

  /** A redelivered WhatsApp message is stored once: the second save
      writes nothing and yields the first save's id, which is notified
      again. */
  lemma RedeliveryStoresOnce(db: WaDb, msg: Incoming, allowedEnv: Option<string>, s: Services, now: int, later: int)
    requires Wf(db)
    requires Decide(msg, allowedEnv, s).Store?
    ensures var data := Decide(msg, allowedEnv, s).data;
      var (db1, id1) := SaveMessage(db, data, now);
      SaveMessage(db1, data, later) == (db1, id1)
  {
    var data := Decide(msg, allowedEnv, s).data;
    SaveTwice(db, data, data, now, later);
  }

  // ---------------------------------------------------------------------
  // The agent host as this repository's conversation service
  // ---------------------------------------------------------------------

  function Remote(c: ChatTables.ConversationRow): RemoteConversation {
    RemoteConversation(c.id, c.agent)
  }

  function RemoteAll(cs: seq<ChatTables.ConversationRow>): (r: seq<RemoteConversation>)
    ensures |r| == |cs|
    ensures forall i :: 0 <= i < |cs| ==> r[i] == Remote(cs[i])
  {
    seq(|cs|, i requires 0 <= i < |cs| => Remote(cs[i]))
  }

  /** The agent host's replies when it serves `GET`, `PUT` and `POST
      /api/conversations` from `db` with `ConversationService` (an unknown
      id on `PUT` is a 404, which axios raises). */
  function HostedBy(db: ChatTables.ChatDb, now: int, findPocs: string -> Result<Option<seq<Poc>>>): Services {
    Services(
      findPocs,
      (userId: int, limit: nat) => Ok(Some(RemoteAll(ConversationService.GetConversations(db, userId, limit, 0)))),
      (id: int, agent: string) =>
        var updated := ConversationService.UpdateConversation(db, id, ConversationService.ConversationUpdate(None, Some(agent))).1;
        if updated.Some? then Ok(Some(Remote(updated.value))) else Err("Conversation not found"),
      (userId: int, agent: string, title: string) =>
        Ok(Some(Remote(ConversationService.CreateConversation(db, ConversationService.ConversationCreate(userId, agent, Some(title)), now).1))))
  }

  /** Switching the agent of an existing conversation returns it with
      the new agent and its owner unchanged. */
  lemma HostedUpdate(db: ChatTables.ChatDb, c: ChatTables.ConversationRow, agent: string)
    requires ChatTables.Wf(db)
    requires c in db.conversations
    ensures var u := ConversationService.UpdateConversation(db, c.id, ConversationService.ConversationUpdate(None, Some(agent))).1;
      u.Some? && u.value.agent == agent && u.value.id == c.id && u.value.userId == c.userId
  {
    var upd := ConversationService.ConversationUpdate(None, Some(agent));
    ConversationService.UpdateThenGet(db, c.id, upd);
    var j :| 0 <= j < |db.conversations| && db.conversations[j] == c;
    var before := ConversationService.GetConversation(db, c.id);
    var k :| 0 <= k < |db.conversations| && db.conversations[k] == before.value;
    assert ChatTables.ConversationId(db.conversations[k]) == ChatTables.ConversationId(db.conversations[j]);
  }

  /** Against this repository's own agent service, the handler always ends
      up with a conversation of the sender's user that runs the inquiry
      agent: the user's newest one, switched if need be, or a new one. */
  lemma HostedConversationIsInquiry(db: ChatTables.ChatDb, now: int, findPocs: string -> Result<Option<seq<Poc>>>, userId: int)
    requires ChatTables.Wf(db)
    ensures var r := ChooseConversation(userId, HostedBy(db, now, findPocs));
      && r.Ok? && r.value.Some? && r.value.value.agent == INQUIRY_AGENT
      && (r.value.value.id == db.nextConversationId ||
          exists c :: c in db.conversations && c.id == r.value.value.id && c.userId == userId)
  {
    var s := HostedBy(db, now, findPocs);
    var listed := ConversationService.GetConversations(db, userId, 1, 0);
    assert s.listConversations(userId, 1) == Ok(Some(RemoteAll(listed)));
    var r := ChooseConversation(userId, s);
    if |listed| > 0 {
      var c := listed[0];
      assert c in db.conversations && c.userId == userId;
      if c.agent != INQUIRY_AGENT {
        HostedUpdate(db, c, INQUIRY_AGENT);
        var u := ConversationService.UpdateConversation(db, c.id, ConversationService.ConversationUpdate(None, Some(INQUIRY_AGENT))).1;
        assert r == Ok(Some(Remote(u.value))) by {
          assert r == s.updateAgent(c.id, INQUIRY_AGENT);
        }
      } else {
        assert r == Ok(Some(Remote(c)));
      }
    } else {
      var created := ConversationService.CreateConversation(db, ConversationService.ConversationCreate(userId, INQUIRY_AGENT, Some(INQUIRY_TITLE)), now).1;
      assert r == Ok(Some(Remote(created))) by {
        assert r == s.createConversation(userId, INQUIRY_AGENT, INQUIRY_TITLE);
      }
    }
  }
}

=== FILE: whatsapp_service.dfy ===
/** `WhatsAppService` (src/services/whatsapp_service.py): the agent
    service's view of the gateway's `whatsapp_messages` table as chat
    messages. A row sent by the account itself reads as the assistant's,
    any other as the user's; `body` is the content and there is no
    metadata. */
module WhatsAppService {
  import opened Wrappers
  import opened Sorting
  import opened Rows
  import opened WaRepository
  import SqlUpdate
  import MessageService

  const ASSISTANT: string := "assistant"
  const USER: string := "user"

  /** The selected columns: `id, conversation_id, role, content, metadata
      (always NULL)`, `from_number` where the query selects it, and
      `timestamp`. */
  datatype ChatMessage = ChatMessage(id: int, conversationId: int, role: string, content: string,
                                     metadata: Option<string>, fromNumber: Option<string>, timestamp: int)

  /** `CASE WHEN is_from_me THEN 'assistant' ELSE 'user' END`. */
  function Role(isFromMe: bool): (r: string)
    ensures r == ASSISTANT <==> isFromMe
    ensures r == USER <==> !isFromMe
  {
    if isFromMe then ASSISTANT else USER
  }

  /** One row as `get_message` and `update_message` read it. */
  function AsChatMessage(m: WaRow): (r: ChatMessage)
    ensures r.id == m.id && r.conversationId == m.conversationId && r.content == m.body
    ensures r.role == Role(m.isFromMe) && r.metadata.None?
    ensures r.fromNumber == Some(m.fromNumber) && r.timestamp == m.timestamp
  {
    ChatMessage(m.id, m.conversationId, Role(m.isFromMe), m.body, None, Some(m.fromNumber), m.timestamp)
  }

  /** The rows as the conversation listing reads them, without
      `from_number`. */
  function AsListed(ms: seq<WaRow>): (r: seq<ChatMessage>)
    ensures |r| == |ms|
    ensures forall i :: 0 <= i < |ms| ==> r[i] == AsChatMessage(ms[i]).(fromNumber := None)
  {
    seq(|ms|, i requires 0 <= i < |ms| => AsChatMessage(ms[i]).(fromNumber := None))
  }

  /** `get_message(id)`. */
  function GetMessage(db: WaDb, id: int): (r: Option<ChatMessage>)
    ensures r.Some? <==> HasId(db.messages, WaRowId, id)
    ensures r.Some? ==> exists m :: m in db.messages && m.id == id && r.value == AsChatMessage(m)
  {
    match FindById(db.messages, WaRowId, id)
    case None => None
    case Some(m) => Some(AsChatMessage(m))
  }

  function TimestampDesc(m: WaRow): int { -m.timestamp }

  function InConversation(conversationId: int): WaRow -> bool {
    (m: WaRow) => m.conversationId == conversationId
  }

  /** `get_messages_by_conversation_desc(conversation_id, limit=20)`:
      newest first. */
  function GetMessagesByConversationDesc(db: WaDb, conversationId: int, limit: nat): (r: seq<ChatMessage>)
    ensures |r| <= limit
    ensures forall i :: 0 <= i < |r| ==> r[i].conversationId == conversationId
    ensures forall i :: 0 <= i < |r| ==> exists m :: m in db.messages && r[i] == AsChatMessage(m).(fromNumber := None)
    ensures forall i, j :: 0 <= i < j < |r| ==> r[i].timestamp >= r[j].timestamp
    ensures exists rows :: IsSortedPage(rows, db.messages, InConversation(conversationId), TimestampDesc, limit, 0)
                           && r == AsListed(rows)
  {
    var rows := Select(db.messages, InConversation(conversationId), TimestampDesc, limit, 0);
    assert forall i, j :: 0 <= i < j < |rows| ==> TimestampDesc(rows[i]) <= TimestampDesc(rows[j]);
    AsListed(rows)
  }

  /** Only `content` maps to a column (`body`); metadata has none. */
  function UpdateFields(data: MessageService.MessageUpdate): seq<SqlUpdate.Field> {
    [SqlUpdate.Field("body", if data.content.Some? then Some(SqlUpdate.PStr(data.content.value)) else None)]
  }

  function WriteColumn(m: WaRow, column: string, value: SqlUpdate.Param): WaRow {
    if column == "body" && value.PStr? then m.(body := value.s) else m
  }

  /** `update_message(id, data)`: the new body written to the row with that
      id, which is returned as the service reads it; with no content, the
      row as it is. Metadata is ignored. */
  function UpdateMessage(db: WaDb, id: int, data: MessageService.MessageUpdate): (r: (WaDb, Option<ChatMessage>))
    ensures r.0.webhooks == db.webhooks && r.0.nextMessageId == db.nextMessageId
    ensures |r.0.messages| == |db.messages|
    ensures forall i :: 0 <= i < |db.messages| ==>
      r.0.messages[i] == (if db.messages[i].id == id && data.content.Some? then db.messages[i].(body := data.content.value)
                          else db.messages[i])
    ensures r.1 == GetMessage(r.0, id)
  {
    match SqlUpdate.BuildUpdate("whatsapp_messages", UpdateFields(data), id)
    case None =>
      assert UpdateFields(data)[0].value.None?;
      (db, GetMessage(db, id))
    case Some(q) =>
      var fs := UpdateFields(data);
      assert fs[1..] == [];
      assert SqlUpdate.Supplied(fs) == fs;
      assert q.columns == ["body"] && q.params[0] == SqlUpdate.PStr(data.content.value);
      var rows := SqlUpdate.Execute(db.messages, q, WaRowId, WriteColumn);
      forall i | 0 <= i < |db.messages| && db.messages[i].id == id
        ensures rows[i] == db.messages[i].(body := data.content.value)
      {
        var m := db.messages[i];
        assert SqlUpdate.Assign(m, q.columns, q.params, WriteColumn)
            == SqlUpdate.Assign(WriteColumn(m, "body", q.params[0]), q.columns[1..], q.params[1..], WriteColumn);
      }
      var db' := db.(messages := rows);
      (db', GetMessage(db', id))
  }

  /** `delete_message(id)`: whether a row went. */
  function DeleteMessage(db: WaDb, id: int): (r: (WaDb, bool))
    ensures r.1 <==> GetMessage(db, id).Some?
    ensures GetMessage(r.0, id).None?
    ensures r.0.webhooks == db.webhooks
    ensures forall i :: 0 <= i < |r.0.messages| ==> r.0.messages[i] in db.messages
    ensures forall i :: 0 <= i < |db.messages| && db.messages[i].id != id ==> db.messages[i] in r.0.messages
  {
    var (rows, gone) := DeleteById(db.messages, WaRowId, id);
    (db.(messages := rows), gone)
  }

  // ---------------------------------------------------------------------
  // Properties
  // ---------------------------------------------------------------------

  /** Metadata in an update changes nothing. */
  lemma MetadataIgnored(db: WaDb, id: int, content: Option<string>, a: Option<MessageService.Json>, b: Option<MessageService.Json>)
    ensures UpdateMessage(db, id, MessageService.MessageUpdate(content, a)) == UpdateMessage(db, id, MessageService.MessageUpdate(content, b))
  {
    assert UpdateFields(MessageService.MessageUpdate(content, a)) == UpdateFields(MessageService.MessageUpdate(content, b));
  }

  /** A message the gateway stores for a new incoming WhatsApp message
      (never one the account sent) reads back here, under the id the
      webhook carries, as the user's message with its body as content. */
  lemma StoredInboundReadsAsUser(db: WaDb, data: MessageData, now: int)
    requires Wf(db)
    requires !data.isFromMe && FindByWhatsappId(db.messages, data.whatsappId).None?
    ensures var (db', id) := SaveMessage(db, data, now);
      GetMessage(db', id) == Some(ChatMessage(id, data.conversationId, USER, data.body, None, Some(data.fromNumber), now))
  {
    var (db', id) := SaveMessage(db, data, now);
    var row := db'.messages[|db.messages|];
    assert db'.messages == db.messages + [row];
    FindFresh(db.messages, WaRowId, row);
  }

  /** An update finds the row exactly when a lookup would, and what it
      returns is that row read back with the new content, or unchanged when
      no content was given. */
  lemma UpdateThenGet(db: WaDb, id: int, data: MessageService.MessageUpdate)
    requires Wf(db)
    ensures var (db', r) := UpdateMessage(db, id, data);
      && (r.Some? <==> GetMessage(db, id).Some?)
      && (r.Some? ==> r.value == GetMessage(db, id).value.(content := data.content.GetOr(GetMessage(db, id).value.content)))
  {
    var (db', r) := UpdateMessage(db, id, data);
    assert forall i :: 0 <= i < |db.messages| ==> db'.messages[i].id == db.messages[i].id;
    assert UniqueIds(db'.messages, WaRowId);
    if j :| 0 <= j < |db.messages| && db.messages[j].id == id {
      FindUnique(db.messages, WaRowId, j);
      FindUnique(db'.messages, WaRowId, j);
    } else {
      assert !HasId(db'.messages, WaRowId, id);
    }
  }
}

=== FILE: wrappers.dfy ===
/** Failure-compatible wrappers shared by every module of the model:
    Option for Python's None / JavaScript's undefined, Result for a value
    or the message of an exception the source catches. */
module Wrappers {

  datatype Option<+T> = None | Some(value: T) {

    /** The value, or `default` when absent (Python's `x or default`
        when only None is falsy). */
    function GetOr(default: T): T {
      match this
      case Some(v) => v
      case None => default
    }
  }

  datatype Result<+R> = Ok(value: R) | Err(message: string)

  /** A dictionary lookup in the style of Python's `dict.get(k)`. */
  function Get<K, V>(m: map<K, V>, k: K): (r: Option<V>)
    ensures r.Some? <==> k in m
    ensures r.Some? ==> r.value == m[k]
  {
    if k in m then Some(m[k]) else None
  }
}
